=== FILE: README.md ===
# Stanford NLP annotation consolidation, modelled in Dafny

This project models the core of the GraphAware Stanford NLP processor. The processor turns the raw
per-token output of the CoreNLP annotators into the records a sentence
stores:

- deduplicated tags (keyed by lemma), tag occurrences, noun phrases,
  typed dependencies and coreference links;
- the pipelines it builds and keeps under a name, with their stopword
  annotator;
- the German lemma annotator.

The CoreNLP annotators themselves are not modelled. Their results are inputs: tokens with begin/end offsets, word, original
text, "before" text, and optional lemma, POS, NE label and stopword pair; a
constituency tree; a dependency graph; coreference chains.

Modules (one file each):

| module | file | what it models |
|---|---|---|
| `Wrappers` | wrappers.dfy | `Option` / `Result` |
| `JavaText` | javatext.dfy | the Java string operations the code relies on: `split` (trailing empty fields dropped), `trim`, ASCII `toLowerCase`, `startsWith`, `indexOf`, `replace`, `Boolean.parseBoolean`/`toString`, `Long.intValue` |
| `Domain` | domain.dfy | tokens, tags, occurrences, phrases, dependencies, and a sentence with its add-or-get tag map |
| `TokenMerger` | tokenmerger.dfy | `extractTokens`, `TokenHolder`, `getTag`, `getTokenIdsToUse` |
| `MergeSpec` | mergespec.dfy | an independent reading of `extractTokens` as a segmentation, the theorem linking the two, and the quirks of the branch order |
| `Phrases` | phrases.dfy | `inspectSubTree`, `PhraseHolder`, `extractPhrases` |
| `Whitelist` | whitelist.dfy | `filterWhitelist` |
| `Dependencies` | dependencies.dfy | `extractDependencies` |
| `Coreference` | coreference.dfy | `extractRelationship` |
| `PipelineBuilder` | pipelinebuilder.dfy | `PipelineBuilder` |
| `Stopwords` | stopwords.dfy | `StopwordAnnotator` |
| `GermanLemma` | germanlemma.dfy | `GermanLemmaAnnotator` |
| `Processor` | processor.dfy | the pipeline registry, `createPipeline`, `getCustomModelsPaths`, `createModelFileName`, and `annotateTag` / `annotateTags` / `annotateSentence` |

Things the code leaves to code outside this model are parameters:

- the punctuation regex behind `checkLemmaIsValid` (`Config.isValidLemma`), held by `Domain.ChecksPunctuation` to the examples the punctuation unit test lists;
- the lemma a `Tag` stores once constructed (`Config.tagLemma`);
- the model-location lookup of `getModelLocation`, which may fail;
- the random UUID of a custom stopword annotator;
- the default stopword list;
- the lines of the German lemma file.

An exception the source would throw is a `Failure` in the model.

## Model

Every source path below is under `src/main/java/com/graphaware/nlp/processor/stanford/`, which the
table writes out in full.

| member | source | states |
|---|---|---|
| Domain.AddTag | src/main/java/com/graphaware/nlp/processor/stanford/StanfordTextProcessor.java:214-218 | add-or-get by lemma: a new lemma stores the tag; a known lemma keeps its stored tag and gains the new POS and NE labels; every other lemma is untouched |
| Domain.AddTagCovered | src/main/java/com/graphaware/nlp/processor/stanford/StanfordTextProcessor.java:214-218 | adding a tag whose labels are already stored under its lemma leaves the tag map unchanged |
| Domain.AddTagsTwice | src/main/java/com/graphaware/nlp/processor/stanford/StanfordTextProcessor.java:214-218 | recording the same emissions twice gives the tag map of recording them once |
| Domain.AddAllStructured | src/main/java/com/graphaware/nlp/processor/stanford/StanfordTextProcessor.java:214-218 | recording occurrences keeps a sentence structured and linked: lists are non-empty and keyed by begin, each tag sits under its own lemma, every occurrence points at a stored tag |
| Domain.AddAllRecords | src/main/java/com/graphaware/nlp/processor/stanford/StanfordTextProcessor.java:214-218 | after recording, every emitted occurrence is in the list at its begin offset and its labels are on its tag |
| Domain.AddAllShape | src/main/java/com/graphaware/nlp/processor/stanford/StanfordTextProcessor.java:214-218 | the tag map afterwards is the add-or-get fold of the emitted tags; the begin offsets gain exactly the emitted begins; id, phrases and dependencies are untouched |
| TokenMerger.TokenIdsToUse | src/main/java/com/graphaware/nlp/processor/stanford/StanfordTextProcessor.java:866-872 | the ids used for an occurrence are never empty: the accumulated ids, or the current token's id when none have accumulated |
| TokenMerger.GetTag | src/main/java/com/graphaware/nlp/processor/stanford/StanfordTextProcessor.java:482-510 | no tag exactly when either stopword flag is set; otherwise POS and NE (background when absent) are the token's own; the lemma is the original text for an entity, and for a background token the word when the lemma equals it ignoring case, else the lemma |
| TokenMerger.BranchOf | src/main/java/com/graphaware/nlp/processor/stanford/StanfordTextProcessor.java:207-291 | which of the six branches a token takes: punctuation iff invalid lemma with background label; a plain/close branch iff valid lemma with background label; an entity branch iff a non-background label; continue only with the run's label, switch only with a different one |
| TokenMerger.StepGood | src/main/java/com/graphaware/nlp/processor/stanford/StanfordTextProcessor.java:207-300 | one token's branch and label tracking keep the holder invariant, and every occurrence it emits is well formed |
| TokenMerger.FoldGood | src/main/java/com/graphaware/nlp/processor/stanford/StanfordTextProcessor.java:195-300 | over a whole sentence the holder invariant holds and every emitted occurrence has a non-negative span, at least one id, only ids of the sentence's lemma-bearing tokens, at most one NE label, and with NER on no excluded label other than background |
| TokenMerger.MergeTokens | src/main/java/com/graphaware/nlp/processor/stanford/StanfordTextProcessor.java:190-311 | every occurrence extractTokens adds, the final flush included, is well formed in the sense above |
| TokenMerger.ExtractTokens | src/main/java/com/graphaware/nlp/processor/stanford/StanfordTextProcessor.java:190-311 | extractTokens keeps the sentence structured and linked, records every merged occurrence, adds exactly their begin offsets, and changes nothing else |
| TokenMerger.ExtractTwiceKeepsTags | src/main/java/com/graphaware/nlp/processor/stanford/StanfordTextProcessor.java:190-311 | running extractTokens a second time on the same tokens adds no tag, no label and no begin offset |
| MergeSpec.MergeIsSegmentation | src/main/java/com/graphaware/nlp/processor/stanford/StanfordTextProcessor.java:190-311 | on a sentence with lemmas everywhere, no excluded label and text on entity tokens, the six-branch machine equals the reference segmentation: valid background tokens alone, invalid ones dropped, each maximal same-label entity stretch one occurrence from first begin to last end with its text and ids in order |
| MergeSpec.MergeIgnoresLemmaless | src/main/java/com/graphaware/nlp/processor/stanford/StanfordTextProcessor.java:195-196 | tokens without a lemma take no part: the result equals that of the lemma-bearing tokens alone |
| MergeSpec.NoNerNoMerging | src/main/java/com/graphaware/nlp/processor/stanford/StanfordTextProcessor.java:200-204 | with no NER step nothing is merged: the occurrences are the valid-lemma tokens one by one, through getTag |
| MergeSpec.MissingNerMergesSentence | src/main/java/com/graphaware/nlp/processor/stanford/StanfordTextProcessor.java:201-204 | with NER on, tokens with no NE annotation get the label "" (not background), so a sentence of only such tokens becomes one occurrence spanning all of it |
| MergeSpec.ExcludedEntityDeferred | src/main/java/com/graphaware/nlp/processor/stanford/StanfordTextProcessor.java:275-310 | an excluded-label entity followed by a valid background token: the background token's occurrence comes first, and the entity is flushed only at the end, labelled background |
| MergeSpec.ExcludedEntitiesGlued | src/main/java/com/graphaware/nlp/processor/stanford/StanfordTextProcessor.java:275-310 | two consecutive excluded-label entities become one occurrence, their texts concatenated without the "before" text, labelled background, with both ids |
| MergeSpec.InvalidEntityKept | src/main/java/com/graphaware/nlp/processor/stanford/StanfordTextProcessor.java:207 | the punctuation filter applies to background tokens only: an admitted entity with an invalid lemma is still emitted |
| MergeSpec.PunctuationDropped | src/test/java/com/graphaware/nlp/unit/PunctuationCheck.java:22-29 | a background token whose lemma is "(", "-", ";", "," or "-lrb-" takes the punctuation branch of line 207 from any holder, and alone yields no occurrence |
| MergeSpec.WordKept | src/test/java/com/graphaware/nlp/unit/PunctuationCheck.java:17-27 | a background token whose lemma is "hello", "be", "monetary", "circuit" or "one-thousand" takes a plain or run-closing branch from any holder, and alone is one occurrence through getTag |
| Phrases.PhraseOfLeaves | src/main/java/com/graphaware/nlp/processor/stanford/StanfordTextProcessor.java:522-533 | a PhraseHolder filled with a node's leaves spans from the first leaf's begin to the last leaf's end, and its text is each word followed by a space |
| Phrases.InspectIsImage | src/main/java/com/graphaware/nlp/processor/stanford/StanfordTextProcessor.java:519-555 | inspectSubTree yields exactly the phrases of the tree's noun-phrase nodes (NP or NP-TMP in any case) and leaves, at any depth, also below a noun phrase |
| Phrases.LeafPhrases | src/main/java/com/graphaware/nlp/processor/stanford/StanfordTextProcessor.java:538-547 | every leaf of the tree gives the phrase "word " over its own span |
| Phrases.NounPhrases | src/main/java/com/graphaware/nlp/processor/stanford/StanfordTextProcessor.java:521-537 | every noun-phrase node with leaves gives the phrase of its words, from its first leaf's begin to its last leaf's end |
| Phrases.ParsedPhrases | src/main/java/com/graphaware/nlp/processor/stanford/StanfordTextProcessor.java:519-547 | on a tree whose inner nodes all have children, every extracted phrase has a non-empty text and a begin taken from a leaf, never the unset -1 |
| Phrases.ExtractPhrases | src/main/java/com/graphaware/nlp/processor/stanford/StanfordTextProcessor.java:174-183 | no tree changes nothing; otherwise the sentence's phrases grow by the phrases of the tree's noun phrases and leaves, and nothing else changes |
| Phrases.Compare | src/main/java/com/graphaware/nlp/processor/stanford/StanfordTextProcessor.java:723-737 | compareTo is 0 exactly for equal phrases; for different spans it is the lexicographic (begin, end) order, antisymmetric |
| Phrases.CompareInconsistent | src/main/java/com/graphaware/nlp/processor/stanford/StanfordTextProcessor.java:723-737 | two phrases over one span with different texts each compare as less than the other |
| Whitelist.ParseWhitelist | src/main/java/com/graphaware/nlp/processor/stanford/StanfordTextProcessor.java:318-321 | one entry per comma-separated field, each trimmed and lowercased |
| Whitelist.ParseWhitelistJoin | src/main/java/com/graphaware/nlp/processor/stanford/StanfordTextProcessor.java:318-321 | normal entries (lowercase, trimmed, comma-free, non-empty) written comma-separated parse back to themselves |
| Whitelist.FilterBy | src/main/java/com/graphaware/nlp/processor/stanford/StanfordTextProcessor.java:323-344 | an occurrence list stays iff its first occurrence's value or tag lemma, lowercased, is listed; a tag stays iff its lemma is not the lemma of a dropped first occurrence; kept entries are unchanged |
| Whitelist.FilterWhitelist | src/main/java/com/graphaware/nlp/processor/stanford/StanfordTextProcessor.java:313-345 | no whitelist, or one that splits into no fields (such as ","), leaves the sentence unchanged; any other whitelist filters by its parsed entries |
| Whitelist.FilterStructured | src/main/java/com/graphaware/nlp/processor/stanford/StanfordTextProcessor.java:323-344 | filtering keeps the sentence structured |
| Whitelist.FilterListed | src/main/java/com/graphaware/nlp/processor/stanford/StanfordTextProcessor.java:325-336 | every first occurrence left after filtering is listed |
| Whitelist.FilterAllListed | src/main/java/com/graphaware/nlp/processor/stanford/StanfordTextProcessor.java:325-344 | a sentence whose first occurrences are all listed loses nothing |
| Whitelist.FilterIdempotent | src/main/java/com/graphaware/nlp/processor/stanford/StanfordTextProcessor.java:313-345 | filtering twice with the same whitelist equals filtering once |
| Whitelist.FilterCanUnlink | src/main/java/com/graphaware/nlp/processor/stanford/StanfordTextProcessor.java:338-344 | tags are dropped by lemma, so an occurrence kept for its listed value loses its tag when another occurrence of that lemma is dropped: the sentence is no longer linked |
| Dependencies.RootRecords | src/main/java/com/graphaware/nlp/processor/stanford/StanfordTextProcessor.java:353-357 | one ROOT self-loop per root, in order, between the root's own synthetic id |
| Dependencies.EdgeRecords | src/main/java/com/graphaware/nlp/processor/stanford/StanfordTextProcessor.java:359-364 | one record per edge, in order, from the source token's id to the target's, with the relation's short name and specific part |
| Dependencies.GraphRecords | src/main/java/com/graphaware/nlp/processor/stanford/StanfordTextProcessor.java:353-364 | all root records first, then all edge records, at the stated positions |
| Dependencies.ExtractDependencies | src/main/java/com/graphaware/nlp/processor/stanford/StanfordTextProcessor.java:347-365 | no graph changes nothing; otherwise the dependencies grow by the graph's records and nothing else changes |
| Dependencies.DependencyIdsAreTokenIds | src/main/java/com/graphaware/nlp/processor/stanford/StanfordTextProcessor.java:353-364 | when the graph's words are lemma-bearing tokens of the sentence, every record's source and target is an id the token merger gives those tokens |
| Coreference.MentionSpan | src/main/java/com/graphaware/nlp/processor/stanford/StanfordTextProcessor.java:389-393 | a mention's span is defined iff its sentence, start-1 and end-2 indices are in range; it runs from token start-1's begin to token end-2's end |
| Coreference.Lookup | src/main/java/com/graphaware/nlp/processor/stanford/StanfordTextProcessor.java:394-397 | getPhraseOccurrence fails iff the sentence index is out of range, and otherwise finds a phrase iff one has that exact span |
| Coreference.ExtractRelationship | src/main/java/com/graphaware/nlp/processor/stanford/StanfordTextProcessor.java:367-369 | without coreference chains the references are unchanged |
| Coreference.LinkMentionsSound | src/main/java/com/graphaware/nlp/processor/stanford/StanfordTextProcessor.java:385-402 | the mention loop fails iff some non-representative mention is out of range; every link it adds goes from a found mention phrase to the representative; nothing is linked when the representative's phrase is missing |
| Coreference.LinkMentionsComplete | src/main/java/com/graphaware/nlp/processor/stanford/StanfordTextProcessor.java:398-401 | with the representative's phrase found, every found non-representative mention phrase ends up linked to it |
| Coreference.LinkMentionsKeeps | src/main/java/com/graphaware/nlp/processor/stanford/StanfordTextProcessor.java:385-402 | a link to the representative survives the rest of the chain's mentions |
| Coreference.ChainSkipped | src/main/java/com/graphaware/nlp/processor/stanford/StanfordTextProcessor.java:376-378 | the representative guard skips the whole chain, whatever its mentions' indices |
| Coreference.LinkChainSound | src/main/java/com/graphaware/nlp/processor/stanford/StanfordTextProcessor.java:370-403 | each reference after one chain was there before or links a found mention phrase of that chain to its found representative phrase |
| Coreference.LinkChainsSound | src/main/java/com/graphaware/nlp/processor/stanford/StanfordTextProcessor.java:367-405 | each reference afterwards was there before or is justified by some chain |
| Coreference.ReferencesAreToPhrases | src/main/java/com/graphaware/nlp/processor/stanford/StanfordTextProcessor.java:398-401 | both ends of every reference are existing phrase occurrences |
| PipelineBuilder.Apply | src/main/java/com/graphaware/nlp/processor/stanford/PipelineBuilder.java:61-129 | each step appends its fragment, after ", " when the string is not empty, and sets its properties over the existing ones, leaving the others |
| PipelineBuilder.ApplyAllAnnotators | src/main/java/com/graphaware/nlp/processor/stanford/PipelineBuilder.java:105-109 | after a run of steps the annotators are the previous string and the new fragments, all ", "-separated |
| PipelineBuilder.AnnotatorsAreJoin | src/main/java/com/graphaware/nlp/processor/stanford/PipelineBuilder.java:61-129 | a fresh builder's annotators string is the ", "-join of the fragments in call order |
| PipelineBuilder.PlusListExtendsDefaults | src/main/java/com/graphaware/nlp/processor/stanford/PipelineBuilder.java:200-214 | a custom list "+,w1,...,wn" gives the default words followed by w1 ... wn |
| PipelineBuilder.ComposePlusList | src/main/java/com/graphaware/nlp/processor/stanford/PipelineBuilder.java:148-152 | the composed list of "+,w1,...,wn" is the default words and w1 ... wn, comma-joined |
| PipelineBuilder.CustomStopWordAnnotator | src/main/java/com/graphaware/nlp/processor/stanford/PipelineBuilder.java:139-158 | fails iff the annotators already contain "stopword", with the separator already appended; otherwise appends name_uuid, registers the class under it, sets the composed list and the check-lemma flag |
| PipelineBuilder.SeparatorKeepsStopword | src/main/java/com/graphaware/nlp/processor/stanford/PipelineBuilder.java:140-142 | appending ", " first does not change whether "stopword" occurs |
| PipelineBuilder.StopWordAnnotator | src/main/java/com/graphaware/nlp/processor/stanford/PipelineBuilder.java:160-165 | every given property is copied over the existing ones; the rest are kept |
| PipelineBuilder.ThreadNumber | src/main/java/com/graphaware/nlp/processor/stanford/PipelineBuilder.java:167-170 | sets the thread count and nothing else |
| PipelineBuilder.WithCustomModels | src/main/java/com/graphaware/nlp/processor/stanford/PipelineBuilder.java:172-182 | the new paths go before the current "ner.model" value, with a comma only when that value is not blank; nothing else changes |
| PipelineBuilder.WithCustomModelsTwice | src/main/java/com/graphaware/nlp/processor/stanford/PipelineBuilder.java:172-182 | two calls stack: the later paths, a comma, the earlier paths |
| PipelineBuilder.Build | src/main/java/com/graphaware/nlp/processor/stanford/PipelineBuilder.java:184-189 | the properties handed over are the builder's, plus the annotators string and the thread count |
| Stopwords.GetStopWordList | src/main/java/com/graphaware/nlp/processor/stanford/StopwordAnnotator.java:127-134 | the set holds exactly the trimmed comma-separated fields |
| Stopwords.FromProperties | src/main/java/com/graphaware/nlp/processor/stanford/StopwordAnnotator.java:68-78 | check-lemma is on iff the property parses as true (off when unset); the set is empty without a list property, and the list's trimmed fields otherwise |
| Stopwords.Flags | src/main/java/com/graphaware/nlp/processor/stanford/StopwordAnnotator.java:86-88 | the word flag is set iff the lowercased word is listed; the lemma flag iff lemmas are checked, the lemma exists and is listed lowercased |
| Stopwords.Annotate | src/main/java/com/graphaware/nlp/processor/stanford/StopwordAnnotator.java:81-92 | nothing changes with an empty set or no token list; otherwise every token gets its pair and nothing else changes |
| Stopwords.Requires | src/main/java/com/graphaware/nlp/processor/stanford/StopwordAnnotator.java:100-119 | the lemma annotation is required iff lemmas are checked; the other requirements are fixed |
| Stopwords.AnnotateTwice | src/main/java/com/graphaware/nlp/processor/stanford/StopwordAnnotator.java:81-92 | annotating twice equals annotating once |
| Stopwords.AnnotatedTokenHasTag | src/main/java/com/graphaware/nlp/processor/stanford/StanfordTextProcessor.java:482-486 | after annotation getTag gives no tag exactly for listed words, and for listed lemmas when lemmas are checked |
| Stopwords.BuilderRoundTrip | src/main/java/com/graphaware/nlp/processor/stanford/PipelineBuilder.java:139-158 | the properties the builder writes read back as an annotator with the given check-lemma flag and the trimmed fields of the composed list |
| Stopwords.EmptyListAnnotates | src/main/java/com/graphaware/nlp/processor/stanford/StopwordAnnotator.java:127-134 | an empty list gives the set {""}, so annotation still runs |
| Stopwords.CommaListAnnotatesNothing | src/main/java/com/graphaware/nlp/processor/stanford/StopwordAnnotator.java:127-134 | the list "," gives the empty set, so tokens stay unannotated |
| GermanLemma.Entry | src/main/java/com/graphaware/nlp/processor/stanford/GermanLemmaAnnotator.java:24-25 | a line is usable iff it splits on tab into at least two fields: the word is the second, the lemma the first |
| GermanLemma.LoadSucceeds | src/main/java/com/graphaware/nlp/processor/stanford/GermanLemmaAnnotator.java:23-26 | loading fails iff some line has no second field |
| GermanLemma.LoadWord | src/main/java/com/graphaware/nlp/processor/stanford/GermanLemmaAnnotator.java:23-26 | a word is in the table iff it was before or some line names it; an old entry stays; a new word gets the lemma of its first line |
| GermanLemma.LemmaTableIsFirstWins | src/main/java/com/graphaware/nlp/processor/stanford/GermanLemmaAnnotator.java:17-27 | the table of a file maps exactly the words named by some line, each to the lemma on its first line |
| GermanLemma.LaterLineIgnored | src/main/java/com/graphaware/nlp/processor/stanford/GermanLemmaAnnotator.java:24-25 | a later line for a word already in the table changes nothing |
| GermanLemma.LoadAppend | src/main/java/com/graphaware/nlp/processor/stanford/GermanLemmaAnnotator.java:23-26 | loading one more line continues from the table built so far |
| GermanLemma.Annotate | src/main/java/com/graphaware/nlp/processor/stanford/GermanLemmaAnnotator.java:29-35 | every token's lemma becomes its word's table lemma, or the word itself; nothing else changes |
| GermanLemma.AnnotateWithFile | src/main/java/com/graphaware/nlp/processor/stanford/GermanLemmaAnnotator.java:17-35 | with a file's table a token's lemma is the lemma on its word's first line, or the word when no line names it |
| GermanLemma.AnnotateTwice | src/main/java/com/graphaware/nlp/processor/stanford/GermanLemmaAnnotator.java:29-35 | annotating twice equals annotating once |
| GermanLemma.Requires | src/main/java/com/graphaware/nlp/processor/stanford/GermanLemmaAnnotator.java:38-45 | the annotator needs POS tags but not lemmas |
| JavaText.JavaSplit | src/main/java/com/graphaware/nlp/processor/stanford/StopwordAnnotator.java:128 | Java split: the whole string when the separator is absent; otherwise the fields up to the last non-empty one, none holding the separator |
| JavaText.JavaSplitSeparatorOnly | src/main/java/com/graphaware/nlp/processor/stanford/StanfordTextProcessor.java:314 | a string of only the separator splits into no fields |
| JavaText.StripPlusDropsMarks | src/main/java/com/graphaware/nlp/processor/stanford/PipelineBuilder.java:149 | the two replace calls delete every '+' and every ',' right after one |
| JavaText.ParseBooleanRoundTrip | src/main/java/com/graphaware/nlp/processor/stanford/PipelineBuilder.java:155 | the flag written with Boolean.toString parses back to itself |
| JavaText.ToInt32 | src/main/java/com/graphaware/nlp/processor/stanford/StanfordTextProcessor.java:811-812 | Long.intValue: the 32-bit value congruent to the input modulo 2^32, the input itself when it fits |
| Processor.GetPipeline | src/main/java/com/graphaware/nlp/processor/stanford/StanfordTextProcessor.java:88-99 | succeeds iff the name ("tokenizer" when missing or empty) is registered, giving that pipeline |
| Processor.RemovePipeline | src/main/java/com/graphaware/nlp/processor/stanford/StanfordTextProcessor.java:836-840 | the name is gone and every other pipeline stays |
| Processor.StopWordListComposedOnce | src/main/java/com/graphaware/nlp/processor/stanford/StanfordTextProcessor.java:784-797 | the builder's own "+" rule leaves the list createPipeline composed as it is |
| Processor.Locations | src/main/java/com/graphaware/nlp/processor/stanford/StanfordTextProcessor.java:156-160 | succeeds iff every id's lookup does, giving the locations in id order |
| Processor.ModelPaths | src/main/java/com/graphaware/nlp/processor/stanford/StanfordTextProcessor.java:155-164 | the ids are the "customNER" value split on ","; it fails iff some id's lookup fails; otherwise one path per id, each that id's location in order, and one more, the english default model, exactly for "en" in any case |
| Processor.CustomModelsPaths | src/main/java/com/graphaware/nlp/processor/stanford/StanfordTextProcessor.java:155-172 | fails iff some id's lookup fails; otherwise the located paths joined with ","; for "en" followed by "," and the english default model, or that model alone when there are no ids |
| Processor.CustomModelsPathsSplit | src/main/java/com/graphaware/nlp/processor/stanford/StanfordTextProcessor.java:155-172 | splitting the joined paths on "," gives back the locations and the default model |
| Processor.StopwordStageSucceeds | src/main/java/com/graphaware/nlp/processor/stanford/StanfordTextProcessor.java:759-797 | the builder's duplicate-stopword error cannot arise in createPipeline: no earlier step mentions "stopword" |
| Processor.RegisterOutcome | src/main/java/com/graphaware/nlp/processor/stanford/StanfordTextProcessor.java:814-828 | the name is registered when the model lookups succeed; a failing lookup is caught and registers nothing; other pipelines are untouched |
| Processor.CreatePipelineOutcome | src/main/java/com/graphaware/nlp/processor/stanford/StanfordTextProcessor.java:750-829 | createPipeline fails iff the name is taken; otherwise the registry gains the name when the models are found and is unchanged when not; no other pipeline changes |
| Processor.BuiltIffFound | src/main/java/com/graphaware/nlp/processor/stanford/StanfordTextProcessor.java:814-823 | a pipeline's properties are built exactly when the specification asks for no custom models or every custom model lookup succeeds; otherwise the exception is caught and nothing is built |
| Processor.CreatePipelineRegisters | src/main/java/com/graphaware/nlp/processor/stanford/StanfordTextProcessor.java:825-828 | without custom models the built properties are registered under the name |
| Processor.CreatedAnnotators | src/main/java/com/graphaware/nlp/processor/stanford/StanfordTextProcessor.java:757-809 | the annotators string is the early steps' fragments, the custom stopword annotator's name, then the late fragments, ", "-joined |
| Processor.CreatedProperties | src/main/java/com/graphaware/nlp/processor/stanford/StanfordTextProcessor.java:784-812 | a created pipeline holds those annotators, the composed stopword list, check-lemma on unless switched off, and the thread count wrapped to 32 bits |
| Processor.CreatedStopwordAnnotator | src/main/java/com/graphaware/nlp/processor/stanford/StanfordTextProcessor.java:784-797 | the stopword annotator of a created pipeline reads back the composed list's trimmed fields and the check-lemma flag |
| Processor.WhitelistEmptiesStopwords | src/main/java/com/graphaware/nlp/processor/stanford/StanfordTextProcessor.java:789-790 | a whitelist with a custom list not starting with "+" leaves the annotator with the stopword set {""} |
| Processor.CreateThenGetAndRemove | src/main/java/com/graphaware/nlp/processor/stanford/StanfordTextProcessor.java:836-840 | a created pipeline can be looked up by name, and removing it restores the previous registry |
| Processor.CreateModelFileName | src/main/java/com/graphaware/nlp/processor/stanford/StanfordTextProcessor.java:874-883 | the file name is lowercase and starts with the lowercased algorithm; "-" and the lowercased model id follow only for a non-empty id; it ends in ".ser.gz" |
| Processor.ModelFileNameIgnoresCase | src/main/java/com/graphaware/nlp/processor/stanford/StanfordTextProcessor.java:874-883 | the file name does not depend on the case of algorithm or model id |
| Processor.ValidTagsMembers | src/main/java/com/graphaware/nlp/processor/stanford/StanfordTextProcessor.java:574-577 | a tag is among the valid tags iff some token's getTag gives it with a valid lemma |
| Processor.ValidTagsFirst | src/main/java/com/graphaware/nlp/processor/stanford/StanfordTextProcessor.java:442-445 | the first valid tag is that of the first token that has one |
| Processor.AnnotateTags | src/main/java/com/graphaware/nlp/processor/stanford/StanfordTextProcessor.java:567-580 | no sentence gives no tags, a sentence without a token list fails, and otherwise the tokens' valid tags in order |
| Processor.AnnotateSentenceIsFirstTag | src/main/java/com/graphaware/nlp/processor/stanford/StanfordTextProcessor.java:436-451 | annotateSentence fails exactly when annotateTags does and otherwise gives its first tag, if any |
| Processor.AnnotateTag | src/main/java/com/graphaware/nlp/processor/stanford/StanfordTextProcessor.java:454-480 | no tag without a sentence or tokens; several tokens give a tag for the whole text with no POS or NE |
| Processor.AnnotateTagSingle | src/main/java/com/graphaware/nlp/processor/stanford/StanfordTextProcessor.java:462-469 | a one-token text gives that token's valid tag, as annotateSentence does |
| Processor.AnnotateTagMulti | src/main/java/com/graphaware/nlp/processor/stanford/StanfordTextProcessor.java:470-476 | a multi-token tag carries the text's lemma and no labels, whatever the tokens |

## Left out

- CoreNLP itself: tokenisation, tagging, parsing, NER, coreference and sentiment run outside this model. Their results are inputs.
- `annotateText`, `extendAnnotation` and `sentiment`/`extractSentiment` only call the annotators and assemble the operations modelled here. Sentiment scores are CoreNLP output.
- `train`, `test` and `NERModelTool` are left out: they only do model training and file I/O. Only `createModelFileName`, which names their files, is modelled.
- `getModelLocation` and `storeModelLocation` read and write a store outside this code. The lookup is a parameter that may fail.
- Loading a language properties file in the `PipelineBuilder` constructor, with its "Language module not found" error, is left out. A builder starts with no properties whatever the language.
- openIE is left out. `createPipeline` calls `openIE()` for that step, but `PipelineBuilder` declares no such method, so the step is not modelled.
- `extendPipeline` is an empty hook and is not modelled.
- `getPipelines` and `checkPipeline` are plain map queries and are not modelled.
- The `TokenHolder` token-id list is one mutable list shared with the occurrences that receive it; `reset` clears that list. The model records each occurrence's ids as a value at the time of the call.
- `Sentence`, `Tag`, `TagOccurrence` and `Phrase` are not part of this model:
  - `addTag` is modelled as add-or-get by lemma with label union;
  - the lemma a `Tag` ends up holding is the `tagLemma` parameter;
  - `Phrase` construction (including any trimming) is not modelled.
- A childless inner node (`Node(c, [])`) is not a parser tree: CoreNLP treats a tree without children as a leaf, which here is `Leaf` with its word and offsets. For such a node the model gives no phrase, or for category "NP" the empty phrase at -1..-1. `Phrases.ParsedPhrases` states what holds on trees without such nodes.
- `OriginalTextAnnotation` is taken to be always present (`Token.originalText` is a string, not an option). The two `TokenHolder` builders are therefore merged into one buffer. Were the annotation missing, the source's entity-continue branch would append "" to the token text and "null" to the original value, and the background branch would record a null text. The model does not cover that.
- `checkLemmaIsValid` uses a regex that is not part of this model. It is the `isValidLemma` parameter. The regex is not modelled, so a lemma outside the ten unit-test examples of `Domain.ChecksPunctuation` may be judged either way.
- Step-name constants, the fine-grained NER default and `PipelineSpecification` are not part of this model. Steps are an enumeration. The fine-grained default is taken as off, and "customNER" is present exactly when its model ids are.
- `getTag` with a null POS: the source stores a list holding null, the model an empty label set.
- `CharArraySetWrapper` ignore-case is left out. The stopword set is case-sensitive, as with the default "ignore-stopword-case" of false; the annotator lowercases what it looks up.
- Lowercasing and `equalsIgnoreCase` cover ASCII letters only.
- `String.trim` is modelled; Unicode case mapping is not.
- The default stopword list is a parameter; the builder and `createPipeline` use the same one.
- A `HashMap` of coreference chains and `edgeListSorted` have orders set by CoreNLP. Chains and edges are given as sequences in that order.
- A mention is compared with its representative by identity in the source and by id in the model.
- The phrase set is a mathematical set keyed by text and span. The `TreeSet` ordering is modelled only through `Compare`: phrases over one span with different texts are kept apart in the model.
- The German annotator's `annotate` with no token list (a NullPointerException in the source) is left out. Tokens are given as a sequence.
- Log and console output are left out.
- The stopword annotator a built pipeline runs is the class `PipelineBuilder` imports, `com.graphaware.nlp.processor.stanford.annotators.StopwordAnnotator` (PipelineBuilder.java:6, registered at lines 134 and 147), which is not part of this model. The `Stopwords` module models the same-package `com.graphaware.nlp.processor.stanford.StopwordAnnotator`, the class whose key `getTag` reads the stopword pair under. The model takes the two to agree: the same "stopword-list" and "check-lemma" property keys, the same annotate behaviour, and the pair stored under the key `getTag` reads.
- Stopwords.BuilderRoundTrip: reads the builder's properties with the same-package annotator's keys and parsing; that the registered `annotators.StopwordAnnotator` reads them the same way is assumed, not shown.
- Processor.CreatedStopwordAnnotator: describes the annotator of a created pipeline as the same-package class configured from its properties; the class actually registered is `annotators.StopwordAnnotator`, assumed to behave alike and to store its pair where `getTag` looks.
- Processor.WhitelistEmptiesStopwords: the set {""} is the one the same-package annotator would build from the registered list, under the same assumption about `annotators.StopwordAnnotator`.
- Processor.CustomModelsPathsSplit: requires that every model path is non-empty and comma-free, rather than deriving this for the literal default model.
- Processor.CreatedProperties: covers the properties of pipelines without custom models. With custom models, `Processor.RegisterOutcome` and `PipelineBuilder.WithCustomModels` give the "ner.model" value.
- MergeSpec.MergeIsSegmentation: holds only on sentences with no excluded label. The behaviour with excluded labels is stated by `MergeSpec.ExcludedEntityDeferred` and `MergeSpec.ExcludedEntitiesGlued` for two-token cases, not for whole sentences.

=== FILE: coreference.dfy ===
/**
  extractRelationship: coreference chains become one-way reference links from
  the phrase of each mention to the phrase of its chain's representative.

  Mentions address tokens the way the coreference annotator does: a 1-based
  sentence number and a 1-based token range [startIndex, endIndex) with an
  exclusive end, so a mention spans from the begin of token startIndex - 1 to
  the end of token endIndex - 2 of sentence sentNum - 1. Only the
  representative's end index is checked against the sentence length; every
  other out-of-range access throws, which the model reports as a Failure.
*/
module Coreference {
  import opened Wrappers
  import opened Domain

  datatype Mention = Mention(id: int, sentNum: int, startIndex: int, endIndex: int)

  /** A chain: its representative mention and all its mentions in textual order, the representative among them. */
  datatype Chain = Chain(representative: Mention, mentions: seq<Mention>)

  /** Where a phrase sits: sentence index and character span. */
  datatype SpanKey = SpanKey(sentence: int, begin: int, end: int)

  /**
    What the linker reads: each sentence's tokens (only their offsets are
    used) and each annotated sentence's phrase occurrences.
  */
  datatype Document = Document(tokens: seq<seq<Token>>, phrases: seq<set<PhraseSpan>>)

  /** Phrase references: the span of a mention's phrase mapped to the span of its representative's phrase. */
  type References = map<SpanKey, SpanKey>

  /** The span of a mention, or a Failure where the source would index out of range. */
  function MentionSpan(doc: Document, m: Mention): (r: Result<SpanKey, string>)
    ensures r.Success? <==> MentionInRange(doc, m)
    ensures r.Success? ==> r.value.sentence == m.sentNum - 1
    ensures r.Success? ==> r.value.begin == doc.tokens[m.sentNum - 1][m.startIndex - 1].begin
    ensures r.Success? ==> r.value.end == doc.tokens[m.sentNum - 1][m.endIndex - 2].end
  {
    var si := m.sentNum - 1;
    if !(0 <= si < |doc.tokens|) then Failure("sentence index out of range")
    else
      var toks := doc.tokens[si];
      if !(0 <= m.startIndex - 1 < |toks|) then Failure("start index out of range")
      else if !(0 <= m.endIndex - 2 < |toks|) then Failure("end index out of range")
      else Success(SpanKey(si, toks[m.startIndex - 1].begin, toks[m.endIndex - 2].end))
  }

  /** Every index the source computes for `m` is in range. */
  predicate MentionInRange(doc: Document, m: Mention) {
    && 0 <= m.sentNum - 1 < |doc.tokens|
    && 0 <= m.startIndex - 1 < |doc.tokens[m.sentNum - 1]|
    && 0 <= m.endIndex - 2 < |doc.tokens[m.sentNum - 1]|
  }

  /** A phrase occurrence with this span exists in that annotated sentence. */
  predicate PhraseExists(doc: Document, k: SpanKey) {
    && 0 <= k.sentence < |doc.phrases|
    && exists p :: p in doc.phrases[k.sentence] && p.begin == k.begin && p.end == k.end
  }

  /** getPhraseOccurrence: whether the phrase is found; Failure when the sentence index is out of range. */
  function Lookup(doc: Document, k: SpanKey): (r: Result<bool, string>)
    ensures r.Success? <==> 0 <= k.sentence < |doc.phrases|
    ensures r.Success? ==> (r.value <==> PhraseExists(doc, k))
  {
    if !(0 <= k.sentence < |doc.phrases|) then Failure("sentence index out of range")
    else Success(exists p :: p in doc.phrases[k.sentence] && p.begin == k.begin && p.end == k.end)
  }

  /** A non-representative mention the linker can handle without an exception. */
  predicate MentionOk(doc: Document, m: Mention) {
    MentionInRange(doc, m) && 0 <= m.sentNum - 1 < |doc.phrases|
  }

  /** The mention loop of one chain. */
  function LinkMentions(doc: Document, ms: seq<Mention>, repId: int, repKey: SpanKey, repFound: bool, refs: References)
    : Result<References, string>
    decreases |ms|
  {
    if |ms| == 0 then Success(refs)
    else if ms[0].id == repId then LinkMentions(doc, ms[1..], repId, repKey, repFound, refs)
    else
      var k :- MentionSpan(doc, ms[0]);
      var found :- Lookup(doc, k);
      var refs' := if repFound && found then refs[k := repKey] else refs;
      LinkMentions(doc, ms[1..], repId, repKey, repFound, refs')
  }

  /** The guard: the representative's end index minus one exceeds its sentence's token count. */
  predicate RepresentativeSkipped(doc: Document, c: Chain)
    requires 0 <= c.representative.sentNum - 1 < |doc.tokens|
  {
    c.representative.endIndex - 1 > |doc.tokens[c.representative.sentNum - 1]|
  }

  /** One chain: the guard, the representative's phrase, then the mention loop. */
  function LinkChain(doc: Document, c: Chain, refs: References): Result<References, string> {
    var rep := c.representative;
    var si := rep.sentNum - 1;
    if !(0 <= si < |doc.tokens|) then Failure("sentence index out of range")
    else if RepresentativeSkipped(doc, c) then Success(refs)
    else
      var repKey :- MentionSpan(doc, rep);
      var repFound :- Lookup(doc, repKey);
      LinkMentions(doc, c.mentions, rep.id, repKey, repFound, refs)
  }

  /** The loop over all chains, in order. */
  function LinkChains(doc: Document, chains: seq<Chain>, refs: References): Result<References, string>
    decreases |chains|
  {
    if |chains| == 0 then Success(refs)
    else
      var refs' :- LinkChain(doc, chains[0], refs);
      LinkChains(doc, chains[1..], refs')
  }

  /** extractRelationship: nothing without coreference chains. */
  function ExtractRelationship(doc: Document, chains: Option<seq<Chain>>, refs: References): (r: Result<References, string>)
    ensures chains.None? ==> r == Success(refs)
  {
    match chains
    case None => Success(refs)
    case Some(cs) => LinkChains(doc, cs, refs)
  }

  // ---------------------------------------------------------------------------
  // Properties

  /** `k` is the span of a non-representative mention in `ms` whose phrase exists. */
  predicate Justified(doc: Document, ms: seq<Mention>, repId: int, k: SpanKey) {
    exists i :: 0 <= i < |ms| && ms[i].id != repId && MentionSpan(doc, ms[i]) == Success(k) && PhraseExists(doc, k)
  }

  /** Each entry of `r` is an entry of `refs` or a link of a justified mention to the representative. */
  predicate LinksFrom(doc: Document, ms: seq<Mention>, repId: int, repKey: SpanKey, refs: References, r: References) {
    forall k :: k in r ==> (k in refs && r[k] == refs[k]) || (r[k] == repKey && Justified(doc, ms, repId, k))
  }

  /**
    The mention loop fails exactly when some non-representative mention has
    an index out of range; when it succeeds, every link it adds or replaces
    goes from a found non-representative mention phrase to the representative.
  */
  lemma {:induction false} LinkMentionsSound(doc: Document, ms: seq<Mention>, repId: int, repKey: SpanKey, repFound: bool, refs: References)
    ensures LinkMentions(doc, ms, repId, repKey, repFound, refs).Success?
        <==> forall i :: 0 <= i < |ms| && ms[i].id != repId ==> MentionOk(doc, ms[i])
    ensures LinkMentions(doc, ms, repId, repKey, repFound, refs).Success? ==>
              LinksFrom(doc, ms, repId, repKey, refs, LinkMentions(doc, ms, repId, repKey, repFound, refs).value)
    ensures !repFound ==> LinkMentions(doc, ms, repId, repKey, repFound, refs).Success? ==>
              LinkMentions(doc, ms, repId, repKey, repFound, refs).value == refs
    decreases |ms|
  {
    if |ms| > 0 {
      var tail := ms[1..];
      assert forall i :: 0 <= i < |tail| ==> tail[i] == ms[i + 1];
      if ms[0].id == repId {
        LinkMentionsSound(doc, tail, repId, repKey, repFound, refs);
        LinksFromWiden(doc, ms, repId, repKey, refs, LinkMentions(doc, ms, repId, repKey, repFound, refs));
      } else if MentionOk(doc, ms[0]) {
        var k := MentionSpan(doc, ms[0]).value;
        var found := Lookup(doc, k).value;
        var refs' := if repFound && found then refs[k := repKey] else refs;
        LinkMentionsSound(doc, tail, repId, repKey, repFound, refs');
        var r := LinkMentions(doc, ms, repId, repKey, repFound, refs);
        if r.Success? {
          forall k' | k' in r.value
            ensures (k' in refs && r.value[k'] == refs[k']) || (r.value[k'] == repKey && Justified(doc, ms, repId, k'))
          {
            if Justified(doc, tail, repId, k') {
              var i :| 0 <= i < |tail| && tail[i].id != repId && MentionSpan(doc, tail[i]) == Success(k') && PhraseExists(doc, k');
              assert ms[i + 1] == tail[i];
            } else if k' == k && repFound && found {
              assert MentionSpan(doc, ms[0]) == Success(k');
            }
          }
        }
      } else {
        assert !(forall i :: 0 <= i < |ms| && ms[i].id != repId ==> MentionOk(doc, ms[i]));
      }
    }
  }

  lemma LinksFromWiden(doc: Document, ms: seq<Mention>, repId: int, repKey: SpanKey, refs: References, r: Result<References, string>)
    requires |ms| > 0 && ms[0].id == repId
    requires r.Success? ==> LinksFrom(doc, ms[1..], repId, repKey, refs, r.value)
    ensures r.Success? ==> LinksFrom(doc, ms, repId, repKey, refs, r.value)
  {
    if r.Success? {
      forall k | k in r.value && !(k in refs && r.value[k] == refs[k])
        ensures r.value[k] == repKey && Justified(doc, ms, repId, k)
      {
        var i :| 0 <= i < |ms[1..]| && ms[1..][i].id != repId && MentionSpan(doc, ms[1..][i]) == Success(k) && PhraseExists(doc, k);
        assert ms[i + 1] == ms[1..][i];
      }
    }
  }

  /**
    Within one chain, when the representative's phrase is found, every
    non-representative mention whose phrase is found ends up linked to the
    representative.
  */
  lemma {:induction false} LinkMentionsComplete(doc: Document, ms: seq<Mention>, repId: int, repKey: SpanKey, refs: References)
    requires LinkMentions(doc, ms, repId, repKey, true, refs).Success?
    ensures forall i :: 0 <= i < |ms| && ms[i].id != repId && MentionSpan(doc, ms[i]).Success? && PhraseExists(doc, MentionSpan(doc, ms[i]).value)
              ==> MentionSpan(doc, ms[i]).value in LinkMentions(doc, ms, repId, repKey, true, refs).value
                  && LinkMentions(doc, ms, repId, repKey, true, refs).value[MentionSpan(doc, ms[i]).value] == repKey
    decreases |ms|
  {
    if |ms| > 0 {
      var tail := ms[1..];
      var r := LinkMentions(doc, ms, repId, repKey, true, refs);
      if ms[0].id == repId {
        LinkMentionsComplete(doc, tail, repId, repKey, refs);
        forall i | 1 <= i < |ms| ensures ms[i] == tail[i - 1] { }
      } else {
        var k := MentionSpan(doc, ms[0]).value;
        var found := Lookup(doc, k).value;
        var refs' := if found then refs[k := repKey] else refs;
        LinkMentionsComplete(doc, tail, repId, repKey, refs');
        forall i | 1 <= i < |ms| ensures ms[i] == tail[i - 1] { }
        if found {
          LinkMentionsKeeps(doc, tail, repId, repKey, refs', k);
        }
      }
    }
  }

  /** A link to the representative, once made, survives the rest of the chain's mentions. */
  lemma {:induction false} LinkMentionsKeeps(doc: Document, ms: seq<Mention>, repId: int, repKey: SpanKey, refs: References, k: SpanKey)
    requires k in refs && refs[k] == repKey
    requires LinkMentions(doc, ms, repId, repKey, true, refs).Success?
    ensures k in LinkMentions(doc, ms, repId, repKey, true, refs).value
    ensures LinkMentions(doc, ms, repId, repKey, true, refs).value[k] == repKey
    decreases |ms|
  {
    if |ms| > 0 {
      if ms[0].id == repId {
        LinkMentionsKeeps(doc, ms[1..], repId, repKey, refs, k);
      } else {
        var k0 := MentionSpan(doc, ms[0]).value;
        var found := Lookup(doc, k0).value;
        var refs' := if found then refs[k0 := repKey] else refs;
        LinkMentionsKeeps(doc, ms[1..], repId, repKey, refs', k);
      }
    }
  }

  /**
    The guard skips the whole chain: when the representative's end index
    minus one exceeds its sentence's token count, no mention of the chain is
    looked at, whether or not its own indices are in range.
  */
  lemma ChainSkipped(doc: Document, c: Chain, refs: References)
    requires 0 <= c.representative.sentNum - 1 < |doc.tokens| && RepresentativeSkipped(doc, c)
    ensures LinkChain(doc, c, refs) == Success(refs)
  {
  }

  /** The chain `c` justifies linking `k` to `v`: a found mention phrase to its found representative phrase. */
  predicate ChainLinks(doc: Document, c: Chain, k: SpanKey, v: SpanKey) {
    && MentionSpan(doc, c.representative) == Success(v)
    && PhraseExists(doc, v)
    && Justified(doc, c.mentions, c.representative.id, k)
  }

  lemma LinkChainSound(doc: Document, c: Chain, refs: References)
    requires LinkChain(doc, c, refs).Success?
    ensures forall k :: k in LinkChain(doc, c, refs).value ==>
              (k in refs && LinkChain(doc, c, refs).value[k] == refs[k]) || ChainLinks(doc, c, k, LinkChain(doc, c, refs).value[k])
  {
    var rep := c.representative;
    if !RepresentativeSkipped(doc, c) {
      var repKey := MentionSpan(doc, rep).value;
      var repFound := Lookup(doc, repKey).value;
      LinkMentionsSound(doc, c.mentions, rep.id, repKey, repFound, refs);
    }
  }

  /**
    Every reference the linker holds afterwards was there before or is
    justified by a chain: it goes from the found phrase of a
    non-representative mention to the found phrase of that chain's
    representative. In particular both ends are existing phrases.
  */
  lemma {:induction false} LinkChainsSound(doc: Document, chains: seq<Chain>, refs: References)
    requires LinkChains(doc, chains, refs).Success?
    ensures forall k :: k in LinkChains(doc, chains, refs).value ==>
              (k in refs && LinkChains(doc, chains, refs).value[k] == refs[k])
              || exists j :: 0 <= j < |chains| && ChainLinks(doc, chains[j], k, LinkChains(doc, chains, refs).value[k])
    decreases |chains|
  {
    if |chains| > 0 {
      var refs' := LinkChain(doc, chains[0], refs).value;
      LinkChainSound(doc, chains[0], refs);
      LinkChainsSound(doc, chains[1..], refs');
      var r := LinkChains(doc, chains, refs).value;
      forall k | k in r && !(k in refs && r[k] == refs[k])
        ensures exists j :: 0 <= j < |chains| && ChainLinks(doc, chains[j], k, r[k])
      {
        if k in refs' && r[k] == refs'[k] {
          assert ChainLinks(doc, chains[0], k, r[k]);
        } else {
          var j :| 0 <= j < |chains[1..]| && ChainLinks(doc, chains[1..][j], k, r[k]);
          assert chains[j + 1] == chains[1..][j];
        }
      }
    }
  }

  /** Both ends of every reference made by the linker are existing phrases. */
  lemma ReferencesAreToPhrases(doc: Document, chains: seq<Chain>, refs: References)
    requires forall k :: k in refs ==> PhraseExists(doc, k) && PhraseExists(doc, refs[k])
    requires LinkChains(doc, chains, refs).Success?
    ensures forall k :: k in LinkChains(doc, chains, refs).value ==>
              PhraseExists(doc, k) && PhraseExists(doc, LinkChains(doc, chains, refs).value[k])
  {
    LinkChainsSound(doc, chains, refs);
    var r := LinkChains(doc, chains, refs).value;
    forall k | k in r
      ensures PhraseExists(doc, k) && PhraseExists(doc, r[k])
    {
      if !(k in refs && r[k] == refs[k]) {
        var j :| 0 <= j < |chains| && ChainLinks(doc, chains[j], k, r[k]);
        var c := chains[j];
        var i :| 0 <= i < |c.mentions| && c.mentions[i].id != c.representative.id
                 && MentionSpan(doc, c.mentions[i]) == Success(k) && PhraseExists(doc, k);
      }
    }
  }
}

=== FILE: dependencies.dfy ===
/**
  extractDependencies: the dependency graph of a sentence becomes a list of
  typed-dependency records between synthetic token ids, one ROOT self-loop per
  root first, then one record per edge in the graph's sorted edge order.
*/
module Dependencies {
  import opened Wrappers
  import opened JavaText
  import opened Domain
  import opened TokenMerger

  /** A dependency edge between two words; `specific` is the relation's qualifier, if any. */
  datatype Edge = Edge(source: Token, target: Token, relation: string, specific: Option<string>)

  /** The enhanced dependency graph: its roots and its edges, already in edgeListSorted order. */
  datatype Graph = Graph(roots: seq<Token>, edges: seq<Edge>)

  /** The name of the self-loop relation recorded for each root. */
  const RootRelation: string := "ROOT"

  /** The ROOT self-loop of each root, in order. */
  function RootRecords(cfg: Config, roots: seq<Token>): (r: seq<TypedDependency>)
    ensures |r| == |roots|
    ensures forall i :: 0 <= i < |roots| ==> r[i] == TypedDependency(IdOf(cfg, roots[i]), IdOf(cfg, roots[i]), RootRelation, None)
    decreases |roots|
  {
    if |roots| == 0 then []
    else
      var id := IdOf(cfg, roots[0]);
      [TypedDependency(id, id, RootRelation, None)] + RootRecords(cfg, roots[1..])
  }

  /** One record per edge, in order, between the ids of its endpoints. */
  function EdgeRecords(cfg: Config, edges: seq<Edge>): (r: seq<TypedDependency>)
    ensures |r| == |edges|
    ensures forall i :: 0 <= i < |edges| ==>
              r[i] == TypedDependency(IdOf(cfg, edges[i].source), IdOf(cfg, edges[i].target), edges[i].relation, edges[i].specific)
    decreases |edges|
  {
    if |edges| == 0 then []
    else
      var e := edges[0];
      [TypedDependency(IdOf(cfg, e.source), IdOf(cfg, e.target), e.relation, e.specific)] + EdgeRecords(cfg, edges[1..])
  }

  /** The records of a graph: the ROOT self-loops of its roots, then its edges in order. */
  function GraphRecords(cfg: Config, g: Graph): (r: seq<TypedDependency>)
    ensures |r| == |g.roots| + |g.edges|
    ensures forall i :: 0 <= i < |g.roots| ==>
              r[i] == TypedDependency(IdOf(cfg, g.roots[i]), IdOf(cfg, g.roots[i]), RootRelation, None)
    ensures forall i :: 0 <= i < |g.edges| ==>
              r[|g.roots| + i] == TypedDependency(IdOf(cfg, g.edges[i].source), IdOf(cfg, g.edges[i].target),
                                                  g.edges[i].relation, g.edges[i].specific)
  {
    var rr := RootRecords(cfg, g.roots);
    var er := EdgeRecords(cfg, g.edges);
    ConcatAt(rr, er);
    rr + er
  }

  /** The records of a concatenation: the first part's, then the second's, shifted. */
  lemma ConcatAt(rr: seq<TypedDependency>, er: seq<TypedDependency>)
    ensures forall i :: 0 <= i < |rr| ==> (rr + er)[i] == rr[i]
    ensures forall i :: 0 <= i < |er| ==> (rr + er)[|rr| + i] == er[i]
  {
  }

  /**
    extractDependencies: nothing without a graph; otherwise the sentence's
    records grow by the graph's records, and nothing else changes. Token ids
    are built from the sentence's own id.
  */
  function ExtractDependencies(cfg: Config, s: Sentence, g: Option<Graph>): (r: Sentence)
    requires cfg.sentenceId == s.id
    ensures r.id == s.id && r.occurrences == s.occurrences && r.tags == s.tags && r.phrases == s.phrases
    ensures g.None? ==> r == s
    ensures g.Some? ==> r.dependencies == s.dependencies + GraphRecords(cfg, g.value)
  {
    match g
    case None => s
    case Some(graph) => s.(dependencies := s.dependencies + GraphRecords(cfg, graph))
  }

  /**
    The ids in the dependency records follow the token-merger formula: an
    endpoint that is one of the sentence's lemma-bearing tokens has the very
    id the merger gives that token, so records and tag occurrences share ids.
  */
  lemma DependencyIdsAreTokenIds(cfg: Config, ts: seq<Token>, g: Graph)
    requires forall r: Token :: r in g.roots ==> r in ts && r.lemmaText.Some?
    requires forall e: Edge :: e in g.edges ==> e.source in ts && e.target in ts && e.source.lemmaText.Some? && e.target.lemmaText.Some?
    ensures forall d: TypedDependency :: d in GraphRecords(cfg, g) ==> d.source in AllIds(cfg, ts) && d.target in AllIds(cfg, ts)
  {
    var rs := GraphRecords(cfg, g);
    forall i | 0 <= i < |rs|
      ensures rs[i].source in AllIds(cfg, ts) && rs[i].target in AllIds(cfg, ts)
    {
      if i < |g.roots| {
        TokenIdIn(cfg, ts, g.roots[i]);
      } else {
        EdgeIdsIn(cfg, ts, g, i - |g.roots|);
      }
    }
  }

  /** The record of an edge between lemma-bearing tokens of the sentence carries their ids. */
  lemma EdgeIdsIn(cfg: Config, ts: seq<Token>, g: Graph, j: int)
    requires 0 <= j < |g.edges|
    requires g.edges[j].source in ts && g.edges[j].target in ts
    requires g.edges[j].source.lemmaText.Some? && g.edges[j].target.lemmaText.Some?
    ensures GraphRecords(cfg, g)[|g.roots| + j].source in AllIds(cfg, ts)
    ensures GraphRecords(cfg, g)[|g.roots| + j].target in AllIds(cfg, ts)
  {
    TokenIdIn(cfg, ts, g.edges[j].source);
    TokenIdIn(cfg, ts, g.edges[j].target);
  }

  /** A lemma-bearing token of the sentence has its id among the merger's ids. */
  lemma TokenIdIn(cfg: Config, ts: seq<Token>, t: Token)
    requires t in ts && t.lemmaText.Some?
    ensures IdOf(cfg, t) in AllIds(cfg, ts)
  {
    var i :| 0 <= i < |ts| && ts[i] == t;
    assert IdOf(cfg, ts[i]) in AllIds(cfg, ts);
  }
}

=== FILE: domain.dfy ===
/**
  The values the annotation-consolidation engine reads and writes: the
  per-token features the external annotator hands over, and the Tag,
  TagOccurrence, phrase and typed-dependency records a Sentence collects.

  Sentence is modelled as the processor uses it: a map from begin offset to
  the list of occurrences starting there, and a lemma-keyed tag map whose
  `addTag` is add-or-get (an existing tag with the same lemma is returned and
  accumulates the POS and NE labels of the new one).
*/
module Domain {
  import opened Wrappers
  import opened JavaText

  /** SeqClassifierFlags.DEFAULT_BACKGROUND_SYMBOL: the NE label meaning "no entity". */
  const Background: string := "O"

  /** The (word is a stopword, lemma is a stopword) pair set by the stopword annotator. */
  datatype StopFlags = StopFlags(wordIsStopword: bool, lemmaIsStopword: bool)

  /**
    One CoreLabel as the processor reads it. `word` is the TextAnnotation,
    `originalText` the OriginalTextAnnotation, `before` the BeforeAnnotation
    ("" when absent); lemma, POS, NE and the stopword pair may be missing.
  */
  datatype Token = Token(
    begin: nat,
    end: nat,
    word: string,
    originalText: string,
    before: string,
    lemmaText: Option<string>,
    pos: Option<string>,
    ne: Option<string>,
    stopword: Option<StopFlags>)

  /** StringUtils.getNotNullString. */
  function NotNull(s: Option<string>): string {
    s.GetOr("")
  }

  /** A possibly-null string as Java's `+` prints it. */
  function ConcatText(s: Option<string>): string {
    s.GetOr("null")
  }

  /** A single label as a set, none when absent. */
  function OptionSet(s: Option<string>): set<string> {
    if s.Some? then {s.value} else {}
  }

  /** A deduplicated lexical entity; its lemma is its key within a sentence. */
  datatype Tag = Tag(lemmaText: string, lang: string, original: Option<string>, pos: set<string>, ne: set<string>)

  /** One occurrence of a tag: a span, its surface text, the key of its tag and the merged token ids. */
  datatype TagOccurrence = TagOccurrence(begin: int, end: int, value: string, tagLemma: string, tokenIds: seq<string>)

  /** A phrase candidate: its text and the span it covers (the PhraseHolder value). */
  datatype PhraseSpan = PhraseSpan(text: string, begin: int, end: int)

  /** A dependency edge between two synthetic token ids. */
  datatype TypedDependency = TypedDependency(source: string, target: string, relation: string, specific: Option<string>)

  datatype Sentence = Sentence(
    id: string,
    occurrences: map<int, seq<TagOccurrence>>,
    tags: map<string, Tag>,
    phrases: set<PhraseSpan>,
    dependencies: seq<TypedDependency>)

  function NewSentence(id: string): Sentence {
    Sentence(id, map[], map[], {}, [])
  }

  /** The CoreNLP annotation keys the annotators declare in requires / requirementsSatisfied. */
  datatype AnnotationKey =
    | TextAnnotation
    | TokensAnnotation
    | CharacterOffsetBeginAnnotation
    | CharacterOffsetEndAnnotation
    | SentencesAnnotation
    | LemmaAnnotation
    | PartOfSpeechAnnotation
    | StopwordAnnotation

  /**
    What the processor knows while it consolidates one sentence. The two
    function fields stand for code that is not part of this model: the
    punctuation regex behind checkLemmaIsValid, and the lemma a Tag ends up
    holding when it is constructed from a given (possibly null) lemma.
  */
  datatype Config = Config(
    lang: string,
    sentenceId: string,
    nerEnabled: bool,
    excluded: set<string>,
    isValidLemma: string -> bool,
    tagLemma: Option<string> -> string)

  /** Lemmas the punctuation check lets through: words, including a hyphenated one. */
  const WordExamples: seq<string> := ["hello", "be", "monetary", "circuit", "one-thousand"]

  /** Lemmas the punctuation check rejects: punctuation marks and the bracket token "-lrb-". */
  const PunctuationExamples: seq<string> := ["(", "-", ";", ",", "-lrb-"]

  /** The lemma check agrees with the punctuation regex on the examples it is held to. */
  predicate ChecksPunctuation(cfg: Config) {
    && (forall i :: 0 <= i < |WordExamples| ==> cfg.isValidLemma(WordExamples[i]))
    && (forall i :: 0 <= i < |PunctuationExamples| ==> !cfg.isValidLemma(PunctuationExamples[i]))
  }

  /** `new Tag(lemma, lang, original)`: no POS or NE labels yet. */
  function MakeTag(cfg: Config, lemmaText: Option<string>, original: Option<string>): (t: Tag)
    ensures t.lemmaText == cfg.tagLemma(lemmaText) && t.original == original
    ensures t.lang == cfg.lang && t.pos == {} && t.ne == {}
  {
    Tag(cfg.tagLemma(lemmaText), cfg.lang, original, {}, {})
  }

  /** The synthetic token id: sentence id, begin offset, end offset and lemma, concatenated. */
  function TokenId(sentenceId: string, begin: int, end: int, lemmaText: string): string {
    sentenceId + IntToString(begin) + IntToString(end) + lemmaText
  }

  // ---------------------------------------------------------------------------
  // Tag map: add-or-get

  /** The tag already stored under `t`'s lemma holds all of `t`'s labels. */
  predicate Covers(tags: map<string, Tag>, t: Tag) {
    t.lemmaText in tags && t.pos <= tags[t.lemmaText].pos && t.ne <= tags[t.lemmaText].ne
  }

  /** Sentence.addTag: a new lemma adds the tag; a known lemma keeps the stored tag and adds the labels. */
  function AddTag(tags: map<string, Tag>, t: Tag): (r: map<string, Tag>)
    ensures r.Keys == tags.Keys + {t.lemmaText}
    ensures forall l :: l in tags && l != t.lemmaText ==> r[l] == tags[l]
    ensures Covers(r, t)
    ensures t.lemmaText in tags ==> r[t.lemmaText].lemmaText == tags[t.lemmaText].lemmaText && r[t.lemmaText].original == tags[t.lemmaText].original
    ensures t.lemmaText in tags ==> r[t.lemmaText].pos == tags[t.lemmaText].pos + t.pos && r[t.lemmaText].ne == tags[t.lemmaText].ne + t.ne
    ensures t.lemmaText !in tags ==> r[t.lemmaText] == t
  {
    if t.lemmaText in tags then
      var prev := tags[t.lemmaText];
      tags[t.lemmaText := prev.(pos := prev.pos + t.pos, ne := prev.ne + t.ne)]
    else
      tags[t.lemmaText := t]
  }

  /** Adding a tag whose labels are already recorded changes nothing. */
  lemma AddTagCovered(tags: map<string, Tag>, t: Tag)
    requires Covers(tags, t)
    ensures AddTag(tags, t) == tags
  {
    var prev := tags[t.lemmaText];
    assert prev.(pos := prev.pos + t.pos, ne := prev.ne + t.ne) == prev;
  }

  // ---------------------------------------------------------------------------
  // Occurrences

  /** A pending `addTagOccurrence(begin, end, value, addTag(tag), tokenIds)` call. */
  datatype Emit = Emit(begin: int, end: int, value: string, tag: Tag, tokenIds: seq<string>)

  function OccurrenceOf(e: Emit): TagOccurrence {
    TagOccurrence(e.begin, e.end, e.value, e.tag.lemmaText, e.tokenIds)
  }

  function OccurrencesAt(s: Sentence, begin: int): seq<TagOccurrence> {
    if begin in s.occurrences then s.occurrences[begin] else []
  }

  /** Sentence.addTag followed by Sentence.addTagOccurrence. */
  function AddOccurrence(s: Sentence, e: Emit): (r: Sentence)
    ensures r.id == s.id && r.phrases == s.phrases && r.dependencies == s.dependencies
    ensures r.tags == AddTag(s.tags, e.tag)
    ensures r.occurrences.Keys == s.occurrences.Keys + {e.begin}
  {
    s.(tags := AddTag(s.tags, e.tag),
       occurrences := s.occurrences[e.begin := OccurrencesAt(s, e.begin) + [OccurrenceOf(e)]])
  }

  /** Records a sequence of emissions in order. */
  function AddAll(s: Sentence, es: seq<Emit>): Sentence
    decreases |es|
  {
    if |es| == 0 then s else AddAll(AddOccurrence(s, es[0]), es[1..])
  }

  /** The tag map after add-or-get of every emitted tag, in order. */
  function AddTags(tags: map<string, Tag>, es: seq<Emit>): map<string, Tag>
    decreases |es|
  {
    if |es| == 0 then tags else AddTags(AddTag(tags, es[0].tag), es[1..])
  }

  /**
    The occurrence lists are non-empty and keyed by their begin offset, and
    every tag is stored under its own lemma (so no two tags share a lemma).
  */
  predicate Structured(s: Sentence) {
    && (forall k :: k in s.occurrences ==> |s.occurrences[k]| > 0)
    && (forall k, j :: k in s.occurrences && 0 <= j < |s.occurrences[k]| ==> s.occurrences[k][j].begin == k)
    && (forall l :: l in s.tags ==> s.tags[l].lemmaText == l)
  }

  /** Every occurrence points at a tag the sentence holds. */
  predicate Linked(s: Sentence) {
    forall k, j :: k in s.occurrences && 0 <= j < |s.occurrences[k]| ==> s.occurrences[k][j].tagLemma in s.tags
  }

  /** Emission `e` is on record: its occurrence is listed at its begin offset and its tag covers its labels. */
  predicate Recorded(s: Sentence, e: Emit) {
    && e.begin in s.occurrences
    && OccurrenceOf(e) in s.occurrences[e.begin]
    && Covers(s.tags, e.tag)
  }

  lemma AddOccurrenceKeeps(s: Sentence, e: Emit, f: Emit)
    requires Recorded(s, f)
    ensures Recorded(AddOccurrence(s, e), f)
  {
    var r := AddOccurrence(s, e);
    if f.begin == e.begin {
      assert OccurrencesAt(s, e.begin) == s.occurrences[e.begin];
      assert r.occurrences[e.begin] == s.occurrences[e.begin] + [OccurrenceOf(e)];
    }
  }

  /** The begin offsets of a sequence of emissions. */
  function Begins(es: seq<Emit>): (r: set<int>)
    ensures forall i :: 0 <= i < |es| ==> es[i].begin in r
    decreases |es|
  {
    if |es| == 0 then {} else {es[0].begin} + Begins(es[1..])
  }

  /** Recording emissions keeps the sentence structured (one tag per lemma, lists keyed by begin) and linked. */
  lemma {:induction false} AddAllStructured(s: Sentence, es: seq<Emit>)
    requires Structured(s) && Linked(s)
    ensures Structured(AddAll(s, es)) && Linked(AddAll(s, es))
    decreases |es|
  {
    if |es| > 0 {
      AddOccurrenceStructured(s, es[0]);
      AddAllStructured(AddOccurrence(s, es[0]), es[1..]);
    }
  }

  /** Every recorded emission is on record afterwards: its occurrence at its begin offset and its labels on its tag. */
  lemma {:induction false} AddAllRecords(s: Sentence, es: seq<Emit>)
    ensures forall i :: 0 <= i < |es| ==> Recorded(AddAll(s, es), es[i])
    decreases |es|
  {
    if |es| > 0 {
      var s1 := AddOccurrence(s, es[0]);
      AddOccurrenceRecords(s, es[0]);
      AddAllRecords(s1, es[1..]);
      AddAllKeeps(s1, es[1..], es[0]);
      forall i | 1 <= i < |es|
        ensures Recorded(AddAll(s, es), es[i])
      {
        assert es[i] == es[1..][i - 1];
      }
    }
  }

  /** The tag map of the result is the add-or-get fold of the emitted tags; positions gain exactly the emitted begins. */
  lemma {:induction false} AddAllShape(s: Sentence, es: seq<Emit>)
    ensures AddAll(s, es).tags == AddTags(s.tags, es)
    ensures AddAll(s, es).occurrences.Keys == s.occurrences.Keys + Begins(es)
    ensures AddAll(s, es).id == s.id && AddAll(s, es).phrases == s.phrases
    ensures AddAll(s, es).dependencies == s.dependencies
    decreases |es|
  {
    if |es| > 0 {
      AddAllShape(AddOccurrence(s, es[0]), es[1..]);
    }
  }

  lemma {:induction false} AddAllKeeps(s: Sentence, es: seq<Emit>, f: Emit)
    requires Recorded(s, f)
    ensures Recorded(AddAll(s, es), f)
    decreases |es|
  {
    if |es| > 0 {
      AddOccurrenceKeeps(s, es[0], f);
      AddAllKeeps(AddOccurrence(s, es[0]), es[1..], f);
    }
  }

  lemma AddOccurrenceRecords(s: Sentence, e: Emit)
    ensures Recorded(AddOccurrence(s, e), e)
  {
    var list := OccurrencesAt(s, e.begin) + [OccurrenceOf(e)];
    assert AddOccurrence(s, e).occurrences[e.begin] == list;
    assert list[|list| - 1] == OccurrenceOf(e);
  }

  lemma AddOccurrenceStructured(s: Sentence, e: Emit)
    requires Structured(s) && Linked(s)
    ensures Structured(AddOccurrence(s, e)) && Linked(AddOccurrence(s, e))
  {
    var r := AddOccurrence(s, e);
    var list := OccurrencesAt(s, e.begin) + [OccurrenceOf(e)];
    assert r.occurrences[e.begin] == list;
    assert list[|list| - 1] == OccurrenceOf(e);
    forall k, j | k in r.occurrences && 0 <= j < |r.occurrences[k]|
      ensures r.occurrences[k][j].begin == k && r.occurrences[k][j].tagLemma in r.tags
    {
      if k == e.begin && j == |list| - 1 {
      } else if k == e.begin {
        assert r.occurrences[k][j] == s.occurrences[k][j];
      } else {
        assert r.occurrences[k] == s.occurrences[k];
      }
    }
  }

  /** Once every emitted tag is covered, recording the emissions again leaves the tag map as it is. */
  lemma {:induction false} AddTagsCovered(tags: map<string, Tag>, es: seq<Emit>)
    requires forall i :: 0 <= i < |es| ==> Covers(tags, es[i].tag)
    ensures AddTags(tags, es) == tags
    decreases |es|
  {
    if |es| > 0 {
      AddTagCovered(tags, es[0].tag);
      AddTagsCovered(tags, es[1..]);
    }
  }

  lemma {:induction false} AddTagsCovers(tags: map<string, Tag>, es: seq<Emit>)
    ensures forall i :: 0 <= i < |es| ==> Covers(AddTags(tags, es), es[i].tag)
    decreases |es|
  {
    if |es| > 0 {
      var t1 := AddTag(tags, es[0].tag);
      AddTagsCovers(t1, es[1..]);
      AddTagsMonotone(t1, es[1..], es[0].tag);
      forall i | 0 <= i < |es|
        ensures Covers(AddTags(tags, es), es[i].tag)
      {
        if i > 0 {
          assert es[i] == es[1..][i - 1];
        }
      }
    }
  }

  lemma {:induction false} AddTagsMonotone(tags: map<string, Tag>, es: seq<Emit>, t: Tag)
    requires Covers(tags, t)
    ensures Covers(AddTags(tags, es), t)
    decreases |es|
  {
    if |es| > 0 {
      AddTagsMonotone(AddTag(tags, es[0].tag), es[1..], t);
    }
  }

  /**
    Add-or-get is idempotent over a whole emission sequence: recording the same
    emissions a second time reuses every tag and adds no label.
  */
  lemma AddTagsTwice(tags: map<string, Tag>, es: seq<Emit>)
    ensures AddTags(AddTags(tags, es), es) == AddTags(tags, es)
  {
    AddTagsCovers(tags, es);
    AddTagsCovered(AddTags(tags, es), es);
  }
}

=== FILE: germanlemma.dfy ===
/**
  GermanLemmaAnnotator: a word-to-lemma table read from tab-separated lines
  "lemma<TAB>word", where the first line for a word wins, and an annotator
  that sets every token's lemma from the table, falling back to the word.
*/
module GermanLemma {
  import opened Wrappers
  import opened JavaText
  import opened Domain

  /** One line's (word, lemma) pair: the second and the first tab-separated field. */
  function Entry(line: string): (r: Result<(string, string), string>)
    ensures r.Success? <==> |JavaSplit(line, '\t')| >= 2
    ensures r.Success? ==> r.value == (JavaSplit(line, '\t')[1], JavaSplit(line, '\t')[0])
  {
    var fields := JavaSplit(line, '\t');
    if |fields| < 2 then Failure("line has no second field") else Success((fields[1], fields[0]))
  }

  /** The lines from the start: a word already in the table keeps its lemma; a line without a second field fails. */
  function Load(table: map<string, string>, lines: seq<string>): Result<map<string, string>, string>
    decreases |lines|
  {
    if |lines| == 0 then Success(table)
    else
      var e :- Entry(lines[0]);
      var (word, lemmaText) := e;
      Load(if word in table then table else table[word := lemmaText], lines[1..])
  }

  /** The table the constructor builds from the lemma file's lines. */
  function LemmaTable(lines: seq<string>): Result<map<string, string>, string> {
    Load(map[], lines)
  }

  // ---------------------------------------------------------------------------
  // The table, defined line by line

  predicate WellFormed(line: string) {
    |JavaSplit(line, '\t')| >= 2
  }

  function WordOf(line: string): string
    requires WellFormed(line)
  {
    JavaSplit(line, '\t')[1]
  }

  function LemmaOf(line: string): string
    requires WellFormed(line)
  {
    JavaSplit(line, '\t')[0]
  }

  /** The index of the first line for `word`, if any. */
  function FirstLine(lines: seq<string>, word: string): (r: Option<nat>)
    requires forall i :: 0 <= i < |lines| ==> WellFormed(lines[i])
    ensures r.Some? ==> r.value < |lines| && WordOf(lines[r.value]) == word
    ensures r.Some? ==> forall j :: 0 <= j < r.value ==> WordOf(lines[j]) != word
    ensures r.None? ==> forall j :: 0 <= j < |lines| ==> WordOf(lines[j]) != word
    decreases |lines|
  {
    if |lines| == 0 then None
    else if WordOf(lines[0]) == word then Some(0)
    else
      match FirstLine(lines[1..], word)
      case None => None
      case Some(k) => Some(k + 1)
  }

  /** Loading succeeds exactly when every line has a second field. */
  lemma {:induction false} LoadSucceeds(table: map<string, string>, lines: seq<string>)
    ensures Load(table, lines).Success? <==> forall i :: 0 <= i < |lines| ==> WellFormed(lines[i])
    decreases |lines|
  {
    if |lines| > 0 {
      var tail := lines[1..];
      assert forall i :: 0 <= i < |tail| ==> tail[i] == lines[i + 1];
      if WellFormed(lines[0]) {
        var word := WordOf(lines[0]);
        LoadSucceeds(if word in table then table else table[word := LemmaOf(lines[0])], tail);
      }
    }
  }

  /**
    For one word: after loading, it is in the table exactly when it was there
    before or some line names it; an old entry stays, and a new word maps to
    the lemma of its first line.
  */
  lemma {:induction false} LoadWord(table: map<string, string>, lines: seq<string>, w: string)
    requires forall i :: 0 <= i < |lines| ==> WellFormed(lines[i])
    ensures Load(table, lines).Success?
    ensures w in Load(table, lines).value <==> w in table || FirstLine(lines, w).Some?
    ensures w in table ==> Load(table, lines).value[w] == table[w]
    ensures w !in table && FirstLine(lines, w).Some? ==> Load(table, lines).value[w] == LemmaOf(lines[FirstLine(lines, w).value])
    decreases |lines|
  {
    LoadSucceeds(table, lines);
    if |lines| > 0 {
      var tail := lines[1..];
      assert forall i :: 0 <= i < |tail| ==> tail[i] == lines[i + 1];
      var word := WordOf(lines[0]);
      var next := if word in table then table else table[word := LemmaOf(lines[0])];
      assert Load(table, lines) == Load(next, tail) by {
        assert Entry(lines[0]) == Success((word, LemmaOf(lines[0])));
      }
      LoadWord(next, tail, w);
      if word != w {
        FirstLineTail(lines, w);
      }
    }
  }

  /** Past a first line for another word, the search continues one line further on. */
  lemma FirstLineTail(lines: seq<string>, w: string)
    requires forall i :: 0 <= i < |lines| ==> WellFormed(lines[i])
    requires |lines| > 0 && WordOf(lines[0]) != w
    ensures FirstLine(lines, w).None? <==> FirstLine(lines[1..], w).None?
    ensures FirstLine(lines, w).Some? ==> FirstLine(lines, w).value == FirstLine(lines[1..], w).value + 1
  {
  }

  /** The table of a file: loading fails exactly on a line without a second field; otherwise the first line per word wins. */
  lemma LemmaTableIsFirstWins(lines: seq<string>)
    ensures LemmaTable(lines).Success? <==> forall i :: 0 <= i < |lines| ==> WellFormed(lines[i])
    ensures LemmaTable(lines).Success? ==>
              forall w :: (w in LemmaTable(lines).value <==> FirstLine(lines, w).Some?)
                          && (w in LemmaTable(lines).value ==> LemmaTable(lines).value[w] == LemmaOf(lines[FirstLine(lines, w).value]))
  {
    LoadSucceeds(map[], lines);
    if LemmaTable(lines).Success? {
      forall w
        ensures (w in LemmaTable(lines).value <==> FirstLine(lines, w).Some?)
                && (w in LemmaTable(lines).value ==> LemmaTable(lines).value[w] == LemmaOf(lines[FirstLine(lines, w).value]))
      {
        LoadWord(map[], lines, w);
      }
    }
  }

  /** A later line for a word already seen changes nothing. */
  lemma LaterLineIgnored(lines: seq<string>, line: string)
    requires LemmaTable(lines).Success? && WellFormed(line)
    requires WordOf(line) in LemmaTable(lines).value
    ensures LemmaTable(lines + [line]) == LemmaTable(lines)
  {
    LoadAppend(map[], lines, line);
  }

  /** Loading one more line continues from the table built so far. */
  lemma {:induction false} LoadAppend(table: map<string, string>, lines: seq<string>, line: string)
    requires Load(table, lines).Success?
    ensures Load(table, lines + [line]) == Load(Load(table, lines).value, [line])
    decreases |lines|
  {
    if |lines| > 0 {
      assert (lines + [line])[1..] == lines[1..] + [line];
      var e := Entry(lines[0]).value;
      var next := if e.0 in table then table else table[e.0 := e.1];
      LoadAppend(next, lines[1..], line);
    } else {
      assert lines + [line] == [line];
    }
  }

  // ---------------------------------------------------------------------------
  // annotate

  /** getOrDefault: the table's lemma, or the word itself. */
  function LemmaFor(table: map<string, string>, word: string): string {
    if word in table then table[word] else word
  }

  /** annotate: every token's lemma becomes its word's table lemma, or the word when unmapped; nothing else changes. */
  function Annotate(table: map<string, string>, ts: seq<Token>): (r: seq<Token>)
    ensures |r| == |ts|
    ensures forall i :: 0 <= i < |ts| ==> r[i] == ts[i].(lemmaText := Some(LemmaFor(table, ts[i].word)))
  {
    seq(|ts|, i requires 0 <= i < |ts| => ts[i].(lemmaText := Some(LemmaFor(table, ts[i].word))))
  }

  /** Annotating with the table of a file: a word's lemma is the lemma on its first line, or the word itself. */
  lemma AnnotateWithFile(lines: seq<string>, ts: seq<Token>, i: int)
    requires forall j :: 0 <= j < |lines| ==> WellFormed(lines[j])
    requires 0 <= i < |ts|
    ensures LemmaTable(lines).Success?
    ensures FirstLine(lines, ts[i].word).Some? ==>
              Annotate(LemmaTable(lines).value, ts)[i].lemmaText == Some(LemmaOf(lines[FirstLine(lines, ts[i].word).value]))
    ensures FirstLine(lines, ts[i].word).None? ==>
              Annotate(LemmaTable(lines).value, ts)[i].lemmaText == Some(ts[i].word)
  {
    LoadWord(map[], lines, ts[i].word);
  }

  /** Annotating twice is annotating once: lemmas depend on the word only. */
  lemma AnnotateTwice(table: map<string, string>, ts: seq<Token>)
    ensures Annotate(table, Annotate(table, ts)) == Annotate(table, ts)
  {
    var once := Annotate(table, ts);
    var twice := Annotate(table, once);
    assert forall i :: 0 <= i < |ts| ==> twice[i] == once[i];
  }

  function Requires(): (r: set<AnnotationKey>)
    ensures PartOfSpeechAnnotation in r && LemmaAnnotation !in r
    ensures r == {TextAnnotation, TokensAnnotation, SentencesAnnotation, PartOfSpeechAnnotation}
  {
    {TextAnnotation, TokensAnnotation, SentencesAnnotation, PartOfSpeechAnnotation}
  }

  function RequirementsSatisfied(): (r: set<AnnotationKey>)
    ensures r == {LemmaAnnotation}
  {
    {LemmaAnnotation}
  }
}

=== FILE: javatext.dfy ===
/**
  The handful of java.lang.String operations the processor relies on, written
  out with Java's semantics: ASCII case mapping, `trim`, `split` on a single
  literal character (trailing empty fields dropped), `replace` of a literal,
  `startsWith`, `indexOf(..) >= 0`, decimal rendering of integers, and
  `Boolean.parseBoolean` / `Boolean.toString`.
*/
module JavaText {

  // ---------------------------------------------------------------------------
  // Case mapping

  /** Character.toLowerCase, restricted to the ASCII letters. */
  function LowerChar(c: char): char {
    if 'A' <= c <= 'Z' then (c as int + 32) as char else c
  }

  /** String.toLowerCase (ASCII letters only). */
  function Lower(s: string): (r: string)
    ensures |r| == |s|
    ensures forall i :: 0 <= i < |s| ==> r[i] == LowerChar(s[i])
  {
    if |s| == 0 then "" else [LowerChar(s[0])] + Lower(s[1..])
  }

  /** String.equalsIgnoreCase. */
  predicate EqualsIgnoreCase(a: string, b: string) {
    Lower(a) == Lower(b)
  }

  /** Lowercasing a lowercased string changes nothing. */
  lemma LowerIdempotent(s: string)
    ensures Lower(Lower(s)) == Lower(s)
  {
    assert forall i :: 0 <= i < |s| ==> LowerChar(LowerChar(s[i])) == LowerChar(s[i]);
  }

  /** Lowercasing distributes over concatenation. */
  lemma LowerConcat(a: string, b: string)
    ensures Lower(a + b) == Lower(a) + Lower(b)
  {
    assert forall i :: 0 <= i < |a + b| ==> Lower(a + b)[i] == (Lower(a) + Lower(b))[i];
  }

  // ---------------------------------------------------------------------------
  // String.trim

  /** The characters String.trim removes: every code point up to U+0020. */
  predicate IsTrimmable(c: char) {
    c as int <= 0x20
  }

  function TrimStart(s: string): (r: string)
    ensures |r| <= |s| && r == s[|s| - |r|..]
    ensures |r| == 0 || !IsTrimmable(r[0])
    decreases |s|
  {
    if |s| > 0 && IsTrimmable(s[0]) then TrimStart(s[1..]) else s
  }

  function TrimEnd(s: string): (r: string)
    ensures |r| <= |s| && r == s[..|r|]
    ensures |r| == 0 || !IsTrimmable(r[|r| - 1])
    decreases |s|
  {
    if |s| > 0 && IsTrimmable(s[|s| - 1]) then TrimEnd(s[..|s| - 1]) else s
  }

  /** String.trim: the longest middle part of `s` with no trimmable character at either end. */
  function Trim(s: string): (r: string)
    ensures |r| <= |s|
    ensures |r| > 0 ==> !IsTrimmable(r[0]) && !IsTrimmable(r[|r| - 1])
  {
    var t := TrimStart(s);
    var r := TrimEnd(t);
    assert |r| > 0 ==> r[0] == t[0];
    r
  }

  /** A string with nothing to trim at its ends is its own trim; in particular Trim is idempotent. */
  lemma TrimFixpoint(s: string)
    requires |s| == 0 || (!IsTrimmable(s[0]) && !IsTrimmable(s[|s| - 1]))
    ensures Trim(s) == s
  {
  }

  // ---------------------------------------------------------------------------
  // Splitting and joining on one separator character

  /** Every field between occurrences of `c`, including empty ones at either end. */
  function SplitAll(s: string, c: char): (r: seq<string>)
    ensures |r| >= 1
    ensures forall i :: 0 <= i < |r| ==> c !in r[i]
    decreases |s|
  {
    if |s| == 0 then [""]
    else
      var rest := SplitAll(s[1..], c);
      if s[0] == c then [""] + rest else [[s[0]] + rest[0]] + rest[1..]
  }

  /** The fields of `parts` separated by `sep` (StringUtils.join / String.join). */
  function Join(parts: seq<string>, sep: string): string
    decreases |parts|
  {
    if |parts| == 0 then ""
    else if |parts| == 1 then parts[0]
    else parts[0] + sep + Join(parts[1..], sep)
  }

  /** Joining the fields of a split restores the string. */
  lemma {:induction false} JoinSplitAll(s: string, c: char)
    ensures Join(SplitAll(s, c), [c]) == s
    decreases |s|
  {
    if |s| > 0 {
      var rest := SplitAll(s[1..], c);
      JoinSplitAll(s[1..], c);
      if s[0] == c {
        assert SplitAll(s, c) == [""] + rest;
        assert ([""] + rest)[1..] == rest;
        assert s == [c] + s[1..];
      } else {
        assert SplitAll(s, c) == [[s[0]] + rest[0]] + rest[1..];
        if |rest| == 1 {
          assert Join(rest, [c]) == rest[0];
        } else {
          assert Join(rest, [c]) == rest[0] + [c] + Join(rest[1..], [c]);
          assert ([[s[0]] + rest[0]] + rest[1..])[1..] == rest[1..];
        }
        assert s == [s[0]] + s[1..];
      }
    }
  }

  lemma {:induction false} SplitAllNoSeparator(a: string, c: char)
    requires c !in a
    ensures SplitAll(a, c) == [a]
    decreases |a|
  {
    if |a| > 0 {
      SplitAllNoSeparator(a[1..], c);
      assert a == [a[0]] + a[1..];
    }
  }

  lemma {:induction false} SplitAllAfterField(a: string, c: char, rest: string)
    requires c !in a
    ensures SplitAll(a + [c] + rest, c) == [a] + SplitAll(rest, c)
    decreases |a|
  {
    var s := a + [c] + rest;
    if |a| == 0 {
      assert s[1..] == rest;
    } else {
      assert s[1..] == a[1..] + [c] + rest;
      SplitAllAfterField(a[1..], c, rest);
      assert [a[0]] + a[1..] == a;
    }
  }

  /** Splitting a join of separator-free fields gives the fields back. */
  lemma {:induction false} SplitAllJoin(parts: seq<string>, c: char)
    requires |parts| >= 1
    requires forall i :: 0 <= i < |parts| ==> c !in parts[i]
    ensures SplitAll(Join(parts, [c]), c) == parts
    decreases |parts|
  {
    if |parts| == 1 {
      SplitAllNoSeparator(parts[0], c);
    } else {
      SplitAllJoin(parts[1..], c);
      SplitAllAfterField(parts[0], c, Join(parts[1..], [c]));
      assert [parts[0]] + parts[1..] == parts;
    }
  }

  function DropTrailingEmpty(parts: seq<string>): (r: seq<string>)
    ensures |r| <= |parts| && r == parts[..|r|]
    ensures |r| == 0 || r[|r| - 1] != ""
    ensures forall i :: |r| <= i < |parts| ==> parts[i] == ""
    decreases |parts|
  {
    if |parts| > 0 && parts[|parts| - 1] == "" then DropTrailingEmpty(parts[..|parts| - 1]) else parts
  }

  /**
    String.split with a one-character literal pattern and no limit: when the
    separator does not occur the result is the string itself (even the empty
    string); otherwise all fields, with trailing empty fields removed.
  */
  function JavaSplit(s: string, c: char): (r: seq<string>)
    ensures c !in s ==> r == [s]
    ensures |r| <= |SplitAll(s, c)| && r == SplitAll(s, c)[..|r|]
    ensures c in s ==> (|r| == 0 || r[|r| - 1] != "")
    ensures c in s ==> forall i :: |r| <= i < |SplitAll(s, c)| ==> SplitAll(s, c)[i] == ""
    ensures forall i :: 0 <= i < |r| ==> c !in r[i]
  {
    if c !in s then
      SplitAllNoSeparator(s, c);
      [s]
    else
      DropTrailingEmpty(SplitAll(s, c))
  }

  /** Splitting a join of separator-free fields gives the fields back when the last one is not empty. */
  lemma JavaSplitJoin(parts: seq<string>, c: char)
    requires |parts| >= 1 && parts[|parts| - 1] != ""
    requires forall i :: 0 <= i < |parts| ==> c !in parts[i]
    ensures JavaSplit(Join(parts, [c]), c) == parts
  {
    var s := Join(parts, [c]);
    SplitAllJoin(parts, c);
    if c !in s {
      SplitAllNoSeparator(s, c);
    }
  }

  /** Joining two non-empty lists and putting the separator between them is joining their concatenation. */
  lemma {:induction false} JoinAppend(a: seq<string>, b: seq<string>, sep: string)
    requires |a| >= 1 && |b| >= 1
    ensures Join(a, sep) + sep + Join(b, sep) == Join(a + b, sep)
    decreases |a|
  {
    if |a| > 1 {
      JoinAppend(a[1..], b, sep);
      assert (a + b)[1..] == a[1..] + b;
    } else {
      assert (a + b)[1..] == b;
    }
  }

  /** A character of a join comes from one of the fields or from the separator. */
  lemma {:induction false} JoinChars(parts: seq<string>, sep: string, x: char)
    requires x !in sep
    requires forall i :: 0 <= i < |parts| ==> x !in parts[i]
    ensures x !in Join(parts, sep)
    decreases |parts|
  {
    if |parts| > 1 {
      JoinChars(parts[1..], sep, x);
    }
  }

  /** A string with a separator-only body, such as ",", splits into no fields at all. */
  lemma JavaSplitSeparatorOnly(c: char)
    ensures JavaSplit([c], c) == []
  {
    assert [c] == [] + [c] + [];
    SplitAllAfterField([], c, []);
    SplitAllNoSeparator([], c);
    assert SplitAll([c], c) == ["", ""];
  }

  // ---------------------------------------------------------------------------
  // Prefixes, substrings and literal replacement

  /** String.startsWith. */
  predicate StartsWith(s: string, p: string) {
    |p| <= |s| && s[..|p|] == p
  }

  /** `s.indexOf(p) >= 0`. */
  predicate ContainsSub(s: string, p: string)
    decreases |s|
  {
    StartsWith(s, p) || (|s| > 0 && ContainsSub(s[1..], p))
  }

  /** A string containing `p` contains every character of `p`. */
  lemma {:induction false} ContainsSubHasChars(s: string, p: string, x: char)
    requires ContainsSub(s, p)
    requires x in p
    ensures x in s
    decreases |s|
  {
    if StartsWith(s, p) {
      assert x in s[..|p|];
    } else {
      ContainsSubHasChars(s[1..], p, x);
    }
  }

  /**
    Appending characters none of which occurs in `p` neither creates nor
    removes an occurrence of `p`.
  */
  lemma {:induction false} ContainsSubAppend(a: string, b: string, p: string)
    requires |p| > 0
    requires forall i :: 0 <= i < |b| ==> b[i] !in p
    ensures ContainsSub(a + b, p) <==> ContainsSub(a, p)
    decreases |a|
  {
    if |a| == 0 {
      assert a + b == b;
      if ContainsSub(b, p) {
        ContainsSubHasChars(b, p, p[0]);
      }
    } else {
      assert (a + b)[1..] == a[1..] + b;
      ContainsSubAppend(a[1..], b, p);
      if StartsWith(a, p) {
        assert (a + b)[..|p|] == a[..|p|];
      }
      if StartsWith(a + b, p) {
        StartsWithAppend(a, b, p);
      }
    }
  }

  /** A prefix `p` of `a + b` lies within `a`, unless it reaches into `b` and so holds b's first character. */
  lemma StartsWithAppend(a: string, b: string, p: string)
    requires StartsWith(a + b, p)
    ensures StartsWith(a, p) || (|b| > 0 && b[0] in p)
  {
    if |p| <= |a| {
      assert (a + b)[..|p|] == a[..|p|];
    } else {
      assert p[|a|] == (a + b)[|a|];
    }
  }

  /** String.replace(p, ""): deletes the non-overlapping occurrences of `p`, left to right. */
  function RemoveAll(s: string, p: string): string
    requires |p| > 0
    decreases |s|
  {
    if |s| < |p| then s
    else if s[..|p|] == p then RemoveAll(s[|p|..], p)
    else [s[0]] + RemoveAll(s[1..], p)
  }

  /** The clean-up applied to a "+"-prefixed stopword list: `.replace("+,", "").replace("+", "")`. */
  function StripPlus(s: string): string {
    RemoveAll(RemoveAll(s, "+,"), "+")
  }

  /**
    A character-level reading of StripPlus: every '+' goes, and so does a ','
    directly after a '+'. `afterPlus` says the previous character was a '+'.
  */
  function DropPlusMarks(s: string, afterPlus: bool): string
    decreases |s|
  {
    if |s| == 0 then ""
    else if s[0] == '+' then DropPlusMarks(s[1..], true)
    else if s[0] == ',' && afterPlus then DropPlusMarks(s[1..], false)
    else [s[0]] + DropPlusMarks(s[1..], false)
  }

  lemma DropPlusMarksFlag(s: string)
    requires |s| == 0 || s[0] != ','
    ensures DropPlusMarks(s, true) == DropPlusMarks(s, false)
  {
  }

  /** Without any '+' there is nothing to drop. */
  lemma {:induction false} DropPlusMarksNone(s: string)
    requires '+' !in s
    ensures DropPlusMarks(s, false) == s
    decreases |s|
  {
    if |s| > 0 {
      DropPlusMarksNone(s[1..]);
      assert s == [s[0]] + s[1..];
    }
  }

  /** The two literal replacements amount to deleting every '+' and every ',' right after a '+'. */
  lemma {:induction false} StripPlusDropsMarks(s: string)
    ensures StripPlus(s) == DropPlusMarks(s, false)
    decreases |s|
  {
    if |s| < 2 {
      assert RemoveAll(s, "+,") == s;
      if |s| == 1 {
        assert s[1..] == "";
        if s[0] == '+' {
          assert s[..1] == "+";
          assert RemoveAll(s, "+") == RemoveAll(s[1..], "+");
        } else {
          assert s[..1] != "+";
          assert RemoveAll(s, "+") == [s[0]] + RemoveAll(s[1..], "+");
        }
      }
    } else if s[..2] == "+," {
      StripPlusDropsMarks(s[2..]);
      assert s[1..][1..] == s[2..];
    } else {
      StripPlusDropsMarks(s[1..]);
      var r' := RemoveAll(s[1..], "+,");
      assert RemoveAll(s, "+,") == [s[0]] + r';
      assert ([s[0]] + r')[1..] == r';
      if s[0] == '+' {
        assert s[1] != ',';
        DropPlusMarksFlag(s[1..]);
      }
    }
  }

  /** No '+' survives StripPlus. */
  lemma {:induction false} StripPlusHasNoPlus(s: string)
    ensures '+' !in StripPlus(s)
  {
    StripPlusDropsMarks(s);
    DropPlusMarksHasNoPlus(s, false);
  }

  lemma {:induction false} DropPlusMarksHasNoPlus(s: string, afterPlus: bool)
    ensures '+' !in DropPlusMarks(s, afterPlus)
    decreases |s|
  {
    if |s| > 0 {
      DropPlusMarksHasNoPlus(s[1..], s[0] == '+');
      DropPlusMarksHasNoPlus(s[1..], false);
    }
  }

  // ---------------------------------------------------------------------------
  // Numbers and booleans rendered as text

  function DigitChar(d: nat): char
    requires d < 10
  {
    "0123456789"[d]
  }

  /** Decimal rendering of a natural number, as Java's string concatenation prints an int. */
  function NatToString(n: nat): (r: string)
    ensures |r| >= 1
    ensures forall i :: 0 <= i < |r| ==> '0' <= r[i] <= '9'
    decreases n
  {
    if n < 10 then [DigitChar(n)] else NatToString(n / 10) + [DigitChar(n % 10)]
  }

  /** String.valueOf(int). */
  function IntToString(n: int): string {
    if n < 0 then "-" + NatToString(-n) else NatToString(n)
  }

  /** Boolean.parseBoolean: true exactly for "true" in any letter case. */
  predicate ParseBoolean(s: string) {
    EqualsIgnoreCase(s, "true")
  }

  /** Boolean.toString / String.valueOf(boolean). */
  function BoolToString(b: bool): string {
    if b then "true" else "false"
  }

  /** Boolean.parseBoolean reads back what Boolean.toString wrote. */
  lemma ParseBooleanRoundTrip(b: bool)
    ensures ParseBoolean(BoolToString(b)) == b
  {
    if !b {
      assert Lower("false")[0] != Lower("true")[0];
    }
  }

  // ---------------------------------------------------------------------------
  // Fixed-width integers

  const TwoTo31: int := 0x8000_0000
  const TwoTo32: int := 0x1_0000_0000

  /** Long.intValue(): keeps the low 32 bits, read as a two's-complement int. */
  function ToInt32(x: int): (r: int)
    ensures -TwoTo31 <= r < TwoTo31
    ensures (r - x) % TwoTo32 == 0
    ensures -TwoTo31 <= x < TwoTo31 ==> r == x
  {
    (x + TwoTo31) % TwoTo32 - TwoTo31
  }
}

=== FILE: mergespec.dfy ===
/**
  A reference reading of extractTokens and the theorem connecting it to the
  fold. When every label a sentence uses is admitted (none is excluded,
  background included) and every entity token has some original text, the
  six-branch machine is a plain segmentation: each background token with a
  valid lemma becomes its own occurrence, each background token without one
  disappears, and each maximal stretch of tokens sharing an entity label
  becomes one occurrence spanning the stretch.

  Outside those conditions the fold does things the segmentation does not;
  the lemmas at the end pin down the ones visible in the source.
*/
module MergeSpec {
  import opened Wrappers
  import opened JavaText
  import opened Domain
  import opened TokenMerger

  /** The sentence's tokens all carry a lemma, use admitted labels, and entity tokens have text. */
  predicate Clean(cfg: Config, ts: seq<Token>) {
    && Background !in cfg.excluded
    && forall i :: 0 <= i < |ts| ==> CleanToken(cfg, ts[i])
  }

  predicate CleanToken(cfg: Config, t: Token) {
    && t.lemmaText.Some?
    && Label(cfg, t) !in cfg.excluded
    && (Label(cfg, t) != Background ==> |t.originalText| > 0)
  }

  /** The number of leading tokens that carry label `l`. */
  function RunLength(cfg: Config, ts: seq<Token>, l: string): (n: nat)
    ensures n <= |ts|
    ensures forall i :: 0 <= i < n ==> Label(cfg, ts[i]) == l
    ensures n < |ts| ==> Label(cfg, ts[n]) != l
    decreases |ts|
  {
    if |ts| == 0 || Label(cfg, ts[0]) != l then 0 else 1 + RunLength(cfg, ts[1..], l)
  }

  function Last(run: seq<Token>): Token
    requires |run| > 0
  {
    run[|run| - 1]
  }

  /** The text of a run: the first token's original text, then each later token's "before" text and original text. */
  function RunText(run: seq<Token>): string
    requires |run| > 0
    decreases |run|
  {
    if |run| == 1 then run[0].originalText
    else RunText(run[..|run| - 1]) + Last(run).before + Last(run).originalText
  }

  /** The ids of a run's tokens, in order. */
  function RunIds(cfg: Config, run: seq<Token>): (r: seq<string>)
    ensures |r| == |run|
  {
    seq(|run|, i requires 0 <= i < |run| => IdOf(cfg, run[i]))
  }

  /**
    The occurrence a run of entity tokens becomes: from the first token's
    begin to the last token's end, labelled with the run's label; the POS is
    the last token's when the run is closed by a later token, and absent when
    the run reaches the end of the sentence.
  */
  function RunEmit(cfg: Config, run: seq<Token>, atEnd: bool): Emit
    requires |run| > 0
  {
    var text := RunText(run);
    var tag := MakeTag(cfg, Some(text), Some(text));
    var labelled := tag.(ne := {Label(cfg, run[0])}, pos := if atEnd then {} else {NotNull(Last(run).pos)});
    Emit(run[0].begin, Last(run).end, text, labelled, RunIds(cfg, run))
  }

  /** A background token on its own: its getTag occurrence when its lemma is valid, nothing otherwise. */
  function Own(cfg: Config, t: Token): seq<Emit> {
    if cfg.isValidLemma(t.lemmaText.GetOr("")) then Single(cfg, t, [IdOf(cfg, t)]) else []
  }

  /** The reference segmentation. */
  function Segments(cfg: Config, ts: seq<Token>): seq<Emit>
    decreases |ts|
  {
    if |ts| == 0 then []
    else if Label(cfg, ts[0]) == Background then
      Own(cfg, ts[0]) + Segments(cfg, ts[1..])
    else
      var n := RunLength(cfg, ts, Label(cfg, ts[0]));
      [RunEmit(cfg, ts[..n], n == |ts|)] + Segments(cfg, ts[n..])
  }

  // ---------------------------------------------------------------------------
  // Holder states

  /** An empty holder with the background label. */
  predicate Idle(h: Holder) {
    h.text == "" && h.ids == [] && h.begin == -1 && h.ne == Background
  }

  /** The holder after accumulating `run`. */
  function RunHolder(cfg: Config, run: seq<Token>): Holder
    requires |run| > 0
  {
    Holder(Label(cfg, run[0]), NotNull(Last(run).pos), RunText(run), run[0].begin, Last(run).end, RunIds(cfg, run))
  }

  /** `run` is a stretch of entity tokens with one admitted label and a non-empty text. */
  predicate GoodRun(cfg: Config, run: seq<Token>) {
    && |run| > 0
    && Label(cfg, run[0]) != Background
    && Label(cfg, run[0]) !in cfg.excluded
    && |run[0].originalText| > 0
  }

  lemma RunTextNonEmpty(run: seq<Token>)
    requires |run| > 0 && |run[0].originalText| > 0
    ensures |RunText(run)| > 0
    decreases |run|
  {
    if |run| > 1 {
      RunTextNonEmpty(run[..|run| - 1]);
    }
  }

  lemma CompleteUnfold(cfg: Config, h: Holder, ts: seq<Token>)
    requires |ts| > 0 && ts[0].lemmaText.Some?
    ensures Complete(cfg, h, ts)
         == Step(cfg, h, ts[0]).out + Complete(cfg, Track(cfg, Step(cfg, h, ts[0]).holder, ts[0]), ts[1..])
  {
  }

  /** Extending a run by one more token with its label is the Continue branch followed by Track. */
  lemma ExtendRun(cfg: Config, run: seq<Token>, t: Token)
    requires GoodRun(cfg, run) && Label(cfg, t) == Label(cfg, run[0])
    ensures RunHolder(cfg, run + [t]) == Track(cfg, Append(RunHolder(cfg, run), t.before, t, IdOf(cfg, t)), t)
  {
    var run' := run + [t];
    assert run'[..|run'| - 1] == run;
    assert RunIds(cfg, run') == RunIds(cfg, run) + [IdOf(cfg, t)];
  }

  /** Opening a run at a single token is the Open or Switch branch followed by Track. */
  lemma OpenRun(cfg: Config, h: Holder, t: Token)
    requires h.text == "" && h.ids == [] && h.begin == -1
    requires Label(cfg, t) !in cfg.excluded
    ensures RunHolder(cfg, [t]) == Track(cfg, Append(h, "", t, IdOf(cfg, t)), t)
  {
    assert RunIds(cfg, [t]) == [IdOf(cfg, t)];
  }

  lemma RunLengthStep(cfg: Config, ts: seq<Token>, l: string)
    requires |ts| > 0 && Label(cfg, ts[0]) == l
    ensures RunLength(cfg, ts, l) == 1 + RunLength(cfg, ts[1..], l)
  {
  }

  lemma IdleStepBackground(cfg: Config, h: Holder, t: Token)
    requires Idle(h) && CleanToken(cfg, t) && Label(cfg, t) == Background && Background !in cfg.excluded
    ensures Step(cfg, h, t).out == Own(cfg, t)
    ensures Idle(Track(cfg, Step(cfg, h, t).holder, t))
  {
  }

  lemma IdleStepOpen(cfg: Config, h: Holder, t: Token)
    requires Idle(h) && CleanToken(cfg, t) && Label(cfg, t) != Background
    ensures Step(cfg, h, t).out == []
    ensures Track(cfg, Step(cfg, h, t).holder, t) == RunHolder(cfg, [t])
  {
    assert BranchOf(cfg, h, t) == Open;
    OpenRun(cfg, h, t);
  }

  lemma RunStepBackground(cfg: Config, run: seq<Token>, t: Token)
    requires GoodRun(cfg, run) && CleanToken(cfg, t) && Label(cfg, t) == Background && Background !in cfg.excluded
    ensures Step(cfg, RunHolder(cfg, run), t).out == [RunEmit(cfg, run, false)] + Own(cfg, t)
    ensures Idle(Track(cfg, Step(cfg, RunHolder(cfg, run), t).holder, t))
  {
    var h := RunHolder(cfg, run);
    RunTextNonEmpty(run);
    assert MidFlush(cfg, h, IdOf(cfg, t)) == RunEmit(cfg, run, false);
  }

  lemma RunStepSwitch(cfg: Config, run: seq<Token>, t: Token)
    requires GoodRun(cfg, run) && CleanToken(cfg, t) && Label(cfg, t) != Background && Label(cfg, t) != Label(cfg, run[0])
    ensures Step(cfg, RunHolder(cfg, run), t).out == [RunEmit(cfg, run, false)]
    ensures Track(cfg, Step(cfg, RunHolder(cfg, run), t).holder, t) == RunHolder(cfg, [t])
  {
    var h := RunHolder(cfg, run);
    RunTextNonEmpty(run);
    assert BranchOf(cfg, h, t) == Switch;
    assert MidFlush(cfg, h, IdOf(cfg, t)) == RunEmit(cfg, run, false);
    OpenRun(cfg, Reset(h), t);
  }

  lemma RunStepContinue(cfg: Config, run: seq<Token>, t: Token)
    requires GoodRun(cfg, run) && CleanToken(cfg, t) && Label(cfg, t) == Label(cfg, run[0])
    ensures Step(cfg, RunHolder(cfg, run), t).out == []
    ensures Track(cfg, Step(cfg, RunHolder(cfg, run), t).holder, t) == RunHolder(cfg, run + [t])
  {
    assert BranchOf(cfg, RunHolder(cfg, run), t) == Continue;
    ExtendRun(cfg, run, t);
  }

  lemma CleanTail(cfg: Config, ts: seq<Token>)
    requires Clean(cfg, ts) && |ts| > 0
    ensures Clean(cfg, ts[1..]) && CleanToken(cfg, ts[0])
  {
    forall i | 0 <= i < |ts[1..]| ensures CleanToken(cfg, ts[1..][i]) {
      assert ts[1..][i] == ts[i + 1];
    }
  }

  /**
    From an idle holder, the fold with its final flush is the reference
    segmentation.
  */
  lemma {:induction false} IdleCase(cfg: Config, h: Holder, ts: seq<Token>)
    requires Clean(cfg, ts) && Idle(h)
    ensures Complete(cfg, h, ts) == Segments(cfg, ts)
    decreases |ts|, 0
  {
    if |ts| == 0 {
      return;
    }
    var t := ts[0];
    CleanTail(cfg, ts);
    CompleteUnfold(cfg, h, ts);
    var s := Step(cfg, h, t);
    var h' := Track(cfg, s.holder, t);
    if Label(cfg, t) == Background {
      IdleStepBackground(cfg, h, t);
      IdleCase(cfg, h', ts[1..]);
      SegmentsBackground(cfg, ts);
    } else {
      IdleStepOpen(cfg, h, t);
      assert s.out == [] && h' == RunHolder(cfg, [t]);
      RunCase(cfg, [t], ts[1..]);
      SegmentsOpen(cfg, ts);
      assert Complete(cfg, h, ts) == Complete(cfg, h', ts[1..]);
    }
  }

  /** The reference at a token that opens a run: the run is that token followed by the rest's leading same-label tokens. */
  lemma SegmentsOpen(cfg: Config, ts: seq<Token>)
    requires |ts| > 0 && Label(cfg, ts[0]) != Background
    ensures var l := Label(cfg, ts[0]);
            var m := RunLength(cfg, ts[1..], l);
            Segments(cfg, ts) == [RunEmit(cfg, [ts[0]] + ts[1..][..m], m == |ts[1..]|)] + Segments(cfg, ts[1..][m..])
  {
    var l := Label(cfg, ts[0]);
    var m := RunLength(cfg, ts[1..], l);
    var n := RunLength(cfg, ts, l);
    RunLengthStep(cfg, ts, l);
    assert Segments(cfg, ts) == [RunEmit(cfg, ts[..n], n == |ts|)] + Segments(cfg, ts[n..]);
    HeadSlices(ts, m);
  }

  lemma HeadSlices<T>(ts: seq<T>, m: nat)
    requires 1 + m <= |ts|
    ensures ts[..1 + m] == [ts[0]] + ts[1..][..m]
    ensures ts[1 + m..] == ts[1..][m..]
  {
  }

  /**
    From a holder that has accumulated `run`, the fold with its final flush
    emits `run` extended by the leading tokens of `ts` that share its label,
    then the reference segmentation of the remaining tokens.
  */
  lemma {:induction false} RunCase(cfg: Config, run: seq<Token>, ts: seq<Token>)
    requires Clean(cfg, ts) && GoodRun(cfg, run)
    ensures var n := RunLength(cfg, ts, Label(cfg, run[0]));
            Complete(cfg, RunHolder(cfg, run), ts) == [RunEmit(cfg, run + ts[..n], n == |ts|)] + Segments(cfg, ts[n..])
    decreases |ts|, 1
  {
    if |ts| == 0 {
      RunTextNonEmpty(run);
      assert run + ts[..0] == run;
    } else if Label(cfg, ts[0]) == Label(cfg, run[0]) {
      RunCaseContinue(cfg, run, ts);
    } else {
      assert RunLength(cfg, ts, Label(cfg, run[0])) == 0;
      assert run + ts[..0] == run && ts[0..] == ts;
      if Label(cfg, ts[0]) == Background {
        RunCaseClose(cfg, run, ts);
      } else {
        RunCaseSwitch(cfg, run, ts);
      }
    }
  }

  lemma {:induction false} RunCaseClose(cfg: Config, run: seq<Token>, ts: seq<Token>)
    requires Clean(cfg, ts) && GoodRun(cfg, run) && |ts| > 0 && Label(cfg, ts[0]) == Background
    ensures Complete(cfg, RunHolder(cfg, run), ts) == [RunEmit(cfg, run, false)] + Segments(cfg, ts)
    decreases |ts|, 0
  {
    var h := RunHolder(cfg, run);
    var t := ts[0];
    CleanTail(cfg, ts);
    CompleteUnfold(cfg, h, ts);
    var s := Step(cfg, h, t);
    var h' := Track(cfg, s.holder, t);
    RunStepBackground(cfg, run, t);
    IdleCase(cfg, h', ts[1..]);
    SegmentsBackground(cfg, ts);
    SeqAssoc([RunEmit(cfg, run, false)], Own(cfg, t), Segments(cfg, ts[1..]));
  }

  lemma SliceAfterHead<T>(run: seq<T>, ts: seq<T>, m: nat)
    requires 1 + m <= |ts|
    ensures run + [ts[0]] + ts[1..][..m] == run + ts[..1 + m]
    ensures ts[1..][m..] == ts[1 + m..]
  {
    assert [ts[0]] + ts[1..][..m] == ts[..1 + m];
  }

  lemma SeqAssoc<T>(a: seq<T>, b: seq<T>, c: seq<T>)
    ensures a + b + c == a + (b + c)
  {
  }

  lemma SegmentsBackground(cfg: Config, ts: seq<Token>)
    requires |ts| > 0 && Label(cfg, ts[0]) == Background
    ensures Segments(cfg, ts) == Own(cfg, ts[0]) + Segments(cfg, ts[1..])
  {
  }

  lemma {:induction false} RunCaseContinue(cfg: Config, run: seq<Token>, ts: seq<Token>)
    requires Clean(cfg, ts) && GoodRun(cfg, run) && |ts| > 0 && Label(cfg, ts[0]) == Label(cfg, run[0])
    ensures var n := RunLength(cfg, ts, Label(cfg, run[0]));
            Complete(cfg, RunHolder(cfg, run), ts) == [RunEmit(cfg, run + ts[..n], n == |ts|)] + Segments(cfg, ts[n..])
    decreases |ts|, 0
  {
    var l := Label(cfg, run[0]);
    var h := RunHolder(cfg, run);
    var t := ts[0];
    CleanTail(cfg, ts);
    CompleteUnfold(cfg, h, ts);
    var s := Step(cfg, h, t);
    var h' := Track(cfg, s.holder, t);
    RunStepContinue(cfg, run, t);
    assert s.out == [] && h' == RunHolder(cfg, run + [t]);
    RunCase(cfg, run + [t], ts[1..]);
    var m := RunLength(cfg, ts[1..], l);
    RunLengthStep(cfg, ts, l);
    var n := RunLength(cfg, ts, l);
    assert n == 1 + m;
    SliceAfterHead(run, ts, m);
    assert Complete(cfg, h, ts) == Complete(cfg, h', ts[1..]);
  }

  lemma {:induction false} RunCaseSwitch(cfg: Config, run: seq<Token>, ts: seq<Token>)
    requires Clean(cfg, ts) && GoodRun(cfg, run) && |ts| > 0
    requires Label(cfg, ts[0]) != Background && Label(cfg, ts[0]) != Label(cfg, run[0])
    ensures Complete(cfg, RunHolder(cfg, run), ts) == [RunEmit(cfg, run, false)] + Segments(cfg, ts)
    decreases |ts|, 0
  {
    var h := RunHolder(cfg, run);
    var t := ts[0];
    CleanTail(cfg, ts);
    CompleteUnfold(cfg, h, ts);
    var s := Step(cfg, h, t);
    var h' := Track(cfg, s.holder, t);
    RunStepSwitch(cfg, run, t);
    assert s.out == [RunEmit(cfg, run, false)] && h' == RunHolder(cfg, [t]);
    RunCase(cfg, [t], ts[1..]);
    SegmentsOpen(cfg, ts);
  }

  /**
    The fold agrees with the reference segmentation on every clean sentence:
    background tokens with a valid lemma stand alone, those without one are
    dropped, and each maximal same-label stretch of entity tokens is one
    occurrence from its first begin to its last end, with the stretch's text
    and token ids in order.
  */
  lemma MergeIsSegmentation(cfg: Config, ts: seq<Token>)
    requires Clean(cfg, ts)
    ensures MergeTokens(cfg, ts) == Segments(cfg, ts)
  {
    IdleCase(cfg, Init, ts);
  }

  // ---------------------------------------------------------------------------
  // The lemma filter

  /** The tokens that carry a lemma, in order. */
  function WithLemma(ts: seq<Token>): (r: seq<Token>)
    ensures forall i :: 0 <= i < |r| ==> r[i].lemmaText.Some?
    ensures |r| <= |ts|
    decreases |ts|
  {
    if |ts| == 0 then []
    else if ts[0].lemmaText.None? then WithLemma(ts[1..])
    else [ts[0]] + WithLemma(ts[1..])
  }

  lemma {:induction false} FoldWithLemma(cfg: Config, h: Holder, ts: seq<Token>)
    ensures Fold(cfg, h, ts) == Fold(cfg, h, WithLemma(ts))
    decreases |ts|
  {
    if |ts| > 0 {
      var rest := WithLemma(ts[1..]);
      if ts[0].lemmaText.None? {
        FoldWithLemma(cfg, h, ts[1..]);
      } else {
        var s := Step(cfg, h, ts[0]);
        FoldWithLemma(cfg, Track(cfg, s.holder, ts[0]), ts[1..]);
        assert ([ts[0]] + rest)[1..] == rest;
      }
    }
  }

  /** Tokens without a lemma take no part in the merge: the result is that of the lemma-bearing tokens alone. */
  lemma MergeIgnoresLemmaless(cfg: Config, ts: seq<Token>)
    ensures MergeTokens(cfg, ts) == MergeTokens(cfg, WithLemma(ts))
  {
    FoldWithLemma(cfg, Init, ts);
  }

  // ---------------------------------------------------------------------------
  // Without NER

  /** The occurrences of the tokens standing alone: each lemma-bearing token with a valid lemma, through getTag. */
  function Singles(cfg: Config, ts: seq<Token>): seq<Emit>
    decreases |ts|
  {
    if |ts| == 0 then []
    else if ts[0].lemmaText.Some? && cfg.isValidLemma(ts[0].lemmaText.value) then
      Single(cfg, ts[0], [IdOf(cfg, ts[0])]) + Singles(cfg, ts[1..])
    else Singles(cfg, ts[1..])
  }

  lemma {:induction false} NoNerFold(cfg: Config, h: Holder, ts: seq<Token>)
    requires !cfg.nerEnabled && h.text == "" && h.ne == Background
    ensures Fold(cfg, h, ts).holder.text == ""
    ensures Fold(cfg, h, ts).out == Singles(cfg, ts)
    decreases |ts|
  {
    if |ts| > 0 {
      if ts[0].lemmaText.None? {
        NoNerFold(cfg, h, ts[1..]);
      } else {
        var h1 := NoNerStep(cfg, h, ts[0]);
        NoNerFold(cfg, h1, ts[1..]);
      }
    }
  }

  /** Without NER a token leaves an empty background holder as it was, apart from its POS, and emits itself if valid. */
  lemma NoNerStep(cfg: Config, h: Holder, t: Token) returns (h1: Holder)
    requires !cfg.nerEnabled && h.text == "" && h.ne == Background && t.lemmaText.Some?
    ensures Track(cfg, Step(cfg, h, t).holder, t) == h1
    ensures h1.text == "" && h1.ne == Background
    ensures Step(cfg, h, t).out == if cfg.isValidLemma(t.lemmaText.value) then Single(cfg, t, [IdOf(cfg, t)]) else []
  {
    assert Label(cfg, t) == Background;
    if cfg.isValidLemma(t.lemmaText.value) {
      assert BranchOf(cfg, h, t) == Plain;
    } else {
      assert BranchOf(cfg, h, t) == Punctuation;
    }
    h1 := Track(cfg, Step(cfg, h, t).holder, t);
  }

  /**
    With no NER step every token is background, so nothing is ever merged:
    the occurrences are exactly the valid-lemma tokens taken one by one, and
    the excluded set plays no part.
  */
  lemma NoNerNoMerging(cfg: Config, ts: seq<Token>)
    requires !cfg.nerEnabled
    ensures MergeTokens(cfg, ts) == Singles(cfg, ts)
  {
    NoNerFold(cfg, Init, ts);
  }

  // ---------------------------------------------------------------------------
  // Consequences and quirks of the branch order

  /**
    With an NER step on, a token with no NE annotation brings the label "",
    which is not background: a sentence none of whose tokens was labelled by
    the NER annotator is merged into a single occurrence spanning all of it.
  */
  lemma MissingNerMergesSentence(cfg: Config, ts: seq<Token>)
    requires cfg.nerEnabled && "" !in cfg.excluded && Background !in cfg.excluded
    requires |ts| > 0
    requires forall i :: 0 <= i < |ts| ==> ts[i].lemmaText.Some? && ts[i].ne.None? && |ts[i].originalText| > 0
    ensures MergeTokens(cfg, ts) == [RunEmit(cfg, ts, true)]
  {
    assert Clean(cfg, ts) by {
      forall i | 0 <= i < |ts| ensures CleanToken(cfg, ts[i]) {
        assert Label(cfg, ts[i]) == "";
      }
    }
    MergeIsSegmentation(cfg, ts);
    RunLengthAll(cfg, ts, "");
    assert ts[..|ts|] == ts;
    assert ts[|ts|..] == [];
  }

  lemma {:induction false} RunLengthAll(cfg: Config, ts: seq<Token>, l: string)
    requires forall i :: 0 <= i < |ts| ==> Label(cfg, ts[i]) == l
    ensures RunLength(cfg, ts, l) == |ts|
    decreases |ts|
  {
    if |ts| > 0 {
      assert forall i :: 0 <= i < |ts[1..]| ==> ts[1..][i] == ts[i + 1];
      RunLengthAll(cfg, ts[1..], l);
    }
  }

  /**
    An entity token whose label is excluded never becomes the holder's label,
    so a background token right after it takes the non-flushing background
    branch: the background token's occurrence comes first, and the excluded
    token is flushed only at the end of the sentence, labelled background.
  */
  lemma ExcludedEntityDeferred(cfg: Config, a: Token, b: Token)
    requires cfg.nerEnabled && Background !in cfg.excluded
    requires a.lemmaText.Some? && b.lemmaText.Some?
    requires Label(cfg, a) != Background && Label(cfg, a) in cfg.excluded && |a.originalText| > 0
    requires Label(cfg, b) == Background && cfg.isValidLemma(b.lemmaText.value)
    ensures MergeTokens(cfg, [a, b])
         == Single(cfg, b, [IdOf(cfg, b)])
          + [Emit(a.begin, a.end, a.originalText, MakeTag(cfg, Some(a.originalText), Some(a.originalText)).(ne := {Background}), [IdOf(cfg, a)])]
  {
    var h2 := DeferredHolder(cfg, a, b);
    assert FinalOut(cfg, h2) == [FinalFlush(cfg, h2)];
  }

  /** The holder after an excluded-label token and a valid background token: the first token's run, still open. */
  lemma DeferredHolder(cfg: Config, a: Token, b: Token) returns (h2: Holder)
    requires Background !in cfg.excluded
    requires a.lemmaText.Some? && b.lemmaText.Some?
    requires Label(cfg, a) != Background && Label(cfg, a) in cfg.excluded
    requires Label(cfg, b) == Background && cfg.isValidLemma(b.lemmaText.value)
    ensures Fold(cfg, Init, [a, b]) == State(h2, Single(cfg, b, [IdOf(cfg, b)]))
    ensures h2.text == a.originalText && h2.begin == a.begin && h2.end == a.end
    ensures h2.ne == Background && h2.ids == [IdOf(cfg, a)]
  {
    FoldTwo(cfg, Init, a, b);
    var h1 := FirstExcluded(cfg, a);
    PlainStep(cfg, h1, b);
    h2 := h1.(pos := NotNull(b.pos));
    assert [] + Single(cfg, b, [IdOf(cfg, b)]) == Single(cfg, b, [IdOf(cfg, b)]);
  }

  /** A valid background token met by a background holder emits itself and keeps the holder, apart from its POS. */
  lemma PlainStep(cfg: Config, h: Holder, t: Token)
    requires t.lemmaText.Some? && h.ne == Background && Background !in cfg.excluded
    requires Label(cfg, t) == Background && cfg.isValidLemma(t.lemmaText.value)
    ensures Step(cfg, h, t) == State(h, Single(cfg, t, [IdOf(cfg, t)]))
    ensures Track(cfg, h, t) == h.(pos := NotNull(t.pos))
  {
    assert BranchOf(cfg, h, t) == Plain;
  }

  /** Folding over two tokens that both carry a lemma. */
  lemma FoldTwo(cfg: Config, h: Holder, a: Token, b: Token)
    requires a.lemmaText.Some? && b.lemmaText.Some?
    ensures var s1 := Step(cfg, h, a);
            var h1 := Track(cfg, s1.holder, a);
            var s2 := Step(cfg, h1, b);
            Fold(cfg, h, [a, b]) == State(Track(cfg, s2.holder, b), s1.out + s2.out)
  {
    var s1 := Step(cfg, h, a);
    var h1 := Track(cfg, s1.holder, a);
    var s2 := Step(cfg, h1, b);
    assert [a, b][1..] == [b];
    assert [b][1..] == [];
    assert Fold(cfg, h1, [b]) == State(Track(cfg, s2.holder, b), s2.out + []);
  }

  /**
    Consecutive excluded-label tokens never close one another: the second is
    appended to the first without its "before" text, because the holder's
    label stays background and the token takes the opening branch again.
  */
  lemma ExcludedEntitiesGlued(cfg: Config, a: Token, b: Token)
    requires cfg.nerEnabled
    requires a.lemmaText.Some? && b.lemmaText.Some?
    requires Label(cfg, a) != Background && Label(cfg, a) in cfg.excluded
    requires Label(cfg, b) != Background && Label(cfg, b) in cfg.excluded
    requires |a.originalText| > 0
    ensures MergeTokens(cfg, [a, b])
         == [Emit(a.begin, b.end, a.originalText + b.originalText,
                  MakeTag(cfg, Some(a.originalText + b.originalText), Some(a.originalText + b.originalText)).(ne := {Background}),
                  [IdOf(cfg, a), IdOf(cfg, b)])]
  {
    var h2 := GluedHolder(cfg, a, b);
  }

  /** The holder after two excluded-label tokens: both texts, both ids, still the background label. */
  lemma GluedHolder(cfg: Config, a: Token, b: Token) returns (h2: Holder)
    requires a.lemmaText.Some? && b.lemmaText.Some?
    requires Label(cfg, a) != Background && Label(cfg, a) in cfg.excluded
    requires Label(cfg, b) != Background && Label(cfg, b) in cfg.excluded
    ensures Fold(cfg, Init, [a, b]) == State(h2, [])
    ensures h2 == Holder(Background, "", a.originalText + b.originalText, a.begin, b.end, [IdOf(cfg, a), IdOf(cfg, b)])
  {
    var h1 := FirstExcluded(cfg, a);
    h2 := OpenExcluded(cfg, h1, b);
    FoldTwoQuiet(cfg, Init, a, b, h1, h2);
    AppendFields(h1, "", b, IdOf(cfg, b));
    EmptyPrefix(h1.text, b.originalText);
    assert h2.ids == [IdOf(cfg, a), IdOf(cfg, b)];
  }

  lemma EmptyPrefix(x: string, y: string)
    ensures x + "" + y == x + y
  {
  }

  /** Two tokens that each leave the holder as the next one finds it and emit nothing. */
  lemma FoldTwoQuiet(cfg: Config, h: Holder, a: Token, b: Token, h1: Holder, h2: Holder)
    requires a.lemmaText.Some? && b.lemmaText.Some?
    requires Step(cfg, h, a) == State(h1, []) && Track(cfg, h1, a) == h1
    requires Step(cfg, h1, b) == State(h2, []) && Track(cfg, h2, b) == h2
    ensures Fold(cfg, h, [a, b]) == State(h2, [])
  {
    FoldTwo(cfg, h, a, b);
  }

  /** The holder after a first token with an excluded label. */
  lemma FirstExcluded(cfg: Config, a: Token) returns (h1: Holder)
    requires a.lemmaText.Some?
    requires Label(cfg, a) != Background && Label(cfg, a) in cfg.excluded
    ensures Step(cfg, Init, a) == State(h1, []) && Track(cfg, h1, a) == h1
    ensures h1 == Holder(Background, "", a.originalText, a.begin, a.end, [IdOf(cfg, a)])
  {
    h1 := OpenExcluded(cfg, Init, a);
    assert Init.text + "" + a.originalText == a.originalText;
  }

  /** A token with an excluded label, met by a background holder, opens a run that keeps the background label. */
  lemma OpenExcluded(cfg: Config, h: Holder, t: Token) returns (h': Holder)
    requires t.lemmaText.Some? && h.ne == Background
    requires Label(cfg, t) != Background && Label(cfg, t) in cfg.excluded
    ensures Step(cfg, h, t) == State(h', [])
    ensures h' == Append(h, "", t, IdOf(cfg, t)) && Track(cfg, h', t) == h'
    ensures h'.ne == Background
  {
    assert BranchOf(cfg, h, t) == Open;
    h' := Append(h, "", t, IdOf(cfg, t));
  }

  lemma AppendFields(h: Holder, prefix: string, t: Token, id: string)
    ensures Append(h, prefix, t, id).text == h.text + prefix + t.originalText
    ensures Append(h, prefix, t, id).ids == h.ids + [id]
    ensures Append(h, prefix, t, id).begin == (if h.begin < 0 then t.begin else h.begin)
    ensures Append(h, prefix, t, id).end == t.end
    ensures Append(h, prefix, t, id).ne == h.ne && Append(h, prefix, t, id).pos == h.pos
  {
  }

  /**
    The punctuation filter applies to background tokens only: an entity token
    whose lemma is not valid is still merged and emitted.
  */
  lemma InvalidEntityKept(cfg: Config, a: Token)
    requires cfg.nerEnabled && Background !in cfg.excluded
    requires a.lemmaText.Some? && !cfg.isValidLemma(a.lemmaText.value)
    requires Label(cfg, a) != Background && Label(cfg, a) !in cfg.excluded && |a.originalText| > 0
    ensures MergeTokens(cfg, [a]) == [RunEmit(cfg, [a], true)]
  {
    assert Clean(cfg, [a]) by {
      assert CleanToken(cfg, [a][0]);
    }
    MergeIsSegmentation(cfg, [a]);
    assert [a][..1] == [a];
    assert [a][1..] == [];
  }

  // ---------------------------------------------------------------------------
  // The punctuation check on its examples

  /**
    A background token whose lemma is one of the punctuation examples takes
    the punctuation branch whatever the holder, and a sentence of it alone
    yields no occurrence.
  */
  lemma PunctuationDropped(cfg: Config, h: Holder, t: Token)
    requires ChecksPunctuation(cfg)
    requires t.lemmaText.Some? && t.lemmaText.value in PunctuationExamples && Label(cfg, t) == Background
    ensures BranchOf(cfg, h, t) == Punctuation
    ensures MergeTokens(cfg, [t]) == []
  {
    var k :| 0 <= k < |PunctuationExamples| && PunctuationExamples[k] == t.lemmaText.value;
    assert !cfg.isValidLemma(t.lemmaText.value);
    assert Fold(cfg, Init, [t]) == State(Track(cfg, Init, t), []);
  }

  /**
    A background token whose lemma is one of the word examples (the
    hyphenated "one-thousand" among them) is kept: it takes a plain or
    run-closing branch, and alone it is one occurrence through getTag.
  */
  lemma WordKept(cfg: Config, h: Holder, t: Token)
    requires ChecksPunctuation(cfg)
    requires t.lemmaText.Some? && t.lemmaText.value in WordExamples && Label(cfg, t) == Background
    ensures BranchOf(cfg, h, t) in {Plain, CloseRun}
    ensures MergeTokens(cfg, [t]) == Single(cfg, t, [IdOf(cfg, t)])
  {
    var k :| 0 <= k < |WordExamples| && WordExamples[k] == t.lemmaText.value;
    assert cfg.isValidLemma(t.lemmaText.value);
    assert Fold(cfg, Init, [t]) == State(Track(cfg, Init, t), Single(cfg, t, [IdOf(cfg, t)]));
  }
}

=== FILE: phrases.dfy ===
/**
  Phrase extraction from a constituency tree (inspectSubTree and
  PhraseHolder). Every noun-phrase node (category "NP" or "NP-TMP", compared
  ignoring case) and every leaf yields one phrase: the words of its leaves,
  each followed by a space, spanning from its first leaf's begin to its last
  leaf's end. Phrases equal in text, begin and end collapse into one.
*/
module Phrases {
  import opened Wrappers
  import opened JavaText
  import opened Domain

  /** A parse tree: leaves carry a word and its character span, inner nodes a category. */
  datatype Tree = Leaf(word: string, begin: nat, end: nat) | Node(category: string, children: seq<Tree>)

  /** Tree.value(): a leaf's word, an inner node's category. */
  function ValueOf(t: Tree): string {
    match t
    case Leaf(w, _, _) => w
    case Node(c, _) => c
  }

  predicate IsNounPhrase(t: Tree) {
    EqualsIgnoreCase(ValueOf(t), "NP") || EqualsIgnoreCase(ValueOf(t), "NP-TMP")
  }

  /** Tree.getLeaves, left to right. */
  function Leaves(t: Tree): (r: seq<Tree>)
    ensures forall i :: 0 <= i < |r| ==> r[i].Leaf?
    decreases t
  {
    match t
    case Leaf(_, _, _) => [t]
    case Node(_, cs) => LeavesOf(cs)
  }

  function LeavesOf(cs: seq<Tree>): (r: seq<Tree>)
    ensures forall i :: 0 <= i < |r| ==> r[i].Leaf?
    decreases cs
  {
    if |cs| == 0 then [] else Leaves(cs[0]) + LeavesOf(cs[1..])
  }

  // ---------------------------------------------------------------------------
  // PhraseHolder

  /** A PhraseHolder being filled: the text so far, the first-wins begin and the latest end. */
  datatype Holder = Holder(text: string, begin: int, end: int)

  const EmptyHolder: Holder := Holder("", -1, -1)

  /** One leaf: setBeginPosition (kept once set), setEndPosition, then the word and a space. */
  function AddLeaf(h: Holder, leaf: Tree): Holder
    requires leaf.Leaf?
  {
    var h1 := if h.begin < 0 then h.(begin := leaf.begin) else h;
    h1.(end := leaf.end, text := h1.text + leaf.word + " ")
  }

  function Fill(h: Holder, leaves: seq<Tree>): Holder
    requires forall i :: 0 <= i < |leaves| ==> leaves[i].Leaf?
    decreases |leaves|
  {
    if |leaves| == 0 then h
    else Fill(AddLeaf(h, leaves[0]), leaves[1..])
  }

  /** The phrase a list of leaves makes. */
  function PhraseOf(leaves: seq<Tree>): PhraseSpan
    requires forall i :: 0 <= i < |leaves| ==> leaves[i].Leaf?
  {
    var h := Fill(EmptyHolder, leaves);
    PhraseSpan(h.text, h.begin, h.end)
  }

  /** Every word followed by a space. */
  function Words(leaves: seq<Tree>): string
    requires forall i :: 0 <= i < |leaves| ==> leaves[i].Leaf?
    decreases |leaves|
  {
    if |leaves| == 0 then "" else leaves[0].word + " " + Words(leaves[1..])
  }

  lemma {:induction false} FillShape(h: Holder, leaves: seq<Tree>)
    requires forall i :: 0 <= i < |leaves| ==> leaves[i].Leaf?
    requires |leaves| > 0
    ensures Fill(h, leaves).text == h.text + Words(leaves)
    ensures Fill(h, leaves).begin == (if h.begin < 0 then leaves[0].begin else h.begin)
    ensures Fill(h, leaves).end == leaves[|leaves| - 1].end
    decreases |leaves|
  {
    var h1 := AddLeaf(h, leaves[0]);
    if |leaves| > 1 {
      FillShape(h1, leaves[1..]);
      assert leaves[1..][|leaves[1..]| - 1] == leaves[|leaves| - 1];
    }
  }

  /**
    The phrase of a non-empty list of leaves spans from the first leaf's begin
    to the last leaf's end, and its text is every word followed by a space.
  */
  lemma PhraseOfLeaves(leaves: seq<Tree>)
    requires forall i :: 0 <= i < |leaves| ==> leaves[i].Leaf?
    requires |leaves| > 0
    ensures PhraseOf(leaves) == PhraseSpan(Words(leaves), leaves[0].begin, leaves[|leaves| - 1].end)
  {
    FillShape(EmptyHolder, leaves);
  }

  // ---------------------------------------------------------------------------
  // inspectSubTree

  /** The phrase a node contributes: the phrase of its leaves. */
  function NodePhrase(t: Tree): PhraseSpan {
    PhraseOf(Leaves(t))
  }

  /** inspectSubTree: the noun-phrase test comes first, then the leaf test, then plain recursion. */
  function Inspect(t: Tree): set<PhraseSpan>
    decreases t
  {
    if IsNounPhrase(t) then
      {NodePhrase(t)} + (if t.Node? then InspectAll(t.children) else {})
    else if t.Leaf? then
      {NodePhrase(t)}
    else
      InspectAll(t.children)
  }

  function InspectAll(cs: seq<Tree>): set<PhraseSpan>
    decreases cs
  {
    if |cs| == 0 then {} else Inspect(cs[0]) + InspectAll(cs[1..])
  }

  // ---------------------------------------------------------------------------
  // The phrase set as a property of the whole tree

  /** Every subtree, the tree itself included. */
  function Subtrees(t: Tree): set<Tree>
    decreases t
  {
    match t
    case Leaf(_, _, _) => {t}
    case Node(_, cs) => {t} + SubtreesOf(cs)
  }

  function SubtreesOf(cs: seq<Tree>): set<Tree>
    decreases cs
  {
    if |cs| == 0 then {} else Subtrees(cs[0]) + SubtreesOf(cs[1..])
  }

  /** A subtree that yields a phrase: a noun phrase or a leaf. */
  predicate Yields(u: Tree) {
    IsNounPhrase(u) || u.Leaf?
  }

  /** The phrases of the yielding trees among `ts`. */
  function Image(ts: set<Tree>): set<PhraseSpan> {
    set u | u in ts && Yields(u) :: NodePhrase(u)
  }

  lemma ImageUnion(a: set<Tree>, b: set<Tree>)
    ensures Image(a + b) == Image(a) + Image(b)
  {
  }

  lemma ImageSingle(t: Tree)
    ensures Image({t}) == if Yields(t) then {NodePhrase(t)} else {}
  {
    if Yields(t) {
      assert NodePhrase(t) in Image({t});
    }
  }

  /**
    The extracted phrases are exactly those of the tree's noun-phrase nodes
    and leaves, wherever they sit: the recursion reaches every subtree, also
    below a noun phrase.
  */
  lemma {:induction false} InspectIsImage(t: Tree)
    ensures Inspect(t) == Image(Subtrees(t))
    decreases t
  {
    ImageSingle(t);
    match t
    case Leaf(_, _, _) =>
    case Node(_, cs) =>
      InspectAllIsImage(cs);
      ImageUnion({t}, SubtreesOf(cs));
  }

  lemma {:induction false} InspectAllIsImage(cs: seq<Tree>)
    ensures InspectAll(cs) == Image(SubtreesOf(cs))
    decreases cs
  {
    if |cs| > 0 {
      InspectIsImage(cs[0]);
      InspectAllIsImage(cs[1..]);
      ImageUnion(Subtrees(cs[0]), SubtreesOf(cs[1..]));
    }
  }

  /** Every leaf of the tree is a phrase of its own: its word and a space, over its span. */
  lemma LeafPhrases(t: Tree, u: Tree)
    requires u in Subtrees(t) && u.Leaf?
    ensures PhraseSpan(u.word + " ", u.begin, u.end) in Inspect(t)
  {
    InspectIsImage(t);
    PhraseOfLeaves([u]);
    assert NodePhrase(u) == PhraseSpan(u.word + " ", u.begin, u.end);
  }

  /** Every noun-phrase node with leaves gives the phrase from its first leaf's begin to its last leaf's end. */
  lemma NounPhrases(t: Tree, u: Tree)
    requires u in Subtrees(t) && IsNounPhrase(u) && |Leaves(u)| > 0
    ensures var ls := Leaves(u);
            PhraseSpan(Words(ls), ls[0].begin, ls[|ls| - 1].end) in Inspect(t)
  {
    InspectIsImage(t);
    InImage(Subtrees(t), u);
    PhraseOfLeaves(Leaves(u));
  }

  /** A yielding tree contributes its phrase to the image. */
  lemma InImage(ts: set<Tree>, u: Tree)
    requires u in ts && Yields(u)
    ensures NodePhrase(u) in Image(ts)
  {
  }

  /** A tree as the parser builds it: every inner node has children (a childless tree is a leaf). */
  predicate Parsed(t: Tree)
    decreases t
  {
    match t
    case Leaf(_, _, _) => true
    case Node(_, cs) => |cs| > 0 && forall i :: 0 <= i < |cs| ==> Parsed(cs[i])
  }

  /** A parsed tree has at least one leaf. */
  lemma {:induction false} ParsedHasLeaves(t: Tree)
    requires Parsed(t)
    ensures |Leaves(t)| > 0
    decreases t
  {
    match t
    case Leaf(_, _, _) =>
    case Node(_, cs) =>
      ParsedHasLeaves(cs[0]);
      assert |LeavesOf(cs)| >= |Leaves(cs[0])|;
  }

  /** Every subtree of a parsed tree is parsed. */
  lemma {:induction false} SubtreesParsed(t: Tree, u: Tree)
    requires Parsed(t) && u in Subtrees(t)
    ensures Parsed(u)
    decreases t
  {
    match t
    case Leaf(_, _, _) =>
    case Node(_, cs) =>
      if u != t {
        SubtreesOfParsed(cs, u);
      }
  }

  lemma {:induction false} SubtreesOfParsed(cs: seq<Tree>, u: Tree)
    requires forall i :: 0 <= i < |cs| ==> Parsed(cs[i])
    requires u in SubtreesOf(cs)
    ensures Parsed(u)
    decreases cs
  {
    if u in Subtrees(cs[0]) {
      SubtreesParsed(cs[0], u);
    } else {
      SubtreesOfParsed(cs[1..], u);
    }
  }

  /**
    On a parsed tree every extracted phrase comes from at least one leaf:
    its text is not empty and its begin is a leaf's offset, never the
    holder's unset -1.
  */
  lemma ParsedPhrases(t: Tree)
    requires Parsed(t)
    ensures forall p :: p in Inspect(t) ==> |p.text| > 0 && p.begin >= 0
  {
    InspectIsImage(t);
    forall p | p in Inspect(t)
      ensures |p.text| > 0 && p.begin >= 0
    {
      var u :| u in Subtrees(t) && Yields(u) && p == NodePhrase(u);
      SubtreesParsed(t, u);
      ParsedHasLeaves(u);
      PhraseOfLeaves(Leaves(u));
    }
  }

  /** extractPhrases: nothing without a tree; otherwise every extracted phrase is recorded and nothing else changes. */
  function ExtractPhrases(s: Sentence, tree: Option<Tree>): (r: Sentence)
    ensures r.id == s.id && r.occurrences == s.occurrences && r.tags == s.tags && r.dependencies == s.dependencies
    ensures tree.None? ==> r == s
    ensures tree.Some? ==> r.phrases == s.phrases + Image(Subtrees(tree.value))
  {
    match tree
    case None => s
    case Some(t) =>
      InspectIsImage(t);
      s.(phrases := s.phrases + Inspect(t))
  }

  // ---------------------------------------------------------------------------
  // PhraseHolder.compareTo

  /** (begin, end) of `a` comes after that of `b` lexicographically. */
  predicate SpanAfter(a: PhraseSpan, b: PhraseSpan) {
    a.begin > b.begin || (a.begin == b.begin && a.end > b.end)
  }

  /**
    compareTo: 0 for equal phrases; for phrases with different spans it is the
    lexicographic order of (begin, end), and it is antisymmetric there.
  */
  function Compare(a: PhraseSpan, b: PhraseSpan): (r: int)
    ensures r == 0 <==> a == b
    ensures r in {-1, 0, 1}
    ensures (a.begin, a.end) != (b.begin, b.end) ==> (r == 1 <==> SpanAfter(a, b)) && (r == -1 <==> SpanAfter(b, a))
  {
    if a == b then 0
    else if a.begin > b.begin then 1
    else if a.begin == b.begin && a.end > b.end then 1
    else -1
  }

  /**
    Two phrases over the same span with different texts are each "less" than
    the other, so the ordering is not a total order there; the phrase set
    keeps both.
  */
  lemma CompareInconsistent(a: PhraseSpan, b: PhraseSpan)
    requires a.begin == b.begin && a.end == b.end && a.text != b.text
    ensures Compare(a, b) == -1 && Compare(b, a) == -1
  {
  }
}

=== FILE: pipelinebuilder.dfy ===
/**
  PipelineBuilder: accumulates the CoreNLP "annotators" string and a property
  map, one step at a time. Every step puts ", " in front of its annotator
  fragment when the string is not empty yet, so the final string is the
  ", "-join of the fragments in call order.
*/
module PipelineBuilder {
  import opened Wrappers
  import opened JavaText

  /** java.util.Properties: string keys to string values; setProperty overwrites. */
  type Properties = map<string, string>

  const DefaultEnglishNerModel: string := "edu/stanford/nlp/models/ner/english.all.3class.distsim.crf.ser.gz"

  /** The stopword annotator's property keys and the class name the builder registers. */
  const StopwordsListKey: string := "stopword-list"
  const CheckLemmaKey: string := "check-lemma"
  const StopwordAnnotatorClass: string := "com.graphaware.nlp.processor.stanford.annotators.StopwordAnnotator"
  const StopwordAnnotatorName: string := "stopword"
  const NerModelKey: string := "ner.model"

  datatype Builder = Builder(name: string, properties: Properties, annotators: string, threadsNumber: int)

  /** A new builder: no properties, no annotators, four threads. */
  function NewBuilder(name: string): Builder {
    Builder(name, map[], "", 4)
  }

  /** checkForExistingAnnotators: the separator goes in only after a first fragment. */
  function Separated(annotators: string): (r: string)
    ensures |annotators| > 0 ==> r == annotators + ", "
    ensures |annotators| == 0 ==> r == ""
  {
    if |annotators| > 0 then annotators + ", " else annotators
  }

  /** The steps whose only effect is a fixed fragment and a few fixed properties. */
  datatype Step =
    | Tokenize
    | ExtractNEs(fineGrained: bool)
    | ExtractNEsWith(modelPath: string)
    | CleanXml
    | TrueCase
    | Dependencies
    | ExtractSentiment
    | ExtractRelations
    | ExtractCoref
    | DefaultStopWords

  /** The annotator fragment each step appends. */
  function Fragment(s: Step): (r: string)
    ensures |r| > 0
  {
    match s
    case Tokenize => "tokenize, ssplit, pos, lemma"
    case ExtractNEs(_) => "ner"
    case ExtractNEsWith(_) => "ner"
    case CleanXml => "cleanxml"
    case TrueCase => "truecase"
    case Dependencies => "depparse"
    case ExtractSentiment => "parse, sentiment"
    case ExtractRelations => "relation"
    case ExtractCoref => "parse, coref"
    case DefaultStopWords => StopwordAnnotatorName
  }

  /** The properties each step sets; `defaults` is the default stopword list. */
  function StepProperties(s: Step, defaults: string): Properties {
    match s
    case Tokenize => map[]
    case ExtractNEs(fine) =>
      map["ner.useSUTime" := "false", "ner.applyNumericClassifiers" := "false", "ner.applyFineGrained" := BoolToString(fine)]
    case ExtractNEsWith(path) => map[NerModelKey := path]
    case CleanXml => map["clean.allowflawedxml" := "true"]
    case TrueCase => map["truecase.overwriteText" := "true"]
    case Dependencies => map[]
    case ExtractSentiment => map[]
    case ExtractRelations => map[]
    case ExtractCoref => map["coref.maxMentionDistance" := "15", "coref.algorithm" := "statistical"]
    case DefaultStopWords =>
      map[ClassKey(StopwordAnnotatorName) := StopwordAnnotatorClass, StopwordsListKey := defaults]
  }

  /** One step: its fragment after the separator, its properties over the existing ones. */
  function Apply(b: Builder, s: Step, defaults: string): (r: Builder)
    ensures r.name == b.name && r.threadsNumber == b.threadsNumber
    ensures |b.annotators| > 0 ==> r.annotators == b.annotators + ", " + Fragment(s)
    ensures |b.annotators| == 0 ==> r.annotators == Fragment(s)
    ensures r.properties.Keys == b.properties.Keys + StepProperties(s, defaults).Keys
    ensures forall k :: k in StepProperties(s, defaults) ==> r.properties[k] == StepProperties(s, defaults)[k]
    ensures forall k :: k in b.properties && k !in StepProperties(s, defaults) ==> r.properties[k] == b.properties[k]
  {
    b.(annotators := Separated(b.annotators) + Fragment(s), properties := b.properties + StepProperties(s, defaults))
  }

  function ApplyAll(b: Builder, steps: seq<Step>, defaults: string): (r: Builder)
    ensures r.name == b.name && r.threadsNumber == b.threadsNumber
    decreases |steps|
  {
    if |steps| == 0 then b else ApplyAll(Apply(b, steps[0], defaults), steps[1..], defaults)
  }

  function Fragments(steps: seq<Step>): (r: seq<string>)
    ensures |r| == |steps|
    ensures forall i :: 0 <= i < |steps| ==> r[i] == Fragment(steps[i])
  {
    seq(|steps|, i requires 0 <= i < |steps| => Fragment(steps[i]))
  }

  /** After a run of steps the annotators string is the earlier string and the new fragments, all ", "-separated. */
  lemma {:induction false} ApplyAllAnnotators(b: Builder, steps: seq<Step>, defaults: string)
    requires |steps| > 0
    ensures |b.annotators| == 0 ==> ApplyAll(b, steps, defaults).annotators == Join(Fragments(steps), ", ")
    ensures |b.annotators| > 0 ==> ApplyAll(b, steps, defaults).annotators == b.annotators + ", " + Join(Fragments(steps), ", ")
    decreases |steps|
  {
    var b1 := Apply(b, steps[0], defaults);
    var rest := steps[1..];
    var fs := Fragments(steps);
    if |rest| == 0 {
      assert fs == [Fragment(steps[0])];
    } else {
      ApplyAllAnnotators(b1, rest, defaults);
      assert fs == [Fragment(steps[0])] + Fragments(rest);
      assert fs[1..] == Fragments(rest);
      if |b.annotators| > 0 {
        assert Join(fs, ", ") == Fragment(steps[0]) + ", " + Join(Fragments(rest), ", ");
      }
    }
  }

  /** A fresh builder's annotators string is exactly the ", "-join of the fragments in call order. */
  lemma AnnotatorsAreJoin(name: string, steps: seq<Step>, defaults: string)
    ensures ApplyAll(NewBuilder(name), steps, defaults).annotators == Join(Fragments(steps), ", ")
  {
    if |steps| > 0 {
      ApplyAllAnnotators(NewBuilder(name), steps, defaults);
    }
  }

  // ---------------------------------------------------------------------------
  // Stopword lists

  /**
    The list a "+"-prefixed custom list stands for: the default list, a comma,
    and the custom list with every "+," and then every "+" removed. Any other
    custom list replaces the default list.
  */
  function ComposeStopWordList(defaults: string, custom: string): string {
    if StartsWith(custom, "+") then defaults + "," + StripPlus(custom) else custom
  }

  /** Split on "," (Java semantics) and trim every field. */
  function TrimmedFields(list: string): (r: seq<string>)
    ensures |r| == |JavaSplit(list, ',')|
    ensures forall i :: 0 <= i < |r| ==> r[i] == Trim(JavaSplit(list, ',')[i])
  {
    var fields := JavaSplit(list, ',');
    seq(|fields|, i requires 0 <= i < |fields| => Trim(fields[i]))
  }

  function GetDefaultStopwords(defaults: string): seq<string> {
    TrimmedFields(defaults)
  }

  function GetCustomStopwordsList(defaults: string, custom: string): seq<string> {
    TrimmedFields(ComposeStopWordList(defaults, custom))
  }

  /** A stopword as lists hold it: non-empty, no comma, no '+', nothing to trim at its ends. */
  predicate PlainWord(w: string) {
    |w| > 0 && ',' !in w && '+' !in w && !IsTrimmable(w[0]) && !IsTrimmable(w[|w| - 1])
  }

  /**
    A list written "+,w1,...,wn" extends the default list: its words are the
    default words followed by w1 ... wn.
  */
  lemma PlusListExtendsDefaults(ds: seq<string>, cs: seq<string>)
    requires |ds| >= 1 && |cs| >= 1
    requires forall i :: 0 <= i < |ds| ==> PlainWord(ds[i])
    requires forall i :: 0 <= i < |cs| ==> PlainWord(cs[i])
    ensures GetCustomStopwordsList(Join(ds, ","), "+," + Join(cs, ",")) == ds + cs
  {
    var all := ds + cs;
    ComposePlusList(ds, cs);
    JavaSplitJoin(all, ',');
    TrimmedPlainWords(all);
  }

  /** The composed list of "+,w1,...,wn" is the default words and w1 ... wn, comma-separated. */
  lemma ComposePlusList(ds: seq<string>, cs: seq<string>)
    requires |ds| >= 1 && |cs| >= 1
    requires forall i :: 0 <= i < |cs| ==> '+' !in cs[i]
    ensures ComposeStopWordList(Join(ds, ","), "+," + Join(cs, ",")) == Join(ds + cs, [','])
  {
    var words := Join(cs, ",");
    JoinChars(cs, ",", '+');
    StripPlusOfPlusList(words);
    JoinAppend(ds, cs, ",");
  }

  /** StripPlus of "+," and a '+'-free list is that list. */
  lemma StripPlusOfPlusList(words: string)
    requires '+' !in words
    ensures StartsWith("+," + words, "+")
    ensures StripPlus("+," + words) == words
  {
    var custom := "+," + words;
    StripPlusDropsMarks(custom);
    DropPlusMarksNone(words);
    assert custom[1..][1..] == words;
  }

  /** Trimming the fields of a join of plain words gives the words back. */
  lemma TrimmedPlainWords(ws: seq<string>)
    requires |ws| >= 1
    requires forall i :: 0 <= i < |ws| ==> PlainWord(ws[i])
    requires JavaSplit(Join(ws, [',']), ',') == ws
    ensures TrimmedFields(Join(ws, [','])) == ws
  {
    var r := TrimmedFields(Join(ws, [',']));
    forall i | 0 <= i < |ws|
      ensures r[i] == ws[i]
    {
      TrimFixpoint(ws[i]);
    }
  }

  // ---------------------------------------------------------------------------
  // The remaining builder operations

  /**
    customStopWordAnnotator: fails when a stopword annotator is already
    listed, leaving the separator it has already appended behind. Otherwise
    it appends `name_uuid`, registers the annotator class under that name and
    sets the composed stopword list and the check-lemma flag.
  */
  function CustomStopWordAnnotator(b: Builder, defaults: string, custom: string, checkLemma: bool, uuid: string): (r: Result<Builder, Builder>)
    ensures r.Failure? <==> ContainsSub(b.annotators, StopwordAnnotatorName)
    ensures r.Failure? ==> r.error == b.(annotators := Separated(b.annotators))
    ensures r.Success? ==> r.value.name == b.name && r.value.threadsNumber == b.threadsNumber
    ensures r.Success? ==> r.value.annotators == Separated(b.annotators) + AnnotatorName(b.name, uuid)
    ensures r.Success? ==> r.value.properties.Keys == b.properties.Keys + {ClassKey(AnnotatorName(b.name, uuid)), StopwordsListKey, CheckLemmaKey}
    ensures r.Success? ==> r.value.properties[ClassKey(AnnotatorName(b.name, uuid))] == StopwordAnnotatorClass
    ensures r.Success? ==> r.value.properties[StopwordsListKey] == ComposeStopWordList(defaults, custom)
    ensures r.Success? ==> r.value.properties[CheckLemmaKey] == BoolToString(checkLemma)
  {
    var annotators := Separated(b.annotators);
    SeparatorKeepsStopword(b.annotators);
    if ContainsSub(annotators, StopwordAnnotatorName) then Failure(b.(annotators := annotators))
    else
      var annoName := AnnotatorName(b.name, uuid);
      var key := ClassKey(annoName);
      assert key != StopwordsListKey && key != CheckLemmaKey by {
        assert key[0] == 'c' && StopwordsListKey[0] == 's' && CheckLemmaKey[0] == 'c';
        assert key[1] == 'u' && CheckLemmaKey[1] == 'h';
      }
      var props := b.properties[key := StopwordAnnotatorClass];
      Success(b.(annotators := annotators + annoName,
                 properties := props[StopwordsListKey := ComposeStopWordList(defaults, custom)][CheckLemmaKey := BoolToString(checkLemma)]))
  }

  /** The name of a custom stopword annotator: the pipeline name, "_" and a random UUID (here a parameter). */
  function AnnotatorName(name: string, uuid: string): string {
    name + "_" + uuid
  }

  /** The property registering an annotator's class. */
  function ClassKey(annoName: string): string {
    "customAnnotatorClass." + annoName
  }

  /** The ", " separator cannot complete an occurrence of "stopword", so the check sees what was there before. */
  lemma SeparatorKeepsStopword(annotators: string)
    ensures ContainsSub(Separated(annotators), StopwordAnnotatorName) <==> ContainsSub(annotators, StopwordAnnotatorName)
  {
    if |annotators| > 0 {
      ContainsSubAppend(annotators, ", ", StopwordAnnotatorName);
    }
  }

  /** stopWordAnnotator(Properties): every given property is copied over the existing ones. */
  function StopWordAnnotator(b: Builder, props: Properties): (r: Builder)
    ensures r.annotators == b.annotators && r.name == b.name && r.threadsNumber == b.threadsNumber
    ensures r.properties.Keys == b.properties.Keys + props.Keys
    ensures forall k :: k in props ==> r.properties[k] == props[k]
    ensures forall k :: k in b.properties && k !in props ==> r.properties[k] == b.properties[k]
  {
    b.(properties := b.properties + props)
  }

  /** threadNumber: sets the thread count and nothing else. */
  function ThreadNumber(b: Builder, threads: int): (r: Builder)
    ensures r.threadsNumber == threads
    ensures r.name == b.name && r.annotators == b.annotators && r.properties == b.properties
  {
    b.(threadsNumber := threads)
  }

  /** The "ner.model" property, "" when unset. */
  function CurrentModels(props: Properties): string {
    if NerModelKey in props then props[NerModelKey] else ""
  }

  /**
    withCustomModels: the new paths go in front of the current models, with a
    comma between them only when the current value is not blank.
  */
  function WithCustomModels(b: Builder, modelPaths: string): (r: Builder)
    ensures r.annotators == b.annotators && r.name == b.name && r.threadsNumber == b.threadsNumber
    ensures r.properties.Keys == b.properties.Keys + {NerModelKey}
    ensures forall k :: k in b.properties && k != NerModelKey ==> r.properties[k] == b.properties[k]
    ensures Trim(CurrentModels(b.properties)) == "" ==> r.properties[NerModelKey] == modelPaths + CurrentModels(b.properties)
    ensures Trim(CurrentModels(b.properties)) != "" ==> r.properties[NerModelKey] == modelPaths + "," + CurrentModels(b.properties)
  {
    var current := CurrentModels(b.properties);
    var sep := if EqualsIgnoreCase(Trim(current), "") then "" else ",";
    b.(properties := b.properties[NerModelKey := modelPaths + sep + current])
  }

  /** Two calls stack their models: the later paths first, then the earlier ones. */
  lemma WithCustomModelsTwice(b: Builder, first: string, second: string)
    requires NerModelKey !in b.properties
    requires Trim(first) != ""
    ensures WithCustomModels(WithCustomModels(b, first), second).properties[NerModelKey] == second + "," + first
  {
    assert Trim("") == "";
    var b1 := WithCustomModels(b, first);
    assert b1.properties[NerModelKey] == first;
  }

  /** build: the properties handed to CoreNLP, with the annotators string and the thread count. */
  function Build(b: Builder): (r: Properties)
    ensures r.Keys == b.properties.Keys + {"annotators", "threads"}
    ensures r["annotators"] == b.annotators
    ensures r["threads"] == IntToString(b.threadsNumber)
    ensures forall k :: k in b.properties && k != "annotators" && k != "threads" ==> r[k] == b.properties[k]
  {
    b.properties["annotators" := b.annotators]["threads" := IntToString(b.threadsNumber)]
  }
}

=== FILE: processor.dfy ===
/**
  The pipeline side of StanfordTextProcessor: the registry of named
  pipelines, createPipeline (which drives PipelineBuilder), the custom NER
  model paths, model file names, and the tag-only annotation entry points.
  A registered pipeline is represented by the property map its builder
  hands to CoreNLP.
*/
module Processor {
  import opened Wrappers
  import opened JavaText
  import opened Domain
  import opened TokenMerger
  import PipelineBuilder
  import Stopwords

  const TokenizerPipeline: string := "tokenizer"
  const DefaultNerModel: string := "edu/stanford/nlp/models/ner/english.all.3class.distsim.crf.ser.gz"

  /** The pipelines by name. */
  type Registry = map<string, PipelineBuilder.Properties>

  // ---------------------------------------------------------------------------
  // The registry

  /** The name getPipeline looks up: "tokenizer" for a missing or empty name. */
  function PipelineKey(name: Option<string>): (r: string)
    ensures name.None? || name.value == "" ==> r == TokenizerPipeline
    ensures name.Some? && name.value != "" ==> r == name.value
  {
    match name
    case None => TokenizerPipeline
    case Some(n) => if n == "" then TokenizerPipeline else n
  }

  /** getPipeline: the pipeline under that name, or an error when there is none. */
  function GetPipeline(reg: Registry, name: Option<string>): (r: Result<PipelineBuilder.Properties, string>)
    ensures r.Success? <==> PipelineKey(name) in reg
    ensures r.Success? ==> r.value == reg[PipelineKey(name)]
  {
    var key := PipelineKey(name);
    if key in reg then Success(reg[key]) else Failure("Pipeline: " + key + " doesn't exist")
  }

  /** removePipeline: the name is gone, every other pipeline stays. */
  function RemovePipeline(reg: Registry, name: string): (r: Registry)
    ensures r.Keys == reg.Keys - {name}
    ensures forall k :: k in r ==> r[k] == reg[k]
  {
    if name in reg then reg - {name} else reg
  }

  // ---------------------------------------------------------------------------
  // The pipeline specification

  /** The processing steps createPipeline consults. */
  datatype ProcessingStep =
    | StepTokenize | StepNer | StepFineGrainedNer | StepCleanXml | StepTrueCase
    | StepDependency | StepSentiment | StepCoref | StepRelations | StepCheckLemma

  /**
    What createPipeline reads from a pipeline specification: the explicit
    step flags, the custom NER model ids (present exactly when that step is
    requested), the optional stopword list and whitelist, and the thread count.
  */
  datatype PipelineSpec = PipelineSpec(
    name: string,
    language: string,
    steps: map<ProcessingStep, bool>,
    customNER: Option<string>,
    stopWords: Option<string>,
    whitelist: Option<string>,
    threadNumber: int)

  /** hasProcessingStep(step, default). */
  function HasStep(spec: PipelineSpec, step: ProcessingStep, default: bool): bool {
    if step in spec.steps then spec.steps[step] else default
  }

  /** The builder steps before the stopword annotator: tokenize and NER are on by default, the rest off. */
  function EarlySteps(spec: PipelineSpec): seq<PipelineBuilder.Step> {
    (if HasStep(spec, StepTokenize, true) then [PipelineBuilder.Tokenize] else [])
    + (if HasStep(spec, StepNer, true) then [PipelineBuilder.ExtractNEs(HasStep(spec, StepFineGrainedNer, false))] else [])
    + (if HasStep(spec, StepCleanXml, false) then [PipelineBuilder.CleanXml] else [])
    + (if HasStep(spec, StepTrueCase, false) then [PipelineBuilder.TrueCase] else [])
    + (if HasStep(spec, StepDependency, false) then [PipelineBuilder.Dependencies] else [])
  }

  /** The builder steps after the stopword annotator. */
  function LateSteps(spec: PipelineSpec): seq<PipelineBuilder.Step> {
    (if HasStep(spec, StepSentiment, false) then [PipelineBuilder.ExtractSentiment] else [])
    + (if HasStep(spec, StepCoref, false) then [PipelineBuilder.ExtractCoref] else [])
    + (if HasStep(spec, StepRelations, false) then [PipelineBuilder.ExtractRelations] else [])
  }

  /**
    The stopword list createPipeline passes on: the default list when none is
    given; a "+"-prefixed list extends it; otherwise an empty list when a
    whitelist is set, and the given list when not.
  */
  function PipelineStopWordList(defaults: string, spec: PipelineSpec): string {
    match spec.stopWords
    case None => defaults
    case Some(custom) =>
      if StartsWith(custom, "+") then defaults + "," + StripPlus(custom)
      else if spec.whitelist.Some? then ""
      else custom
  }

  /**
    The builder applies the "+" rule once more, but the list createPipeline
    composed never starts with "+" (when the default list does not), so the
    builder keeps it as it is.
  */
  lemma StopWordListComposedOnce(defaults: string, spec: PipelineSpec)
    requires !StartsWith(defaults, "+")
    ensures PipelineBuilder.ComposeStopWordList(defaults, PipelineStopWordList(defaults, spec)) == PipelineStopWordList(defaults, spec)
  {
    var r := PipelineStopWordList(defaults, spec);
    if spec.stopWords.Some? && StartsWith(spec.stopWords.value, "+") {
      if |defaults| > 0 {
        assert r[0] == defaults[0];
        assert defaults[..1] != "+";
      } else {
        assert r[0] == ',';
      }
    }
  }

  // ---------------------------------------------------------------------------
  // Custom NER models

  /** getModelLocation for each id, in order; the first failing lookup fails the whole. */
  function Locations(ids: seq<string>, location: string -> Result<string, string>): (r: Result<seq<string>, string>)
    ensures r.Success? <==> forall i :: 0 <= i < |ids| ==> location(ids[i]).Success?
    ensures r.Success? ==> |r.value| == |ids| && forall i :: 0 <= i < |ids| ==> r.value[i] == location(ids[i]).value
    decreases |ids|
  {
    if |ids| == 0 then Success([])
    else
      var first :- location(ids[0]);
      var rest :- Locations(ids[1..], location);
      assert forall i :: 1 <= i < |ids| ==> ids[1..][i - 1] == ids[i];
      Success([first] + rest)
  }

  /** The english default model, appended for language "en" in any case. */
  function DefaultModels(language: string): seq<string> {
    if EqualsIgnoreCase(language, "en") then [DefaultNerModel] else []
  }

  /** The locations of `ids`, once every lookup has succeeded. */
  function Found(ids: seq<string>, location: string -> Result<string, string>): (r: seq<string>)
    requires forall i :: 0 <= i < |ids| ==> location(ids[i]).Success?
    ensures |r| == |ids|
  {
    seq(|ids|, i requires 0 <= i < |ids| => location(ids[i]).value)
  }

  /**
    The model paths: the ids are the fields of the "customNER" value split on
    ","; each id's location in order, then the english default model exactly
    for language "en" (in any case). One failing lookup fails the whole.
  */
  function ModelPaths(modelIds: string, language: string, location: string -> Result<string, string>): (r: Result<seq<string>, string>)
    ensures var ids := JavaSplit(modelIds, ',');
            r.Success? <==> forall i :: 0 <= i < |ids| ==> location(ids[i]).Success?
    ensures var ids := JavaSplit(modelIds, ',');
            r.Success? ==>
              && |r.value| == |ids| + (if EqualsIgnoreCase(language, "en") then 1 else 0)
              && (forall i :: 0 <= i < |ids| ==> r.value[i] == location(ids[i]).value)
              && (EqualsIgnoreCase(language, "en") ==> r.value[|r.value| - 1] == DefaultNerModel)
  {
    var locs :- Locations(JavaSplit(modelIds, ','), location);
    Success(locs + DefaultModels(language))
  }

  /**
    getCustomModelsPaths: fails exactly when some id's lookup fails;
    otherwise the located paths joined with ",", followed by "," and the
    english default model for "en" (the default model alone when the value
    splits into no ids).
  */
  function CustomModelsPaths(modelIds: string, language: string, location: string -> Result<string, string>): (r: Result<string, string>)
    ensures var ids := JavaSplit(modelIds, ',');
            r.Success? <==> forall i :: 0 <= i < |ids| ==> location(ids[i]).Success?
    ensures var ids := JavaSplit(modelIds, ',');
            r.Success? && !EqualsIgnoreCase(language, "en") ==> r.value == Join(Found(ids, location), ",")
    ensures var ids := JavaSplit(modelIds, ',');
            r.Success? && EqualsIgnoreCase(language, "en") && |ids| > 0 ==>
              r.value == Join(Found(ids, location), ",") + "," + DefaultNerModel
    ensures var ids := JavaSplit(modelIds, ',');
            r.Success? && EqualsIgnoreCase(language, "en") && |ids| == 0 ==> r.value == DefaultNerModel
  {
    var paths :- ModelPaths(modelIds, language, location);
    PathsAreFound(modelIds, language, location);
    JoinPaths(Found(JavaSplit(modelIds, ','), location), language);
    Success(Join(paths, ","))
  }

  /** The model paths are the located ids followed by the default models. */
  lemma PathsAreFound(modelIds: string, language: string, location: string -> Result<string, string>)
    requires ModelPaths(modelIds, language, location).Success?
    ensures ModelPaths(modelIds, language, location).value == Found(JavaSplit(modelIds, ','), location) + DefaultModels(language)
  {
  }

  /** Joining the located paths with the default models, by language and by whether there are ids. */
  lemma JoinPaths(found: seq<string>, language: string)
    ensures !EqualsIgnoreCase(language, "en") ==> Join(found + DefaultModels(language), ",") == Join(found, ",")
    ensures EqualsIgnoreCase(language, "en") && |found| > 0 ==> Join(found + DefaultModels(language), ",") == Join(found, ",") + "," + DefaultNerModel
    ensures EqualsIgnoreCase(language, "en") && |found| == 0 ==> Join(found + DefaultModels(language), ",") == DefaultNerModel
  {
    if EqualsIgnoreCase(language, "en") {
      if |found| > 0 {
        JoinAppend(found, [DefaultNerModel], ",");
      } else {
        assert found + DefaultModels(language) == [DefaultNerModel];
      }
    } else {
      assert found + DefaultModels(language) == found;
    }
  }

  /**
    When every model path is non-empty and free of commas, splitting the
    joined string on "," gives back each id's location in order, followed by
    the english default model for "en".
  */
  lemma CustomModelsPathsSplit(modelIds: string, language: string, location: string -> Result<string, string>)
    requires ModelPaths(modelIds, language, location).Success?
    requires var paths := ModelPaths(modelIds, language, location).value;
             |paths| > 0 && forall i :: 0 <= i < |paths| ==> |paths[i]| > 0 && ',' !in paths[i]
    ensures JavaSplit(CustomModelsPaths(modelIds, language, location).value, ',') == ModelPaths(modelIds, language, location).value
  {
    JavaSplitJoin(ModelPaths(modelIds, language, location).value, ',');
  }

  // ---------------------------------------------------------------------------
  // createPipeline

  /** The builder after the steps before the stopword annotator. */
  function EarlyBuilder(spec: PipelineSpec, defaults: string): PipelineBuilder.Builder {
    PipelineBuilder.ApplyAll(PipelineBuilder.NewBuilder(spec.name), EarlySteps(spec), defaults)
  }

  /** The custom stopword annotator step, with the composed list and check-lemma (on unless switched off). */
  function StopwordStage(spec: PipelineSpec, defaults: string, uuid: string): Result<PipelineBuilder.Builder, PipelineBuilder.Builder> {
    PipelineBuilder.CustomStopWordAnnotator(EarlyBuilder(spec, defaults), defaults, PipelineStopWordList(defaults, spec),
                                            HasStep(spec, StepCheckLemma, true), uuid)
  }

  /** The late steps, then the thread count (Long.intValue, so wrapped to 32 bits). */
  function LateBuilder(b: PipelineBuilder.Builder, spec: PipelineSpec, defaults: string): PipelineBuilder.Builder {
    PipelineBuilder.ThreadNumber(PipelineBuilder.ApplyAll(b, LateSteps(spec), defaults), ToInt32(spec.threadNumber))
  }

  /**
    The properties a registered pipeline gets: the built builder, with the
    custom models first when there are any. None when a model lookup fails.
  */
  function Built(spec: PipelineSpec, b: PipelineBuilder.Builder,
                 location: string -> Result<string, string>): (r: Option<PipelineBuilder.Properties>)
    ensures spec.customNER.None? ==> r == Some(PipelineBuilder.Build(b))
  {
    match spec.customNER
    case None => Some(PipelineBuilder.Build(b))
    case Some(ids) =>
      match CustomModelsPaths(ids, spec.language, location)
      case Failure(_) => None
      case Success(paths) => Some(PipelineBuilder.Build(PipelineBuilder.WithCustomModels(b, paths)))
  }

  /** The registration step: a failing model lookup is caught and registers nothing. */
  function Register(reg: Registry, spec: PipelineSpec, b: PipelineBuilder.Builder,
                    location: string -> Result<string, string>): (r: Registry)
    ensures spec.customNER.None? ==> r == reg[spec.name := PipelineBuilder.Build(b)]
  {
    match Built(spec, b, location)
    case None => reg
    case Some(props) => reg[spec.name := props]
  }

  /**
    createPipeline. A name already registered is an error, and so is a
    stopword annotator already listed by the earlier steps. Otherwise the
    built properties are registered under the name.
  */
  function CreatePipeline(reg: Registry, spec: PipelineSpec, defaults: string, uuid: string,
                          location: string -> Result<string, string>): Result<Registry, string>
  {
    if spec.name in reg then Failure("Pipeline " + spec.name + " already exist")
    else
      match StopwordStage(spec, defaults, uuid)
      case Failure(_) => Failure("A standard stopword annotator already exist!")
      case Success(b) => Success(Register(reg, spec, LateBuilder(b, spec, defaults), location))
  }

  /** The custom NER model lookups of a specification all succeed (or it asks for no custom models). */
  predicate ModelsFound(spec: PipelineSpec, location: string -> Result<string, string>) {
    spec.customNER.None? || ModelPaths(spec.customNER.value, spec.language, location).Success?
  }

  /** The steps that may come before the stopword annotator. */
  predicate EarlyStep(s: PipelineBuilder.Step) {
    s.Tokenize? || s.ExtractNEs? || s.CleanXml? || s.TrueCase? || s.Dependencies?
  }

  /** None of their fragments has a 'w'. */
  lemma EarlyFragmentHasNoW(s: PipelineBuilder.Step)
    requires EarlyStep(s)
    ensures 'w' !in PipelineBuilder.Fragment(s)
  {
  }

  /** The builder's annotators before the stopword step never mention "stopword", since they have no 'w'. */
  lemma EarlyStepsHaveNoStopword(spec: PipelineSpec, defaults: string)
    ensures !ContainsSub(EarlyBuilder(spec, defaults).annotators, PipelineBuilder.StopwordAnnotatorName)
  {
    var steps := EarlySteps(spec);
    var fs := PipelineBuilder.Fragments(steps);
    PipelineBuilder.AnnotatorsAreJoin(spec.name, steps, defaults);
    EarlyStepsAreEarly(spec);
    forall i | 0 <= i < |fs|
      ensures 'w' !in fs[i]
    {
      assert steps[i] in steps;
      EarlyFragmentHasNoW(steps[i]);
    }
    JoinChars(fs, ", ", 'w');
    assert PipelineBuilder.StopwordAnnotatorName[4] == 'w';
    NoCharNoSub(Join(fs, ", "), PipelineBuilder.StopwordAnnotatorName, 'w');
  }

  lemma EarlyStepsAreEarly(spec: PipelineSpec)
    ensures forall s :: s in EarlySteps(spec) ==> EarlyStep(s)
  {
  }

  /** A string that lacks a character of `p` does not contain `p`. */
  lemma NoCharNoSub(s: string, p: string, x: char)
    requires x in p && x !in s
    ensures !ContainsSub(s, p)
  {
    if ContainsSub(s, p) {
      ContainsSubHasChars(s, p, x);
    }
  }

  /** So the stopword step of createPipeline always succeeds. */
  lemma StopwordStageSucceeds(spec: PipelineSpec, defaults: string, uuid: string)
    ensures StopwordStage(spec, defaults, uuid).Success?
  {
    EarlyStepsHaveNoStopword(spec, defaults);
  }

  /** Registering adds the name when the model lookups succeed and leaves the registry as it was otherwise. */
  lemma RegisterOutcome(reg: Registry, spec: PipelineSpec, b: PipelineBuilder.Builder, location: string -> Result<string, string>)
    ensures ModelsFound(spec, location) ==> Register(reg, spec, b, location).Keys == reg.Keys + {spec.name}
    ensures !ModelsFound(spec, location) ==> Register(reg, spec, b, location) == reg
    ensures forall k :: k in reg && k != spec.name ==> k in Register(reg, spec, b, location) && Register(reg, spec, b, location)[k] == reg[k]
  {
    BuiltIffFound(spec, b, location);
    StoreOutcome(reg, spec.name, Built(spec, b, location), Register(reg, spec, b, location));
  }

  /** Storing an optional pipeline under a name adds at most that name and keeps every other entry. */
  lemma StoreOutcome(reg: Registry, name: string, built: Option<PipelineBuilder.Properties>, r: Registry)
    requires built.None? ==> r == reg
    requires built.Some? ==> r == reg[name := built.value]
    ensures built.Some? ==> r.Keys == reg.Keys + {name}
    ensures forall k :: k in reg && k != name ==> k in r && r[k] == reg[k]
  {
  }

  /** A pipeline is built exactly when every custom model is found. */
  lemma BuiltIffFound(spec: PipelineSpec, b: PipelineBuilder.Builder, location: string -> Result<string, string>)
    ensures Built(spec, b, location).Some? <==> ModelsFound(spec, location)
  {
    if spec.customNER.Some? {
      PathsFoundTogether(spec.customNER.value, spec.language, location);
    }
  }

  /** The joined model paths exist exactly when the list of paths does. */
  lemma PathsFoundTogether(modelIds: string, language: string, location: string -> Result<string, string>)
    ensures CustomModelsPaths(modelIds, language, location).Success? <==> ModelPaths(modelIds, language, location).Success?
  {
  }

  /**
    createPipeline fails exactly when the name is taken. Otherwise the
    registry gains the name when the model lookups succeed and is left as it
    was when one fails; no other pipeline changes.
  */
  lemma CreatePipelineOutcome(reg: Registry, spec: PipelineSpec, defaults: string, uuid: string, location: string -> Result<string, string>)
    ensures CreatePipeline(reg, spec, defaults, uuid, location).Failure? <==> spec.name in reg
    ensures spec.name !in reg && ModelsFound(spec, location) ==>
              CreatePipeline(reg, spec, defaults, uuid, location).value.Keys == reg.Keys + {spec.name}
    ensures spec.name !in reg && !ModelsFound(spec, location) ==>
              CreatePipeline(reg, spec, defaults, uuid, location).value == reg
    ensures CreatePipeline(reg, spec, defaults, uuid, location).Success? ==>
              forall k :: k in reg ==>
                (k in CreatePipeline(reg, spec, defaults, uuid, location).value
                 && CreatePipeline(reg, spec, defaults, uuid, location).value[k] == reg[k])
  {
    StopwordStageSucceeds(spec, defaults, uuid);
    if spec.name !in reg {
      RegisterOutcome(reg, spec, LateBuilder(StopwordStage(spec, defaults, uuid).value, spec, defaults), location);
    }
  }

  /** A join whose fields are all non-empty is not empty. */
  lemma JoinNonEmpty(parts: seq<string>, sep: string)
    requires |parts| > 0 && forall i :: 0 <= i < |parts| ==> |parts[i]| > 0
    ensures |Join(parts, sep)| > 0
  {
  }

  /**
    The annotators string of a created pipeline: the early fragments, the
    custom stopword annotator's name, then the late fragments, ", "-joined.
  */
  lemma CreatedAnnotators(spec: PipelineSpec, defaults: string, uuid: string)
    ensures StopwordStage(spec, defaults, uuid).Success?
    ensures LateBuilder(StopwordStage(spec, defaults, uuid).value, spec, defaults).annotators
            == Join(PipelineBuilder.Fragments(EarlySteps(spec)) + [PipelineBuilder.AnnotatorName(spec.name, uuid)]
                    + PipelineBuilder.Fragments(LateSteps(spec)), ", ")
  {
    var b1 := StopwordStageAnnotators(spec, defaults, uuid);
    LateAnnotators(b1, PipelineBuilder.Fragments(EarlySteps(spec)) + [PipelineBuilder.AnnotatorName(spec.name, uuid)], LateSteps(spec), defaults);
  }

  /** After the stopword step the annotators are the early fragments and the annotator's name. */
  lemma StopwordStageAnnotators(spec: PipelineSpec, defaults: string, uuid: string) returns (b1: PipelineBuilder.Builder)
    ensures StopwordStage(spec, defaults, uuid) == Success(b1)
    ensures b1.annotators == Join(PipelineBuilder.Fragments(EarlySteps(spec)) + [PipelineBuilder.AnnotatorName(spec.name, uuid)], ", ")
  {
    var early := PipelineBuilder.Fragments(EarlySteps(spec));
    var name := PipelineBuilder.AnnotatorName(spec.name, uuid);
    StopwordStageSucceeds(spec, defaults, uuid);
    PipelineBuilder.AnnotatorsAreJoin(spec.name, EarlySteps(spec), defaults);
    b1 := StopwordStage(spec, defaults, uuid).value;
    assert b1.annotators == PipelineBuilder.Separated(Join(early, ", ")) + name;
    if |early| > 0 {
      JoinNonEmpty(early, ", ");
      JoinAppend(early, [name], ", ");
    } else {
      assert early + [name] == [name];
    }
  }

  /** The late steps and the thread count append their fragments to a non-empty annotators join. */
  lemma LateAnnotators(b1: PipelineBuilder.Builder, xs: seq<string>, late: seq<PipelineBuilder.Step>, defaults: string)
    requires |xs| > 0 && |xs[|xs| - 1]| > 0 && b1.annotators == Join(xs, ", ")
    ensures PipelineBuilder.ApplyAll(b1, late, defaults).annotators == Join(xs + PipelineBuilder.Fragments(late), ", ")
  {
    var fs := PipelineBuilder.Fragments(late);
    assert |b1.annotators| > 0 by {
      JoinEndsWithLast(xs, ", ");
    }
    if |fs| > 0 {
      PipelineBuilder.ApplyAllAnnotators(b1, late, defaults);
      JoinAppend(xs, fs, ", ");
    } else {
      assert xs + fs == xs;
    }
  }

  /** A join is at least as long as its last field. */
  lemma {:induction false} JoinEndsWithLast(parts: seq<string>, sep: string)
    requires |parts| > 0
    ensures |Join(parts, sep)| >= |parts[|parts| - 1]|
    decreases |parts|
  {
    if |parts| > 1 {
      JoinEndsWithLast(parts[1..], sep);
    }
  }

  lemma LateStepsAreLate(spec: PipelineSpec)
    ensures forall i :: 0 <= i < |LateSteps(spec)| ==>
              LateSteps(spec)[i].ExtractSentiment? || LateSteps(spec)[i].ExtractCoref? || LateSteps(spec)[i].ExtractRelations?
  {
    var late := LateSteps(spec);
    forall i | 0 <= i < |late|
      ensures late[i].ExtractSentiment? || late[i].ExtractCoref? || late[i].ExtractRelations?
    {
      assert late[i] in late;
    }
  }

  /** The late steps set no stopword property. */
  lemma {:induction false} LateStepsKeepStopwordKeys(b: PipelineBuilder.Builder, steps: seq<PipelineBuilder.Step>, defaults: string)
    requires forall i :: 0 <= i < |steps| ==> steps[i].ExtractSentiment? || steps[i].ExtractCoref? || steps[i].ExtractRelations?
    requires PipelineBuilder.StopwordsListKey in b.properties && PipelineBuilder.CheckLemmaKey in b.properties
    ensures PipelineBuilder.StopwordsListKey in PipelineBuilder.ApplyAll(b, steps, defaults).properties
    ensures PipelineBuilder.ApplyAll(b, steps, defaults).properties[PipelineBuilder.StopwordsListKey] == b.properties[PipelineBuilder.StopwordsListKey]
    ensures PipelineBuilder.CheckLemmaKey in PipelineBuilder.ApplyAll(b, steps, defaults).properties
    ensures PipelineBuilder.ApplyAll(b, steps, defaults).properties[PipelineBuilder.CheckLemmaKey] == b.properties[PipelineBuilder.CheckLemmaKey]
    decreases |steps|
  {
    if |steps| > 0 {
      var b1 := PipelineBuilder.Apply(b, steps[0], defaults);
      assert forall i :: 0 <= i < |steps[1..]| ==> steps[1..][i] == steps[i + 1];
      LateStepsKeepStopwordKeys(b1, steps[1..], defaults);
    }
  }

  /** Without custom models, createPipeline registers the built properties under the name. */
  lemma CreatePipelineRegisters(reg: Registry, spec: PipelineSpec, defaults: string, uuid: string, location: string -> Result<string, string>)
    requires spec.name !in reg && spec.customNER.None?
    ensures StopwordStage(spec, defaults, uuid).Success?
    ensures CreatePipeline(reg, spec, defaults, uuid, location)
            == Success(reg[spec.name := PipelineBuilder.Build(LateBuilder(StopwordStage(spec, defaults, uuid).value, spec, defaults))])
  {
    StopwordStageSucceeds(spec, defaults, uuid);
  }

  /**
    What a created pipeline holds: the annotators described above, the
    composed stopword list, the check-lemma flag (on unless switched off),
    and the thread count wrapped to 32 bits.
  */
  lemma CreatedProperties(spec: PipelineSpec, defaults: string, uuid: string)
    requires !StartsWith(defaults, "+")
    ensures StopwordStage(spec, defaults, uuid).Success?
    ensures var props := PipelineBuilder.Build(LateBuilder(StopwordStage(spec, defaults, uuid).value, spec, defaults));
            && props["annotators"] == Join(PipelineBuilder.Fragments(EarlySteps(spec)) + [PipelineBuilder.AnnotatorName(spec.name, uuid)]
                                           + PipelineBuilder.Fragments(LateSteps(spec)), ", ")
            && PipelineBuilder.StopwordsListKey in props && props[PipelineBuilder.StopwordsListKey] == PipelineStopWordList(defaults, spec)
            && PipelineBuilder.CheckLemmaKey in props && props[PipelineBuilder.CheckLemmaKey] == BoolToString(HasStep(spec, StepCheckLemma, true))
            && props["threads"] == IntToString(ToInt32(spec.threadNumber))
  {
    CreatedAnnotators(spec, defaults, uuid);
    var b1 := StopwordStageProperties(spec, defaults, uuid);
    var b2 := LateBuilderKeeps(b1, spec, defaults);
    BuildKeepsStopwordKeys(b2);
  }

  /** The builder after the stopword step holds the list createPipeline composed and the check-lemma flag. */
  lemma StopwordStageProperties(spec: PipelineSpec, defaults: string, uuid: string) returns (b1: PipelineBuilder.Builder)
    requires !StartsWith(defaults, "+")
    ensures StopwordStage(spec, defaults, uuid) == Success(b1)
    ensures PipelineBuilder.StopwordsListKey in b1.properties && PipelineBuilder.CheckLemmaKey in b1.properties
    ensures b1.properties[PipelineBuilder.StopwordsListKey] == PipelineStopWordList(defaults, spec)
    ensures b1.properties[PipelineBuilder.CheckLemmaKey] == BoolToString(HasStep(spec, StepCheckLemma, true))
  {
    StopwordStageSucceeds(spec, defaults, uuid);
    StopWordListComposedOnce(defaults, spec);
    b1 := StopwordStage(spec, defaults, uuid).value;
  }

  /** The late steps and the thread count leave both stopword properties as they were. */
  lemma LateBuilderKeeps(b1: PipelineBuilder.Builder, spec: PipelineSpec, defaults: string) returns (b2: PipelineBuilder.Builder)
    requires PipelineBuilder.StopwordsListKey in b1.properties && PipelineBuilder.CheckLemmaKey in b1.properties
    ensures b2 == LateBuilder(b1, spec, defaults)
    ensures b2.threadsNumber == ToInt32(spec.threadNumber)
    ensures PipelineBuilder.StopwordsListKey in b2.properties && PipelineBuilder.CheckLemmaKey in b2.properties
    ensures b2.properties[PipelineBuilder.StopwordsListKey] == b1.properties[PipelineBuilder.StopwordsListKey]
    ensures b2.properties[PipelineBuilder.CheckLemmaKey] == b1.properties[PipelineBuilder.CheckLemmaKey]
  {
    LateStepsAreLate(spec);
    LateStepsKeepStopwordKeys(b1, LateSteps(spec), defaults);
    b2 := LateBuilder(b1, spec, defaults);
  }

  /** Building keeps both stopword properties, since neither is named "annotators" or "threads". */
  lemma BuildKeepsStopwordKeys(b: PipelineBuilder.Builder)
    requires PipelineBuilder.StopwordsListKey in b.properties && PipelineBuilder.CheckLemmaKey in b.properties
    ensures PipelineBuilder.StopwordsListKey in PipelineBuilder.Build(b) && PipelineBuilder.CheckLemmaKey in PipelineBuilder.Build(b)
    ensures PipelineBuilder.Build(b)[PipelineBuilder.StopwordsListKey] == b.properties[PipelineBuilder.StopwordsListKey]
    ensures PipelineBuilder.Build(b)[PipelineBuilder.CheckLemmaKey] == b.properties[PipelineBuilder.CheckLemmaKey]
  {
    assert PipelineBuilder.StopwordsListKey != "annotators" && PipelineBuilder.StopwordsListKey != "threads" by {
      assert PipelineBuilder.StopwordsListKey[0] == 's' && PipelineBuilder.StopwordsListKey[1] == 't';
    }
    assert PipelineBuilder.CheckLemmaKey != "annotators" && PipelineBuilder.CheckLemmaKey != "threads" by {
      assert PipelineBuilder.CheckLemmaKey[0] == 'c';
    }
  }

  /**
    The stopword annotator of a created pipeline reads back the list
    createPipeline composed, trimmed field by field, and checks lemmas unless
    the specification switches that off.
  */
  lemma CreatedStopwordAnnotator(spec: PipelineSpec, defaults: string, uuid: string)
    requires !StartsWith(defaults, "+")
    ensures StopwordStage(spec, defaults, uuid).Success?
    ensures var a := Stopwords.FromProperties(PipelineBuilder.Build(LateBuilder(StopwordStage(spec, defaults, uuid).value, spec, defaults)));
            && a.checkLemma == HasStep(spec, StepCheckLemma, true)
            && forall w :: w in a.stopwords <==> w in PipelineBuilder.TrimmedFields(PipelineStopWordList(defaults, spec))
  {
    CreatedProperties(spec, defaults, uuid);
    ParseBooleanRoundTrip(HasStep(spec, StepCheckLemma, true));
  }

  /**
    A whitelist with a custom list that does not start with "+" empties the
    stopword list, and an empty list splits into the single word "": no token
    with a non-empty word or lemma is flagged as a stopword.
  */
  lemma WhitelistEmptiesStopwords(spec: PipelineSpec, defaults: string, uuid: string)
    requires !StartsWith(defaults, "+")
    requires spec.stopWords.Some? && !StartsWith(spec.stopWords.value, "+") && spec.whitelist.Some?
    ensures StopwordStage(spec, defaults, uuid).Success?
    ensures Stopwords.FromProperties(PipelineBuilder.Build(LateBuilder(StopwordStage(spec, defaults, uuid).value, spec, defaults))).stopwords == {""}
  {
    CreatedStopwordAnnotator(spec, defaults, uuid);
    assert PipelineStopWordList(defaults, spec) == "";
    Stopwords.BlankListWords(Stopwords.FromProperties(PipelineBuilder.Build(LateBuilder(StopwordStage(spec, defaults, uuid).value, spec, defaults))).stopwords);
  }

  /** A created pipeline can be looked up by its name, and removing it restores the registry. */
  lemma CreateThenGetAndRemove(reg: Registry, spec: PipelineSpec, defaults: string, uuid: string, location: string -> Result<string, string>)
    requires spec.name !in reg && ModelsFound(spec, location) && spec.name != ""
    ensures CreatePipeline(reg, spec, defaults, uuid, location).Success?
    ensures GetPipeline(CreatePipeline(reg, spec, defaults, uuid, location).value, Some(spec.name)).Success?
    ensures RemovePipeline(CreatePipeline(reg, spec, defaults, uuid, location).value, spec.name) == reg
  {
    CreatePipelineOutcome(reg, spec, defaults, uuid, location);
    RemoveAdded(reg, CreatePipeline(reg, spec, defaults, uuid, location).value, spec.name);
  }

  /** Removing a name just added gives back the registry it was added to. */
  lemma RemoveAdded(reg: Registry, r: Registry, name: string)
    requires name !in reg && r.Keys == reg.Keys + {name}
    requires forall k :: k in reg ==> r[k] == reg[k]
    ensures RemovePipeline(r, name) == reg
  {
    assert RemovePipeline(r, name).Keys == reg.Keys;
  }

  // ---------------------------------------------------------------------------
  // Model file names

  /** createModelFileName: the lowercased algorithm, "-" and the lowercased model id when one is given, then ".ser.gz". */
  function CreateModelFileName(alg: string, model: Option<string>): (r: string)
    ensures Lower(r) == r
    ensures StartsWith(r, Lower(alg))
    ensures model.None? || model.value == "" ==> r == Lower(alg) + ".ser.gz"
    ensures model.Some? && model.value != "" ==> r == Lower(alg) + "-" + Lower(model.value) + ".ser.gz"
  {
    var name := Lower(alg);
    var name' := if model.Some? && model.value != "" then name + "-" + Lower(model.value) else name;
    ModelFileNameIsLower(alg, model, name');
    assert (name' + ".ser.gz")[..|name|] == name;
    name' + ".ser.gz"
  }

  /** Lowercasing leaves the pieces of a model file name as they are. */
  lemma ModelFileNameIsLower(alg: string, model: Option<string>, name: string)
    requires name == if model.Some? && model.value != "" then Lower(alg) + "-" + Lower(model.value) else Lower(alg)
    ensures Lower(name + ".ser.gz") == name + ".ser.gz"
  {
    LowerIdempotent(alg);
    assert Lower("-") == "-" && Lower(".ser.gz") == ".ser.gz";
    if model.Some? && model.value != "" {
      LowerIdempotent(model.value);
      LowerConcat(Lower(alg), "-");
      LowerConcat(Lower(alg) + "-", Lower(model.value));
    }
    LowerConcat(name, ".ser.gz");
  }

  /** The file name ignores the case of the algorithm and model id. */
  lemma ModelFileNameIgnoresCase(alg: string, model: string)
    ensures CreateModelFileName(alg, Some(model)) == CreateModelFileName(Lower(alg), Some(Lower(model)))
  {
    if model == "" {
      ModelFileNameNoModel(alg);
    } else {
      ModelFileNameWithModel(alg, model);
    }
  }

  lemma ModelFileNameNoModel(alg: string)
    ensures CreateModelFileName(alg, Some("")) == CreateModelFileName(Lower(alg), Some(Lower("")))
  {
    LowerIdempotent(alg);
    assert Lower("") == "";
  }

  lemma ModelFileNameWithModel(alg: string, model: string)
    requires model != ""
    ensures CreateModelFileName(alg, Some(model)) == CreateModelFileName(Lower(alg), Some(Lower(model)))
  {
    LowerIdempotent(alg);
    LowerIdempotent(model);
    assert Lower(model) != "" by {
      assert |Lower(model)| == |model|;
    }
  }

  // ---------------------------------------------------------------------------
  // annotateTag, annotateTags, annotateSentence

  /** The first sentence CoreNLP returns: none, one without a token list, or its tokens. */
  datatype FirstSentence = NoSentence | NoTokens | Tokens(ts: seq<Token>)

  /** A token's tag when getTag gives one and its lemma passes the validity check. */
  function ValidTag(cfg: Config, t: Token): (r: Option<Tag>)
    ensures r.Some? <==> GetTag(cfg, t).Some? && cfg.isValidLemma(GetTag(cfg, t).value.lemmaText)
    ensures r.Some? ==> r == GetTag(cfg, t)
  {
    match GetTag(cfg, t)
    case None => None
    case Some(tag) => if cfg.isValidLemma(tag.lemmaText) then Some(tag) else None
  }

  /** The tags of the tokens, in order, skipping tokens without a valid tag. */
  function ValidTags(cfg: Config, ts: seq<Token>): (r: seq<Tag>)
    ensures |r| <= |ts|
    decreases |ts|
  {
    if |ts| == 0 then []
    else
      match ValidTag(cfg, ts[0])
      case Some(tag) => [tag] + ValidTags(cfg, ts[1..])
      case None => ValidTags(cfg, ts[1..])
  }

  /** A tag is among the valid tags exactly when some token gives it. */
  lemma {:induction false} ValidTagsMembers(cfg: Config, ts: seq<Token>, tag: Tag)
    ensures tag in ValidTags(cfg, ts) <==> exists i :: 0 <= i < |ts| && ValidTag(cfg, ts[i]) == Some(tag)
    decreases |ts|
  {
    if |ts| > 0 {
      ValidTagsMembers(cfg, ts[1..], tag);
      if exists i :: 1 <= i < |ts| && ValidTag(cfg, ts[i]) == Some(tag) {
        var i :| 1 <= i < |ts| && ValidTag(cfg, ts[i]) == Some(tag);
        assert ts[1..][i - 1] == ts[i];
      }
      if exists i :: 0 <= i < |ts[1..]| && ValidTag(cfg, ts[1..][i]) == Some(tag) {
        var i :| 0 <= i < |ts[1..]| && ValidTag(cfg, ts[1..][i]) == Some(tag);
        assert ts[i + 1] == ts[1..][i];
      }
    }
  }

  /** The first valid tag is the one of the first token that has one. */
  lemma {:induction false} ValidTagsFirst(cfg: Config, ts: seq<Token>, k: int)
    requires 0 <= k < |ts| && ValidTag(cfg, ts[k]).Some?
    requires forall j :: 0 <= j < k ==> ValidTag(cfg, ts[j]).None?
    ensures |ValidTags(cfg, ts)| > 0 && ValidTags(cfg, ts)[0] == ValidTag(cfg, ts[k]).value
    decreases k
  {
    if k > 0 {
      ValidTagsFirst(cfg, ts[1..], k - 1);
    }
  }

  /** annotateTags: the valid tags of the first sentence; a sentence without a token list fails. */
  function AnnotateTags(cfg: Config, first: FirstSentence): (r: Result<seq<Tag>, string>)
    ensures r.Failure? <==> first.NoTokens?
    ensures first.NoSentence? ==> r == Success([])
    ensures first.Tokens? ==> r == Success(ValidTags(cfg, first.ts))
  {
    match first
    case NoSentence => Success([])
    case NoTokens => Failure("no token list")
    case Tokens(ts) => Success(ValidTags(cfg, ts))
  }

  /** annotateSentence: the first valid tag of the first sentence, if any. */
  function AnnotateSentence(cfg: Config, first: FirstSentence): (r: Result<Option<Tag>, string>)
  {
    match first
    case NoSentence => Success(None)
    case NoTokens => Failure("no token list")
    case Tokens(ts) =>
      var tags := ValidTags(cfg, ts);
      Success(if |tags| > 0 then Some(tags[0]) else None)
  }

  /** annotateSentence is the head of annotateTags. */
  lemma AnnotateSentenceIsFirstTag(cfg: Config, first: FirstSentence)
    ensures AnnotateSentence(cfg, first).Failure? <==> AnnotateTags(cfg, first).Failure?
    ensures AnnotateSentence(cfg, first).Success? ==>
              AnnotateSentence(cfg, first).value
              == (if |AnnotateTags(cfg, first).value| > 0 then Some(AnnotateTags(cfg, first).value[0]) else None)
  {
  }

  /**
    annotateTag: no tag without a sentence or tokens; for a single token its
    valid tag; for several tokens a tag for the whole text, with no POS or NE.
  */
  function AnnotateTag(cfg: Config, text: string, first: FirstSentence): (r: Option<Tag>)
    ensures first.Tokens? && |first.ts| > 1 ==> r == Some(MakeTag(cfg, Some(text), None))
    ensures !first.Tokens? || |first.ts| == 0 ==> r.None?
  {
    match first
    case NoSentence => None
    case NoTokens => None
    case Tokens(ts) =>
      if |ts| == 1 then
        var tags := ValidTags(cfg, ts);
        if |tags| > 0 then Some(tags[0]) else None
      else if |ts| > 1 then Some(MakeTag(cfg, Some(text), None))
      else None
  }

  /** For a one-token text annotateTag and annotateSentence agree, and give that token's valid tag. */
  lemma AnnotateTagSingle(cfg: Config, text: string, t: Token)
    ensures AnnotateTag(cfg, text, Tokens([t])) == AnnotateSentence(cfg, Tokens([t])).value
    ensures AnnotateTag(cfg, text, Tokens([t])) == ValidTag(cfg, t)
  {
    assert [t][1..] == [];
  }

  /** A multi-token tag carries the text's lemma and no labels, whatever the tokens are. */
  lemma AnnotateTagMulti(cfg: Config, text: string, ts: seq<Token>)
    requires |ts| > 1
    ensures AnnotateTag(cfg, text, Tokens(ts)).Some?
    ensures AnnotateTag(cfg, text, Tokens(ts)).value.lemmaText == cfg.tagLemma(Some(text))
    ensures AnnotateTag(cfg, text, Tokens(ts)).value.pos == {} && AnnotateTag(cfg, text, Tokens(ts)).value.ne == {}
  {
  }
}

=== FILE: stopwords.dfy ===
/**
  StopwordAnnotator: reads a stopword list and a check-lemma flag from the
  pipeline properties, and gives every token of an annotation a pair
  (word is a stopword, lemma is a stopword).
*/
module Stopwords {
  import opened Wrappers
  import opened JavaText
  import opened Domain
  import opened TokenMerger
  import PipelineBuilder

  /** The configured annotator: its stopword set and whether lemmas are checked too. */
  datatype Annotator = Annotator(stopwords: set<string>, checkLemma: bool)

  /** getStopWordList: the fields of the list split on "," (Java semantics), each trimmed. */
  function GetStopWordList(list: string): (r: set<string>)
    ensures forall w :: w in r <==> w in PipelineBuilder.TrimmedFields(list)
  {
    var fields := PipelineBuilder.TrimmedFields(list);
    set i | 0 <= i < |fields| :: fields[i]
  }

  /** A property with its default. */
  function GetProperty(props: PipelineBuilder.Properties, key: string, default: string): string {
    if key in props then props[key] else default
  }

  /**
    checkStopwords: the check-lemma flag parses the property, "false" when
    unset; the stopword set comes from the list property, and is empty
    when that property is unset.
  */
  function FromProperties(props: PipelineBuilder.Properties): (r: Annotator)
    ensures r.checkLemma <==> PipelineBuilder.CheckLemmaKey in props && ParseBoolean(props[PipelineBuilder.CheckLemmaKey])
    ensures PipelineBuilder.StopwordsListKey !in props ==> r.stopwords == {}
    ensures PipelineBuilder.StopwordsListKey in props ==>
              forall w :: w in r.stopwords <==> w in PipelineBuilder.TrimmedFields(props[PipelineBuilder.StopwordsListKey])
  {
    assert !ParseBoolean("false") by {
      assert Lower("false")[0] != Lower("true")[0];
    }
    var checkLemma := ParseBoolean(GetProperty(props, PipelineBuilder.CheckLemmaKey, "false"));
    if PipelineBuilder.StopwordsListKey in props then
      Annotator(GetStopWordList(props[PipelineBuilder.StopwordsListKey]), checkLemma)
    else
      Annotator({}, checkLemma)
  }

  /** The pair one token receives. */
  function Flags(a: Annotator, t: Token): (r: StopFlags)
    ensures r.wordIsStopword <==> Lower(t.word) in a.stopwords
    ensures r.lemmaIsStopword <==> a.checkLemma && t.lemmaText.Some? && Lower(t.lemmaText.value) in a.stopwords
  {
    StopFlags(Lower(t.word) in a.stopwords,
              if a.checkLemma && t.lemmaText.Some? then Lower(t.lemmaText.value) in a.stopwords else false)
  }

  /**
    annotate: nothing happens when the set is empty or the annotation has no
    tokens; otherwise every token gets its pair and nothing else changes.
  */
  function Annotate(a: Annotator, tokens: Option<seq<Token>>): (r: Option<seq<Token>>)
    ensures r.Some? <==> tokens.Some?
    ensures |a.stopwords| == 0 ==> r == tokens
    ensures tokens.Some? ==> |r.value| == |tokens.value|
    ensures tokens.Some? && |a.stopwords| > 0 ==>
              forall i :: 0 <= i < |tokens.value| ==> r.value[i] == tokens.value[i].(stopword := Some(Flags(a, tokens.value[i])))
  {
    match tokens
    case None => None
    case Some(ts) =>
      if |a.stopwords| == 0 then tokens
      else Some(seq(|ts|, i requires 0 <= i < |ts| => ts[i].(stopword := Some(Flags(a, ts[i])))))
  }

  /** requires(): the lemma annotation is needed exactly when lemmas are checked. */
  function Requires(a: Annotator): (r: set<AnnotationKey>)
    ensures LemmaAnnotation in r <==> a.checkLemma
    ensures r - {LemmaAnnotation} == {TextAnnotation, TokensAnnotation, CharacterOffsetBeginAnnotation, CharacterOffsetEndAnnotation, SentencesAnnotation}
  {
    var basic := {TextAnnotation, TokensAnnotation, CharacterOffsetBeginAnnotation, CharacterOffsetEndAnnotation, SentencesAnnotation};
    if a.checkLemma then basic + {LemmaAnnotation} else basic
  }

  function RequirementsSatisfied(a: Annotator): (r: set<AnnotationKey>)
    ensures r == {StopwordAnnotation}
  {
    {StopwordAnnotation}
  }

  // ---------------------------------------------------------------------------
  // Properties

  /** Annotating a second time changes nothing: the pairs depend only on word and lemma. */
  lemma AnnotateTwice(a: Annotator, tokens: Option<seq<Token>>)
    ensures Annotate(a, Annotate(a, tokens)) == Annotate(a, tokens)
  {
    if tokens.Some? && |a.stopwords| > 0 {
      var once := Annotate(a, tokens).value;
      var twice := Annotate(a, Annotate(a, tokens)).value;
      assert |twice| == |once|;
      forall i | 0 <= i < |once|
        ensures twice[i] == once[i]
      {
        assert Flags(a, once[i]) == Flags(a, tokens.value[i]);
      }
      assert twice == once;
    }
  }

  /**
    After annotation a token gets no tag from getTag exactly when its
    lowercased word is a stopword, or lemmas are checked and its lowercased
    lemma is one.
  */
  lemma AnnotatedTokenHasTag(cfg: Config, a: Annotator, ts: seq<Token>, i: int)
    requires |a.stopwords| > 0 && 0 <= i < |ts|
    ensures GetTag(cfg, Annotate(a, Some(ts)).value[i]).None?
        <==> Lower(ts[i].word) in a.stopwords || (a.checkLemma && ts[i].lemmaText.Some? && Lower(ts[i].lemmaText.value) in a.stopwords)
  {
  }

  /**
    The properties the builder writes for a custom stopword annotator read
    back as that annotator: the check-lemma flag it was given, and the
    trimmed fields of the composed list as its set.
  */
  lemma BuilderRoundTrip(b: PipelineBuilder.Builder, defaults: string, custom: string, checkLemma: bool, uuid: string)
    requires PipelineBuilder.CustomStopWordAnnotator(b, defaults, custom, checkLemma, uuid).Success?
    ensures var props := PipelineBuilder.Build(PipelineBuilder.CustomStopWordAnnotator(b, defaults, custom, checkLemma, uuid).value);
            var a := FromProperties(props);
            a.checkLemma == checkLemma
            && forall w :: w in a.stopwords <==> w in PipelineBuilder.GetCustomStopwordsList(defaults, custom)
  {
    ParseBooleanRoundTrip(checkLemma);
    var props := PipelineBuilder.Build(PipelineBuilder.CustomStopWordAnnotator(b, defaults, custom, checkLemma, uuid).value);
    assert props[PipelineBuilder.CheckLemmaKey] == BoolToString(checkLemma);
    assert props[PipelineBuilder.StopwordsListKey] == PipelineBuilder.ComposeStopWordList(defaults, custom);
  }

  /**
    An empty list still switches annotation on, since it splits into the one
    field "": every token then gets a pair.
  */
  lemma EmptyListAnnotates()
    ensures FromProperties(map[PipelineBuilder.StopwordsListKey := ""]).stopwords == {""}
  {
    BlankListWords(FromProperties(map[PipelineBuilder.StopwordsListKey := ""]).stopwords);
  }

  /** A set holding exactly the trimmed fields of the empty list is {""}. */
  lemma BlankListWords(s: set<string>)
    requires forall w :: w in s <==> w in PipelineBuilder.TrimmedFields("")
    ensures s == {""}
  {
    assert PipelineBuilder.TrimmedFields("") == [""] by {
      assert JavaSplit("", ',') == [""];
      TrimFixpoint("");
    }
    assert forall w :: w in s <==> w == "";
  }

  /** A list of only a comma splits into no fields: the set is empty and tokens stay unannotated. */
  lemma CommaListAnnotatesNothing()
    ensures FromProperties(map[PipelineBuilder.StopwordsListKey := ","]).stopwords == {}
  {
    assert PipelineBuilder.TrimmedFields(",") == [] by {
      JavaSplitSeparatorOnly(',');
    }
    var s := FromProperties(map[PipelineBuilder.StopwordsListKey := ","]).stopwords;
    assert forall w :: w !in s;
  }
}

=== FILE: tokenmerger.dfy ===
/**
  extractTokens: the six-branch state machine that folds a sentence's tokens
  into tag occurrences, merging consecutive tokens that carry the same entity
  label into one multi-word occurrence.

  The fold threads a TokenHolder value through the tokens. Each token first
  runs one of the six branches (Step), which may flush the holder as an
  occurrence; then the token's label and POS become the holder's unless the
  label is excluded (Track). A holder still non-empty after the last token is
  flushed once more with different labelling rules (FinalFlush).
*/
module TokenMerger {
  import opened Wrappers
  import opened JavaText
  import opened Domain

  /**
    TokenHolder. The source keeps two buffers, the token text and the original
    value, that always receive the same strings; `text` stands for both.
  */
  datatype Holder = Holder(ne: string, pos: string, text: string, begin: int, end: int, ids: seq<string>)

  /** The holder before the first token: background label, empty POS, nothing accumulated. */
  const Init: Holder := Holder(Background, "", "", -1, -1, [])

  /** TokenHolder.reset: empties the buffers, the span and the ids, but keeps the label and POS. */
  function Reset(h: Holder): Holder {
    h.(text := "", begin := -1, end := -1, ids := [])
  }

  /**
    `updateToken(prefix)` (only the continuing branch passes the token's
    "before" text), `updateTokenAndTokenId(original text, id)`, the first-wins
    setBeginPosition and setEndPosition.
  */
  function Append(h: Holder, prefix: string, t: Token, id: string): Holder {
    var h1 := h.(text := h.text + prefix + t.originalText, ids := h.ids + [id]);
    var h2 := if h1.begin < 0 then h1.(begin := t.begin) else h1;
    h2.(end := t.end)
  }

  /** The label a token brings: its NE annotation ("" when absent) when an NER step is on, background otherwise. */
  function Label(cfg: Config, t: Token): string {
    if cfg.nerEnabled then NotNull(t.ne) else Background
  }

  /** The synthetic id of a token. */
  function IdOf(cfg: Config, t: Token): string {
    TokenId(cfg.sentenceId, t.begin, t.end, ConcatText(t.lemmaText))
  }

  /** getTokenIdsToUse: the accumulated ids, or the current token's id alone when none have accumulated. */
  function TokenIdsToUse(id: string, ids: seq<string>): (r: seq<string>)
    ensures |r| > 0
    ensures |ids| > 0 ==> r == ids
    ensures |ids| == 0 ==> r == [id]
  {
    if |ids| == 0 then [id] else ids
  }

  /** Either flag of the stopword pair is set. */
  predicate IsStopword(t: Token) {
    t.stopword.Some? && (t.stopword.value.wordIsStopword || t.stopword.value.lemmaIsStopword)
  }

  /** The token has a lemma equal to its word ignoring case. */
  predicate LemmaIsWord(t: Token) {
    t.lemmaText.Some? && EqualsIgnoreCase(t.lemmaText.value, t.word)
  }

  /**
    getTag: no tag for a token flagged as stopword. Otherwise a missing NE
    counts as background; a background token's tag lemma is its word when the
    lemma equals the word ignoring case and its lemma otherwise, an entity
    token's tag lemma is its original text; POS and NE are the token's own.
  */
  function GetTag(cfg: Config, t: Token): (r: Option<Tag>)
    ensures r.None? <==> IsStopword(t)
    ensures r.Some? ==> r.value.ne == {t.ne.GetOr(Background)} && r.value.pos == OptionSet(t.pos)
    ensures r.Some? ==> r.value.lang == cfg.lang && r.value.original == Some(t.originalText)
    ensures r.Some? && t.ne.GetOr(Background) != Background ==> r.value.lemmaText == cfg.tagLemma(Some(t.originalText))
    ensures r.Some? && t.ne.GetOr(Background) == Background && LemmaIsWord(t) ==> r.value.lemmaText == cfg.tagLemma(Some(t.word))
    ensures r.Some? && t.ne.GetOr(Background) == Background && !LemmaIsWord(t) ==> r.value.lemmaText == cfg.tagLemma(t.lemmaText)
  {
    if IsStopword(t) then None
    else
      var ne := t.ne.GetOr(Background);
      var lemmaText :=
        if ne == Background then
          (if LemmaIsWord(t) then Some(t.word) else t.lemmaText)
        else Some(t.originalText);
      Some(MakeTag(cfg, lemmaText, Some(t.originalText)).(pos := OptionSet(t.pos), ne := {ne}))
  }

  /** The occurrence of a token emitted on its own, if getTag gives it a tag. */
  function Single(cfg: Config, t: Token, ids: seq<string>): seq<Emit> {
    match GetTag(cfg, t)
    case Some(tag) => [Emit(t.begin, t.end, t.originalText, tag, ids)]
    case None => []
  }

  /** The flush inside the loop: NE and POS are attached only when the run's label is not excluded. */
  function MidFlush(cfg: Config, h: Holder, id: string): Emit {
    var tag := MakeTag(cfg, Some(h.text), Some(h.text));
    var labelled := if h.ne !in cfg.excluded then tag.(ne := {h.ne}, pos := {h.pos}) else tag;
    Emit(h.begin, h.end, h.text, labelled, TokenIdsToUse(id, h.ids))
  }

  /** The flush after the loop: the NE is attached whatever it is, and no POS. */
  function FinalFlush(cfg: Config, h: Holder): Emit {
    Emit(h.begin, h.end, h.text, MakeTag(cfg, Some(h.text), Some(h.text)).(ne := {h.ne}), h.ids)
  }

  /** The flush done only when the holder has text. */
  function FlushIfAny(cfg: Config, h: Holder, id: string): seq<Emit> {
    if |h.text| > 0 then [MidFlush(cfg, h, id)] else []
  }

  /** The six branches, in the order the source tests them. */
  datatype Branch =
    | Punctuation   // background token whose lemma is not valid
    | Plain         // background token, background holder
    | CloseRun      // background token after an entity run
    | Switch        // entity token with a different label from the entity run
    | Open          // entity token, background holder
    | Continue      // entity token with the run's label

  function BranchOf(cfg: Config, h: Holder, t: Token): (b: Branch)
    requires t.lemmaText.Some?
    ensures b == Punctuation <==> !cfg.isValidLemma(t.lemmaText.value) && Label(cfg, t) == Background
    ensures b in {Plain, CloseRun} <==> cfg.isValidLemma(t.lemmaText.value) && Label(cfg, t) == Background
    ensures b in {Switch, Open, Continue} <==> Label(cfg, t) != Background
    ensures b == Continue ==> Label(cfg, t) == h.ne
    ensures b == Switch ==> Label(cfg, t) != h.ne
  {
    var ne := Label(cfg, t);
    if !cfg.isValidLemma(t.lemmaText.value) && ne == Background then Punctuation
    else if ne == Background && h.ne == Background then Plain
    else if ne == Background then CloseRun
    else if ne != h.ne && h.ne != Background then Switch
    else if h.ne == Background then Open
    else Continue
  }

  datatype State = State(holder: Holder, out: seq<Emit>)

  /** One token's branch: the holder afterwards and the occurrences emitted. */
  function Step(cfg: Config, h: Holder, t: Token): State
    requires t.lemmaText.Some?
  {
    var id := IdOf(cfg, t);
    match BranchOf(cfg, h, t)
    case Punctuation => if |h.text| > 0 then State(Reset(h), [MidFlush(cfg, h, id)]) else State(h, [])
    case Plain => State(h, Single(cfg, t, [id]))
    case CloseRun => State(Reset(h), FlushIfAny(cfg, h, id) + Single(cfg, t, TokenIdsToUse(id, Reset(h).ids)))
    case Switch => State(Append(Reset(h), "", t, id), FlushIfAny(cfg, h, id))
    case Open => State(Append(h, "", t, id), [])
    case Continue => State(Append(h, t.before, t, id), [])
  }

  /** The forEach after the branch: the token's label and POS become the holder's unless the label is excluded. */
  function Track(cfg: Config, h: Holder, t: Token): Holder {
    var ne := Label(cfg, t);
    if ne !in cfg.excluded then h.(ne := ne, pos := NotNull(t.pos)) else h
  }

  /** The stream: tokens without a lemma are filtered out, every other token runs Step then Track. */
  function Fold(cfg: Config, h: Holder, ts: seq<Token>): State
    decreases |ts|
  {
    if |ts| == 0 then State(h, [])
    else if ts[0].lemmaText.None? then Fold(cfg, h, ts[1..])
    else
      var s := Step(cfg, h, ts[0]);
      var rest := Fold(cfg, Track(cfg, s.holder, ts[0]), ts[1..]);
      State(rest.holder, s.out + rest.out)
  }

  /** The final flush, when the holder has text. */
  function FinalOut(cfg: Config, h: Holder): seq<Emit> {
    if |h.text| > 0 then [FinalFlush(cfg, h)] else []
  }

  /** Everything a fold from `h` emits, the final flush included. */
  function Complete(cfg: Config, h: Holder, ts: seq<Token>): seq<Emit> {
    var r := Fold(cfg, h, ts);
    r.out + FinalOut(cfg, r.holder)
  }

  /** The ids of the tokens that survive the lemma filter. */
  function AllIds(cfg: Config, ts: seq<Token>): set<string> {
    set i | 0 <= i < |ts| && ts[i].lemmaText.Some? :: IdOf(cfg, ts[i])
  }

  /**
    What every emitted occurrence satisfies: a non-negative span, at least one
    token id, only ids of the sentence's tokens, at most one NE label, and,
    when an NER step is on, no excluded label other than background.
  */
  predicate GoodEmit(cfg: Config, e: Emit, ids: set<string>) {
    && e.begin >= 0 && e.end >= 0
    && |e.tokenIds| > 0
    && (forall j :: 0 <= j < |e.tokenIds| ==> e.tokenIds[j] in ids)
    && |e.tag.ne| <= 1
    && (cfg.nerEnabled ==> forall l :: l in e.tag.ne ==> l == Background || l !in cfg.excluded)
  }

  /** What the holder keeps between tokens. */
  predicate GoodHolder(cfg: Config, h: Holder, ids: set<string>) {
    && (|h.text| > 0 ==> |h.ids| > 0)
    && (|h.ids| > 0 ==> h.begin >= 0 && h.end >= 0)
    && (forall j :: 0 <= j < |h.ids| ==> h.ids[j] in ids)
    && (h.ne == Background || h.ne !in cfg.excluded)
  }

  lemma StepGood(cfg: Config, h: Holder, t: Token, ids: set<string>)
    requires t.lemmaText.Some? && IdOf(cfg, t) in ids
    requires GoodHolder(cfg, h, ids)
    ensures GoodHolder(cfg, Track(cfg, Step(cfg, h, t).holder, t), ids)
    ensures forall i :: 0 <= i < |Step(cfg, h, t).out| ==> GoodEmit(cfg, Step(cfg, h, t).out[i], ids)
  {
    StepHolderGood(cfg, h, t, ids);
    StepOutGood(cfg, h, t, ids);
  }

  lemma AppendGood(cfg: Config, h: Holder, prefix: string, t: Token, id: string, ids: set<string>)
    requires GoodHolder(cfg, h, ids) && id in ids
    ensures GoodHolder(cfg, Append(h, prefix, t, id), ids)
  {
    var r := Append(h, prefix, t, id);
    assert r.ids == h.ids + [id];
    forall j | 0 <= j < |r.ids| ensures r.ids[j] in ids {
      if j < |h.ids| {
        assert r.ids[j] == h.ids[j];
      }
    }
  }

  lemma StepHolderGood(cfg: Config, h: Holder, t: Token, ids: set<string>)
    requires t.lemmaText.Some? && IdOf(cfg, t) in ids
    requires GoodHolder(cfg, h, ids)
    ensures GoodHolder(cfg, Track(cfg, Step(cfg, h, t).holder, t), ids)
  {
    var id := IdOf(cfg, t);
    assert GoodHolder(cfg, Reset(h), ids);
    match BranchOf(cfg, h, t)
    case Punctuation =>
    case Plain =>
    case CloseRun =>
    case Switch => AppendGood(cfg, Reset(h), "", t, id, ids);
    case Open => AppendGood(cfg, h, "", t, id, ids);
    case Continue => AppendGood(cfg, h, t.before, t, id, ids);
  }

  lemma StepOutGood(cfg: Config, h: Holder, t: Token, ids: set<string>)
    requires t.lemmaText.Some? && IdOf(cfg, t) in ids
    requires GoodHolder(cfg, h, ids)
    ensures forall i :: 0 <= i < |Step(cfg, h, t).out| ==> GoodEmit(cfg, Step(cfg, h, t).out[i], ids)
  {
    var id := IdOf(cfg, t);
    if cfg.nerEnabled && Label(cfg, t) == Background {
      assert t.ne == Some(Background);
    }
    if |h.text| > 0 {
      MidFlushGood(cfg, h, id, ids);
    }
    match BranchOf(cfg, h, t)
    case Punctuation =>
    case Plain => SingleGood(cfg, t, [id], ids);
    case CloseRun =>
      SingleGood(cfg, t, [id], ids);
      var out := Step(cfg, h, t).out;
      assert out == FlushIfAny(cfg, h, id) + Single(cfg, t, [id]);
    case Switch =>
    case Open =>
    case Continue =>
  }

  lemma MidFlushGood(cfg: Config, h: Holder, id: string, ids: set<string>)
    requires GoodHolder(cfg, h, ids) && |h.text| > 0
    ensures GoodEmit(cfg, MidFlush(cfg, h, id), ids)
  {
  }

  lemma SingleGood(cfg: Config, t: Token, tids: seq<string>, ids: set<string>)
    requires |tids| > 0 && forall j :: 0 <= j < |tids| ==> tids[j] in ids
    requires cfg.nerEnabled ==> t.ne == Some(Background)
    ensures forall i :: 0 <= i < |Single(cfg, t, tids)| ==> GoodEmit(cfg, Single(cfg, t, tids)[i], ids)
  {
  }

  lemma {:induction false} FoldGood(cfg: Config, h: Holder, ts: seq<Token>, ids: set<string>)
    requires GoodHolder(cfg, h, ids)
    requires forall i :: 0 <= i < |ts| && ts[i].lemmaText.Some? ==> IdOf(cfg, ts[i]) in ids
    ensures GoodHolder(cfg, Fold(cfg, h, ts).holder, ids)
    ensures forall i :: 0 <= i < |Fold(cfg, h, ts).out| ==> GoodEmit(cfg, Fold(cfg, h, ts).out[i], ids)
    decreases |ts|
  {
    if |ts| > 0 {
      forall i | 0 <= i < |ts[1..]| && ts[1..][i].lemmaText.Some?
        ensures IdOf(cfg, ts[1..][i]) in ids
      {
        assert ts[1..][i] == ts[i + 1];
      }
      if ts[0].lemmaText.None? {
        FoldGood(cfg, h, ts[1..], ids);
      } else {
        var s := Step(cfg, h, ts[0]);
        StepGood(cfg, h, ts[0], ids);
        FoldGood(cfg, Track(cfg, s.holder, ts[0]), ts[1..], ids);
      }
    }
  }

  /**
    extractTokens' list of addTagOccurrence calls, in order. Every occurrence
    has a non-negative span and at least one id, all of them ids of lemma-bearing
    tokens of this sentence; its tag has at most one NE label, and with an NER
    step on that label is background or not excluded.
  */
  function MergeTokens(cfg: Config, ts: seq<Token>): (r: seq<Emit>)
    ensures forall i :: 0 <= i < |r| ==> GoodEmit(cfg, r[i], AllIds(cfg, ts))
  {
    var ids := AllIds(cfg, ts);
    assert forall i :: 0 <= i < |ts| && ts[i].lemmaText.Some? ==> IdOf(cfg, ts[i]) in ids;
    FoldGood(cfg, Init, ts, ids);
    Complete(cfg, Init, ts)
  }

  /**
    extractTokens on a sentence: every merged occurrence is recorded, the
    sentence stays structured and linked, and nothing but the occurrences and
    tags changes. Token ids are built from the sentence's own id.
  */
  function ExtractTokens(cfg: Config, s: Sentence, ts: seq<Token>): (r: Sentence)
    requires Structured(s) && Linked(s) && cfg.sentenceId == s.id
    ensures Structured(r) && Linked(r)
    ensures forall i :: 0 <= i < |MergeTokens(cfg, ts)| ==> Recorded(r, MergeTokens(cfg, ts)[i])
    ensures r.id == s.id && r.phrases == s.phrases && r.dependencies == s.dependencies
    ensures r.occurrences.Keys == s.occurrences.Keys + Begins(MergeTokens(cfg, ts))
  {
    var es := MergeTokens(cfg, ts);
    AddAllStructured(s, es);
    AddAllRecords(s, es);
    AddAllShape(s, es);
    AddAll(s, es)
  }

  /**
    Running extractTokens twice on the same sentence reuses every tag: the tag
    map is the same as after one run, and no new begin position appears.
  */
  lemma ExtractTwiceKeepsTags(cfg: Config, s: Sentence, ts: seq<Token>)
    requires Structured(s) && Linked(s) && cfg.sentenceId == s.id
    ensures ExtractTokens(cfg, ExtractTokens(cfg, s, ts), ts).tags == ExtractTokens(cfg, s, ts).tags
    ensures ExtractTokens(cfg, ExtractTokens(cfg, s, ts), ts).occurrences.Keys == ExtractTokens(cfg, s, ts).occurrences.Keys
  {
    var es := MergeTokens(cfg, ts);
    var once := ExtractTokens(cfg, s, ts);
    AddAllShape(s, es);
    AddAllShape(once, es);
    AddTagsTwice(s.tags, es);
  }
}

=== FILE: whitelist.dfy ===
/**
  filterWhitelist: when a pipeline has a whitelist, a sentence keeps only the
  occurrence lists whose first occurrence is listed, by its value or by its
  tag's lemma (both compared lowercased), and loses every tag whose lemma is
  the lemma of a dropped first occurrence.
*/
module Whitelist {
  import opened Wrappers
  import opened JavaText
  import opened Domain

  /** The whitelist entries: the comma-separated fields, each trimmed and lowercased. */
  function ParseWhitelist(w: string): (r: seq<string>)
    ensures |r| == |JavaSplit(w, ',')|
    ensures forall i :: 0 <= i < |r| ==> r[i] == Lower(Trim(JavaSplit(w, ',')[i]))
  {
    var fields := JavaSplit(w, ',');
    seq(|fields|, i requires 0 <= i < |fields| => Lower(Trim(fields[i])))
  }

  /** An entry as the whitelist stores it: lowercase, no surrounding blanks, no comma, not empty. */
  predicate Normal(e: string) {
    && |e| > 0
    && ',' !in e
    && Lower(e) == e
    && !IsTrimmable(e[0]) && !IsTrimmable(e[|e| - 1])
  }

  /** Writing normal entries comma-separated and parsing them back gives the same entries. */
  lemma ParseWhitelistJoin(es: seq<string>)
    requires |es| >= 1
    requires forall i :: 0 <= i < |es| ==> Normal(es[i])
    ensures ParseWhitelist(Join(es, ",")) == es
  {
    forall i | 0 <= i < |es|
      ensures |es[i]| > 0 && ',' !in es[i]
    {
      NormalIsPlain(es[i]);
    }
    SplitJoinCommaFree(es);
    var r := ParseWhitelist(Join(es, ","));
    forall i | 0 <= i < |es|
      ensures r[i] == es[i]
    {
      NormalIsParsed(es[i]);
    }
  }

  /** Comma-free, non-empty entries joined with commas split back into themselves. */
  lemma SplitJoinCommaFree(es: seq<string>)
    requires |es| >= 1
    requires forall i :: 0 <= i < |es| ==> |es[i]| > 0 && ',' !in es[i]
    ensures JavaSplit(Join(es, ","), ',') == es
  {
    JavaSplitJoin(es, ',');
    assert "," == [','];
  }

  lemma NormalIsPlain(e: string)
    requires Normal(e)
    ensures |e| > 0 && ',' !in e
  {
  }

  /** A normal entry parses to itself. */
  lemma NormalIsParsed(e: string)
    requires Normal(e)
    ensures Lower(Trim(e)) == e
  {
    TrimFixpoint(e);
  }

  /** An occurrence survives when its value or its tag's lemma is listed, compared lowercased. */
  predicate Listed(list: seq<string>, o: TagOccurrence) {
    Lower(o.value) in list || Lower(o.tagLemma) in list
  }

  /** The begin offsets whose first occurrence is not listed. */
  function DroppedKeys(list: seq<string>, s: Sentence): set<int>
    requires Structured(s)
  {
    set k | k in s.occurrences && !Listed(list, s.occurrences[k][0])
  }

  /** The lemmas of the dropped first occurrences. */
  function DroppedLemmas(list: seq<string>, s: Sentence): set<string>
    requires Structured(s)
  {
    set k | k in s.occurrences && !Listed(list, s.occurrences[k][0]) :: s.occurrences[k][0].tagLemma
  }

  /** The filter for a parsed, non-empty whitelist. */
  function FilterBy(list: seq<string>, s: Sentence): (r: Sentence)
    requires Structured(s)
    ensures r.id == s.id && r.phrases == s.phrases && r.dependencies == s.dependencies
    ensures forall k :: k in r.occurrences <==> k in s.occurrences && Listed(list, s.occurrences[k][0])
    ensures forall k :: k in r.occurrences ==> r.occurrences[k] == s.occurrences[k]
    ensures forall l :: l in r.tags <==> l in s.tags && s.tags[l].lemmaText !in DroppedLemmas(list, s)
    ensures forall l :: l in r.tags ==> r.tags[l] == s.tags[l]
  {
    var dropped := DroppedLemmas(list, s);
    s.(occurrences := map k | k in s.occurrences && Listed(list, s.occurrences[k][0]) :: s.occurrences[k],
       tags := map l | l in s.tags && s.tags[l].lemmaText !in dropped :: s.tags[l])
  }

  /**
    filterWhitelist: no whitelist, or one that splits into no fields at all
    (such as ","), leaves the sentence as it is.
  */
  function FilterWhitelist(whitelist: Option<string>, s: Sentence): (r: Sentence)
    requires Structured(s)
    ensures whitelist.None? ==> r == s
    ensures whitelist.Some? && |JavaSplit(whitelist.value, ',')| == 0 ==> r == s
    ensures whitelist.Some? && |JavaSplit(whitelist.value, ',')| > 0 ==> r == FilterBy(ParseWhitelist(whitelist.value), s)
  {
    match whitelist
    case None => s
    case Some(w) =>
      if |JavaSplit(w, ',')| == 0 then s else FilterBy(ParseWhitelist(w), s)
  }

  // ---------------------------------------------------------------------------
  // Properties

  /** Filtering keeps a sentence structured: occurrence lists stay non-empty and keyed by begin, tags by lemma. */
  lemma FilterStructured(list: seq<string>, s: Sentence)
    requires Structured(s)
    ensures Structured(FilterBy(list, s))
  {
  }

  /** Every first occurrence left after filtering is listed. */
  lemma FilterListed(list: seq<string>, s: Sentence)
    requires Structured(s)
    ensures forall k :: k in FilterBy(list, s).occurrences ==> Listed(list, FilterBy(list, s).occurrences[k][0])
  {
  }

  /** A sentence whose first occurrences are all listed loses nothing. */
  lemma FilterAllListed(list: seq<string>, s: Sentence)
    requires Structured(s)
    requires forall k :: k in s.occurrences ==> Listed(list, s.occurrences[k][0])
    ensures FilterBy(list, s) == s
  {
    var r := FilterBy(list, s);
    assert DroppedLemmas(list, s) == {};
    forall k | k in s.occurrences
      ensures k in r.occurrences
    {
    }
    assert r.occurrences == s.occurrences;
    assert r.tags.Keys == s.tags.Keys;
    assert r.tags == s.tags;
  }

  /** Filtering with the same whitelist a second time changes nothing. */
  lemma FilterIdempotent(whitelist: Option<string>, s: Sentence)
    requires Structured(s)
    ensures Structured(FilterWhitelist(whitelist, s))
    ensures FilterWhitelist(whitelist, FilterWhitelist(whitelist, s)) == FilterWhitelist(whitelist, s)
  {
    if whitelist.Some? && |JavaSplit(whitelist.value, ',')| > 0 {
      var list := ParseWhitelist(whitelist.value);
      FilterStructured(list, s);
      FilterListed(list, s);
      FilterAllListed(list, FilterBy(list, s));
    }
  }

  /**
    Dropping is by lemma, so an occurrence kept because its value is listed
    loses its tag when another occurrence of the same lemma is dropped (with
    "ran" listed, "ran" and "runs" both of lemma "run"): the filtered
    sentence is no longer linked.
  */
  lemma FilterCanUnlink(list: seq<string>, s: Sentence, kept: int, dropped: int)
    requires Structured(s) && kept in s.occurrences && dropped in s.occurrences
    requires s.occurrences[kept][0].tagLemma == s.occurrences[dropped][0].tagLemma
    requires Listed(list, s.occurrences[kept][0]) && !Listed(list, s.occurrences[dropped][0])
    ensures kept in FilterBy(list, s).occurrences
    ensures s.occurrences[kept][0].tagLemma !in FilterBy(list, s).tags
    ensures !Linked(FilterBy(list, s))
  {
    var r := FilterBy(list, s);
    var l := s.occurrences[kept][0].tagLemma;
    assert l in DroppedLemmas(list, s);
    assert r.occurrences[kept][0].tagLemma == l;
  }
}

=== FILE: wrappers.dfy ===
/** Option and Result: the model's stand-ins for Java's null and for exceptions. */
module Wrappers {

  /** A value that may be absent (Java null). */
  datatype Option<+T> = None | Some(value: T) {

    /** The value, or `default` when absent. */
    function GetOr(default: T): T {
      match this
      case Some(v) => v
      case None => default
    }
  }

  /** The outcome of an operation that may throw. */
  datatype Result<+T, +E> = Success(value: T) | Failure(error: E) {

    predicate IsFailure() {
      Failure?
    }

    function PropagateFailure<U>(): Result<U, E>
      requires Failure?
    {
      Failure(error)
    }

    function Extract(): T
      requires Success?
    {
      value
    }
  }
}
